=== FILE: README.md ===
# SWT bookkeeping in Dafny

This project models the plain, sequential bookkeeping of the Eclipse SWT
re-implementation whose widgets hand rendering either to Flutter (the
`Dart*` classes) or straight to GTK (`SwtControl`). Nothing of the
rendering is modelled. What remains is integer, bit-mask and array
logic with documented error codes. Each piece is written as a pure
function or a short method over immutable data, and lemmas state the
properties the code promises.

Modules, one per component:

- `Wrappers`: `Option`, `Result` and `Fault`. A fault is an SWT error code, a `NullPointerException` or an index that is out of bounds.
- `Seqs`: distinctness, permutations of `0..n-1`, the first bad entry of an index array, and Java `int` wrap-around and division.
- `Swt`: the constants of `SWT.java`, including the total error-text table and the classification done by `SWT.error`. It also covers the platform modifier masks and the key-code bit convention.
- `Geometry`: points and rectangles, and the overlap that `Rectangle.intersection` computes.
- `Traversal`: the mapping from key code to traversal detail, the walk up the parent chain, and the cyclic tab-group and tab-item walks.
- `Mnemonic`: finding and stripping the `&` mnemonic, where `&&` is an escape.
- `CTabFolder`: the item array, the `priority` permutation, `selectedIndex`, MRU mode, `setItemOrder`, page traversal and style normalisation.
- `GtkControl`: `SwtControl` on Linux. It covers `setBounds` with its MOVED/RESIZED result, size clamping, the Shell sort, the group and item walks, orientation and redraw.
- `DartGtkControl`, `DartWinControl`, `DartCocoaControl`: the `DartControl` of Linux, Windows and macOS. This is stored-bounds geometry, size computation, traversal codes, orientation and text direction, binary search, mnemonic lookup, colour arithmetic and monitor selection.
- `GcLine`: the line-attribute rules shared by both `DartGC`s. These are validation, the dirty groups, and the single-attribute setters.
- `GcGtk`: the Linux `DartGC`, with style normalisation, the setters and their cleared state bits, alpha, the identity-matrix test and the transformed clipping rectangle.
- `GcWin`: the Windows `DartGC`, with the `checkGC` state-bit algebra and the operation log that is replayed onto a new handle.
- `DartTable`: items, columns and the column order, the cached `indexOf`, selection, and the nested defer-resize counter.
- `DartAccessible`: the relation table, the reference count, the `IEnumVARIANT` cursor, key-binding and attribute parsing, child-ID conversion, and unique event child IDs.

Listeners, native calls and the Flutter bridge are left out. Where their
result matters, it becomes a parameter: whether a control is visible or
accepts focus, the children a listener reports, or the handle that
`internal_new_GC` returns. Events that the code sends become outputs.

## Model

| member | source | states |
|---|---|---|
| Swt.KeyCode | swt_native/src/macos/java/org/eclipse/swt/SWT.java:2883-2901 | a key code is KEYCODE_BIT plus a small offset, so it always has KEYCODE_BIT set |
| Swt.ErrorText | swt_native/src/macos/java/org/eclipse/swt/SWT.java:4694-4825 | `findErrorText` is total and every code gets a non-empty message |
| Swt.ErrorTextUnknown | swt_native/src/macos/java/org/eclipse/swt/SWT.java:4820-4825 | a code outside the defined error codes gets "Unknown error" |
| Swt.ErrorTextKnown | swt_native/src/macos/java/org/eclipse/swt/SWT.java:4694-4823 | every defined error code has a specific message, never "Unknown error" |
| Swt.Error | swt_native/src/macos/java/org/eclipse/swt/SWT.java:4959-4967 | a cause that is already an SWTError or SWTException is rethrown unchanged unless the code is FAILED_EXEC; otherwise the message is the code's text followed by the detail, and the thrown error keeps the code and the cause |
| Swt.ErrorIllegalArgument | swt_native/src/macos/java/org/eclipse/swt/SWT.java:4968-4981 | IllegalArgumentException is thrown exactly for the nine argument-error codes |
| Swt.ErrorException | swt_native/src/macos/java/org/eclipse/swt/SWT.java:4982-5002 | SWTException is thrown exactly for the fifteen recoverable codes |
| Swt.ErrorFatal | swt_native/src/macos/java/org/eclipse/swt/SWT.java:5003-5035 | SWTError is thrown for every other code, unknown codes included |
| Swt.ErrorClassesWellFormed | swt_native/src/macos/java/org/eclipse/swt/SWT.java:4968-5002 | the argument-error and recoverable classes are disjoint, all their codes are defined, and FAILED_EXEC is recoverable |
| Swt.PlatformModifiers | swt_native/src/macos/java/org/eclipse/swt/SWT.java:5038-5063 | MOD1 is COMMAND on "cocoa" and CONTROL elsewhere, MOD4 is CONTROL only on "cocoa"; the MODn are disjoint modifier bits inside MODIFIER_MASK and outside BUTTON_MASK |
| Swt.AcceleratorKeycodeBit | swt_native/src/macos/java/org/eclipse/swt/SWT.java:2862-2883 | `(MOD1 \| MOD2 \| 'T') & KEYCODE_BIT` is 0 and `(MOD3 \| F2) & KEYCODE_BIT` is not, on every platform |
| Swt.KeyCodesCarryKeycodeBit | swt_native/src/macos/java/org/eclipse/swt/SWT.java:2883-3295 | arrows, function keys, keypad keys and the other named key codes carry KEYCODE_BIT; ESC, CR and TAB do not |
| Seqs.FirstBadEntry | swt_native/src/windows/java/org/eclipse/swt/widgets/DartTable.java:1877-1886 | the validation loop finds nothing exactly when every entry is in 0..n-1 and no entry repeats; an out-of-range report points at an entry outside the range and a repeat report at an entry seen earlier; every entry before the reported one passed both tests |
| Seqs.ScanEntries | swt_native/src/windows/java/org/eclipse/swt/widgets/DartTable.java:1877-1886 | from position i on, the loop finds nothing exactly when the remaining entries are in range and none repeats an earlier one, and what it reports lies at or after i, with every entry between i and it passing both tests |
| Seqs.FirstBadEntryAt | swt_native/src/windows/java/org/eclipse/swt/widgets/DartTable.java:1878-1884 | the first position that fails a test is the one reported, as OutOfRange when its entry leaves 0..n-1 and as Repeated otherwise; the two kinds never meet at one position |
| Traversal.GtkKeyMapping | swt_native/src/linux/java/org/eclipse/swt/widgets/SwtControl.java:6594-6653 | with TRAVERSE_NONE, ESC and CR give ESCAPE and RETURN with doit set, arrows give ARROW_NEXT/PREVIOUS with doit cleared, TAB gives TAB_NEXT or TAB_PREVIOUS under SHIFT, PAGE_DOWN/UP give PAGE_NEXT/PREVIOUS only under CTRL, and any other key is a mnemonic exactly when a character comes with ALT and without CTRL; an explicit detail is kept |
| Traversal.CocoaKeyMapping | swt_native/src/macos/java/org/eclipse/swt/widgets/DartControl.java:2615-2670 | with TRAVERSE_NONE a key outside ESC, CR, the arrows, TAB and PAGE_UP/DOWN ends `traverse` at once, and no mnemonic detail is ever derived |
| Traversal.CocoaAgreesWithGtk | swt_native/src/macos/java/org/eclipse/swt/widgets/DartControl.java:2615-2670 | on every key both switches name, the macOS control derives the same detail and doit as the GTK control |
| Traversal.Classify | swt_native/src/linux/java/org/eclipse/swt/widgets/SwtControl.java:6663-6689 | ESCAPE, RETURN and the PAGE details walk the whole ancestor chain, ARROW and TAB details ask only the receiver, MNEMONIC goes to the mnemonic lookup, and every other detail is unsupported |
| Traversal.ChainWalkHandledBy | swt_native/src/linux/java/org/eclipse/swt/widgets/SwtControl.java:6690-6699 | the do-while loop succeeds exactly when some control on the chain handles the event and every control before it passes the event on (no veto by a Traverse hook, not the shell); without `all` only the receiver is asked |
| Traversal.GtkTraverse | swt_native/src/linux/java/org/eclipse/swt/widgets/SwtControl.java:6593-6700 | `traverse` succeeds only for the nine supported details, and for MNEMONIC its result is the mnemonic lookup's |
| Traversal.CocoaTraverse | swt_native/src/macos/java/org/eclipse/swt/widgets/DartControl.java:2615-2719 | corrected to walk the chain as the GTK and Windows controls do: on macOS an unlisted key or a MNEMONIC detail makes `traverse` return false, and only a walked detail can succeed |
| Traversal.CocoaTraverseAsWritten | swt_native/src/macos/java/org/eclipse/swt/widgets/DartControl.java:2615-2719 | as written, every detail that reaches the ancestor walk throws ClassCastException, because the walk casts the receiver's own Dart implementation to `SwtControl`; every other key returns false |
| Traversal.CocoaTraverseAsWrittenThrows | swt_native/src/macos/java/org/eclipse/swt/widgets/DartControl.java:2708-2712 | pressing Return throws as written, where the corrected walk answers whether some control on the chain handles it |
| Traversal.CocoaTraverseAsWrittenAgrees | swt_native/src/macos/java/org/eclipse/swt/widgets/DartControl.java:2615-2719 | wherever the as-written traversal returns, it returns what the corrected one does |
| Traversal.Step | swt_native/src/linux/java/org/eclipse/swt/widgets/SwtControl.java:6896 | `(index + offset + length) % length` stays in range and steps one position forward or back, wrapping at both ends |
| Traversal.StepAdvances | swt_native/src/linux/java/org/eclipse/swt/widgets/SwtControl.java:6896 | each step of the loop moves the walk from its k-th to its (k+1)-th position |
| Traversal.CycleVisitsEachOnce | swt_native/src/linux/java/org/eclipse/swt/widgets/SwtControl.java:6895-6901 | within one turn the walk never returns to its start |
| Traversal.Distance | swt_native/src/linux/java/org/eclipse/swt/widgets/SwtControl.java:6895-6901 | every position is reached after exactly one number of steps below the list length, zero only for the start |
| Traversal.DistanceUnique | swt_native/src/linux/java/org/eclipse/swt/widgets/SwtControl.java:6895-6901 | the step count of the k-th position is k, so no position is visited twice in a turn |
| Traversal.CycleFirstAccepting | swt_native/src/linux/java/org/eclipse/swt/widgets/SwtControl.java:6895-6901 | the loop returns the first accepting position in walk order, never the start, and reports none only when no other position accepts |
| Traversal.TraverseGroup | swt_native/src/linux/java/org/eclipse/swt/widgets/SwtControl.java:6877-6906 | `traverseGroup` is false when the group is not in the tab list; otherwise it succeeds exactly when some other group takes focus or the undisposed group itself does |
| Traversal.TraverseItem | swt_native/src/linux/java/org/eclipse/swt/widgets/SwtControl.java:6908-6934 | `traverseItem` is false when the receiver is not among its siblings; otherwise it succeeds exactly when some other sibling takes item focus |
| Mnemonic.MnemonicAt | swt_native/src/windows/java/org/eclipse/swt/custom/DartCTabFolder.java:1029-1036 | the mnemonic is the character after an `&` that is not part of an "&&" escape, and is itself not `&` |
| Mnemonic.NoAmpersandNoMnemonic | swt_native/src/windows/java/org/eclipse/swt/custom/DartCTabFolder.java:1029-1037 | a text without `&` has no mnemonic |
| Mnemonic.LeadingMnemonic | swt_native/src/windows/java/org/eclipse/swt/custom/DartCTabFolder.java:1029-1034 | a lone `&` at the start makes the second character the mnemonic |
| Mnemonic.ScanMnemonic | swt_native/src/windows/java/org/eclipse/swt/custom/DartCTabFolder.java:1027-1037 | the do-while scan shared by the mnemonic functions stops exactly at the first unescaped mnemonic character, or reports none |
| Mnemonic.FindMnemonic | swt_native/src/windows/java/org/eclipse/swt/widgets/DartControl.java:830-842 | `findMnemonic` returns the mnemonic character with its case kept, NUL when there is none, and fails with a NullPointerException on a null string |
| Mnemonic.ToLower | swt_native/src/windows/java/org/eclipse/swt/custom/DartCTabFolder.java:1034 | `Character.toLowerCase` maps A-Z to a-z and keeps every other character |
| Mnemonic.FindMnemonicLower | swt_native/src/windows/java/org/eclipse/swt/custom/DartCTabFolder.java:1024-1038 | `_findMnemonic` returns the lower-cased mnemonic character, and NUL for a null string or a text without a mnemonic |
| Mnemonic.StripMnemonic | swt_native/src/windows/java/org/eclipse/swt/custom/DartCTabFolder.java:1040-1053 | `stripMnemonic` deletes exactly the `&` in front of the mnemonic, returns a text without a mnemonic unchanged, and fails with a NullPointerException on a null string |
| Mnemonic.FixTextPlain | swt_native/src/linux/java/org/eclipse/swt/graphics/DartGC.java:1617-1636 | `fixMnemonic` leaves a text without `&` as it is |
| Mnemonic.FixMnemonicMatchesScan | swt_native/src/linux/java/org/eclipse/swt/graphics/DartGC.java:1617-1636 | `fixMnemonic` finds a mnemonic exactly when the scan of the other variants does, and the reported position in the rewritten text holds the same character |
| Mnemonic.FixMnemonic | swt_native/src/linux/java/org/eclipse/swt/graphics/DartGC.java:1617-1636 | the buffer keeps its length, starts with the rewrite (every unescaped `&` deleted, "&&" collapsed, a trailing `&` kept) and is NUL-filled after it; the result is -1 exactly when there is no mnemonic, otherwise one past the mnemonic's position in the rewrite |
| Mnemonic.CompactInPlace | swt_native/src/linux/java/org/eclipse/swt/graphics/DartGC.java:1618-1633 | the first loop writes the rewrite into the front of the buffer and remembers the first dropped `&` |
| Mnemonic.ZeroFill | swt_native/src/linux/java/org/eclipse/swt/graphics/DartGC.java:1634 | the second loop keeps the front and zeroes the rest of the buffer |
| CTabFolder.CheckStyle | swt_native/src/windows/java/org/eclipse/swt/custom/DartCTabFolder.java:411-436 | the result never has both TOP and BOTTOM or both SINGLE and MULTI, always has NO_REDRAW_RESIZE, keeps only the folder's style bits, lets TOP win over BOTTOM and MULTI over SINGLE, and adds DOUBLE_BUFFERED unless right-to-left or in a mirrored parent without LEFT_TO_RIGHT |
| CTabFolder.Bump | swt_native/src/windows/java/org/eclipse/swt/custom/DartCTabFolder.java:777-779 | old priority entries at or above the insertion index are renumbered up by one, the others kept |
| CTabFolder.BumpFreesIndex | swt_native/src/windows/java/org/eclipse/swt/custom/DartCTabFolder.java:773-781 | after renumbering, the old entries stay distinct and in range and the insertion index is free for the new tab |
| CTabFolder.InsertPriority | swt_native/src/windows/java/org/eclipse/swt/custom/DartCTabFolder.java:773-782 | the priority after `createItem` has one more entry, holds the new index at the new tab's rank, and holds the new index once beside the old entries renumbered past it |
| CTabFolder.InsertPriorityPermutation | swt_native/src/windows/java/org/eclipse/swt/custom/DartCTabFolder.java:773-782 | after `createItem` the priority is still a permutation of the item indices, with the new tab at its rank: last in MRU mode or when appended, otherwise at the position of the tab it displaced |
| CTabFolder.InsertPriorityKeepsOrder | swt_native/src/windows/java/org/eclipse/swt/custom/DartCTabFolder.java:773-782 | removing the new tab from the new priority gives back the old priority, renumbered |
| CTabFolder.InsertPriorityLoop | swt_native/src/windows/java/org/eclipse/swt/custom/DartCTabFolder.java:773-782 | the `for` loop of `createItem` computes exactly the inserted priority |
| CTabFolder.RemovePriority | swt_native/src/windows/java/org/eclipse/swt/custom/DartCTabFolder.java:817-824 | the priority after `destroyItem` is no longer than before and holds exactly the old entries other than the removed index, each above it lowered by one |
| CTabFolder.RemovePriorityShape | swt_native/src/windows/java/org/eclipse/swt/custom/DartCTabFolder.java:817-824 | the priority loop of `destroyItem` drops the removed index, keeps entries distinct, and decrements those above it |
| CTabFolder.RemovePriorityPermutation | swt_native/src/windows/java/org/eclipse/swt/custom/DartCTabFolder.java:817-824 | after removal the priority is a permutation of the remaining item indices |
| CTabFolder.MoveToFront | swt_native/src/windows/java/org/eclipse/swt/custom/DartCTabFolder.java:3984-3991 | the MRU promotion in `showItem` keeps the priority's length and entries and puts the shown tab first |
| CTabFolder.MoveToFrontKeepsOrder | swt_native/src/windows/java/org/eclipse/swt/custom/DartCTabFolder.java:3984-3991 | MRU promotion keeps the priority a permutation, puts the shown tab first and keeps the relative order of all other tabs |
| CTabFolder.MoveToFrontFirst | swt_native/src/windows/java/org/eclipse/swt/custom/DartCTabFolder.java:3984-3991 | promoting the tab that is already first changes nothing |
| CTabFolder.IndexOfItem | swt_native/src/windows/java/org/eclipse/swt/custom/DartCTabFolder.java:1450-1460 | `indexOf` fails with NULL_ARGUMENT for null, returns -1 exactly for a foreign item, and otherwise a position holding the item |
| CTabFolder.CreateItem | swt_native/src/windows/java/org/eclipse/swt/custom/DartCTabFolder.java:762-782 | `createItem` fails with INVALID_RANGE exactly outside 0..count; otherwise the new item sits at `index`, earlier items stay, later items shift right, and a selection at or above `index` is incremented |
| CTabFolder.CreateItemValid | swt_native/src/windows/java/org/eclipse/swt/custom/DartCTabFolder.java:762-782 | inserting a new tab keeps the folder's invariant: distinct tabs, priority a permutation, selection in range |
| CTabFolder.CreateItemKeepsSelection | swt_native/src/windows/java/org/eclipse/swt/custom/DartCTabFolder.java:770-771 | after an insertion the selection still designates the same tab |
| CTabFolder.SetSelection | swt_native/src/windows/java/org/eclipse/swt/custom/DartCTabFolder.java:3398-3432 | an out-of-range index is ignored; otherwise the index becomes the selection and, in MRU mode, the first priority entry, the priority staying a permutation |
| CTabFolder.ShowItem | swt_native/src/windows/java/org/eclipse/swt/custom/DartCTabFolder.java:3968-3995 | `showItem` fails with NULL_ARGUMENT for null and INVALID_ARGUMENT for a disposed or foreign item; it changes only the priority, and only in MRU mode |
| CTabFolder.ShowItemPromotes | swt_native/src/windows/java/org/eclipse/swt/custom/DartCTabFolder.java:3968-3991 | on a valid folder showing one of its tabs succeeds, keeps the invariant, and in MRU mode puts the tab first without disturbing the others' order |
| CTabFolder.DestroyItem | swt_native/src/windows/java/org/eclipse/swt/custom/DartCTabFolder.java:791-840 | `destroyItem` does nothing during dispose or for a foreign item; removing the only item empties items and priority and sets firstIndex and selectedIndex to -1; otherwise the item and its priority entry go and a selection above it is decremented |
| CTabFolder.DestroyItemValid | swt_native/src/windows/java/org/eclipse/swt/custom/DartCTabFolder.java:791-840 | removal keeps the folder's invariant, and a removed selected tab hands the selection to the first priority entry in MRU mode or to the previous tab (or 0) otherwise |
| CTabFolder.SetItemOrder | swt_native/src/windows/java/org/eclipse/swt/custom/DartCTabFolder.java:2988-3011 | `setItemOrder` fails with NULL_ARGUMENT for null and INVALID_ARGUMENT unless the indices are a permutation of 0..count-1; otherwise item i becomes old item `indices[i]` and the selection follows its item |
| CTabFolder.SetItemOrderValid | swt_native/src/windows/java/org/eclipse/swt/custom/DartCTabFolder.java:2988-3011 | a reordering by a permutation succeeds, keeps the invariant and keeps the selected tab selected |
| CTabFolder.PageTraversal | swt_native/src/windows/java/org/eclipse/swt/custom/DartCTabFolder.java:2091-2137 | with no items nothing changes; otherwise the new selection is a valid index, 0 when nothing was selected, and without MRU it is `(selectedIndex +/- 1 + count) % count` |
| CTabFolder.Visible | swt_native/src/windows/java/org/eclipse/swt/custom/DartCTabFolder.java:2105-2113 | the list built for MRU paging holds only positions of drawn tabs, all in range |
| CTabFolder.PageTraversalWraps | swt_native/src/windows/java/org/eclipse/swt/custom/DartCTabFolder.java:2100-2102 | without MRU, paging forward from the last tab selects the first and paging back from the first selects the last |
| CTabFolder.AddListener | swt_native/src/windows/java/org/eclipse/swt/custom/DartCTabFolder.java:460-469 | adding fails with NULL_ARGUMENT for null and otherwise appends the listener |
| CTabFolder.RemoveListener | swt_native/src/windows/java/org/eclipse/swt/custom/DartCTabFolder.java:2360-2382 | removing fails with NULL_ARGUMENT for null, and otherwise splices out the first registration of the listener, keeping the others in order, or leaves the array unchanged when it is absent |
| CTabFolder.RemoveUndoesAdd | swt_native/src/windows/java/org/eclipse/swt/custom/DartCTabFolder.java:2360-2382 | removing a listener that was just added restores the array |
| GtkControl.ClampHint | swt_native/src/linux/java/org/eclipse/swt/widgets/SwtControl.java:879-884 | `computeSize` replaces a negative hint other than DEFAULT with 0 and passes every other hint through |
| GtkControl.SetBounds | swt_native/src/linux/java/org/eclipse/swt/widgets/SwtControl.java:1124-1269 | width and height are capped at `(2<<14)-1` = 32767; outside a mirrored parent MOVED is reported exactly when a move was asked for and the origin differs, RESIZED exactly when a resize was asked for and the extent differs; a changed extent sets ZERO_WIDTH/ZERO_HEIGHT exactly when the new width/height is 0 and hides or shows the top handle; nothing else of the widget changes |
| GtkControl.SetBoundsPublic | swt_native/src/linux/java/org/eclipse/swt/widgets/SwtControl.java:1071-1075 | public `setBounds` clamps negative extents to 0 before the cap, so a resized widget has extent in 0..32767 |
| GtkControl.SetLocation | swt_native/src/linux/java/org/eclipse/swt/widgets/SwtControl.java:1348-1352 | `setLocation` moves without resizing and never reports RESIZED |
| GtkControl.SetSize | swt_native/src/linux/java/org/eclipse/swt/widgets/SwtControl.java:1531-1535 | `setSize` resizes with negative extents clamped to 0 and, outside a mirrored parent, leaves the origin alone |
| GtkControl.MirroredSetSizeKeepsRightEdge | swt_native/src/linux/java/org/eclipse/swt/widgets/SwtControl.java:1132-1142 | under a mirrored parent a resize keeps the right edge where it was |
| GtkControl.MirroredSetBoundsFromRight | swt_native/src/linux/java/org/eclipse/swt/widgets/SwtControl.java:1132-1142 | under a mirrored parent `x` is the distance of the right edge from the client area's right side |
| GtkControl.SetBoundsIdempotent | swt_native/src/linux/java/org/eclipse/swt/widgets/SwtControl.java:1124-1269 | setting the same bounds twice: the second call neither moves nor resizes nor changes the widget |
| GtkControl.CheckMirrored | swt_native/src/linux/java/org/eclipse/swt/widgets/SwtControl.java:807-810 | `checkMirrored` changes no bit other than MIRRORED |
| GtkControl.CheckMirroredSets | swt_native/src/linux/java/org/eclipse/swt/widgets/SwtControl.java:807-810 | after `checkMirrored` MIRRORED is set exactly when it was set before or the style is RIGHT_TO_LEFT |
| GtkControl.SetOrientation | swt_native/src/linux/java/org/eclipse/swt/widgets/SwtControl.java:5938-5948 | an orientation with neither or both direction bits is ignored; otherwise exactly the requested direction remains, MIRRORED is set exactly for RIGHT_TO_LEFT, and no other bit changes |
| GtkControl.SetOrientationIdempotent | swt_native/src/linux/java/org/eclipse/swt/widgets/SwtControl.java:5938-5948 | setting the same orientation twice equals setting it once |
| GtkControl.SetRedraw | swt_native/src/linux/java/org/eclipse/swt/widgets/SwtControl.java:6062-6100 | `setRedraw(false)` increments and `setRedraw(true)` decrements the counter; the redraw window is created on the 0 to 1 step and destroyed on the 1 to 0 step |
| GtkControl.SetRedrawBalanced | swt_native/src/linux/java/org/eclipse/swt/widgets/SwtControl.java:6062-6100 | a `setRedraw(false)` followed by `setRedraw(true)` restores the counter, and it freezes exactly when the second call thaws |
| GtkControl.Swap | swt_native/src/linux/java/org/eclipse/swt/widgets/SwtControl.java:6482-6484 | a swap exchanges two entries and keeps the multiset |
| GtkControl.Sort | swt_native/src/linux/java/org/eclipse/swt/widgets/SwtControl.java:6475-6489 | `sort` leaves a permutation of its input in non-increasing order |
| GtkControl.GapPass | swt_native/src/linux/java/org/eclipse/swt/widgets/SwtControl.java:6478-6487 | one pass for a fixed gap keeps the multiset, and the gap-1 pass sorts in non-increasing order |
| GtkControl.InsertSwap | swt_native/src/linux/java/org/eclipse/swt/widgets/SwtControl.java:6480-6485 | a swap in the gap-1 pass moves the inserted value one step down and keeps the insertion invariant |
| GtkControl.InsertKeep | swt_native/src/linux/java/org/eclipse/swt/widgets/SwtControl.java:6480-6485 | without a swap the inserted value is already in place and the invariant holds one step down |
| DartGtkControl.SetBounds | swt_native/src/linux/java/org/eclipse/swt/widgets/DartControl.java:790-858 | the stored bounds become `(x, y, w', h')` with width and height capped at 32767 whatever the move/resize flags; the result is 0 (neither MOVED nor RESIZED), and nothing else of the control changes |
| DartGtkControl.SetBoundsPublic | swt_native/src/linux/java/org/eclipse/swt/widgets/DartControl.java:766-770 | after public `setBounds` the location reads back as (x, y) and the size as the extent clamped to 0..32767 |
| DartGtkControl.SetLocation | swt_native/src/linux/java/org/eclipse/swt/widgets/DartControl.java:931-940 | `setLocation` stores the requested origin |
| DartGtkControl.SetSize | swt_native/src/linux/java/org/eclipse/swt/widgets/DartControl.java:1064-1074 | `setSize` stores the requested extent clamped to 0..32767 |
| DartGtkControl.GetLocation | swt_native/src/linux/java/org/eclipse/swt/widgets/DartControl.java:879-884 | `getLocationInPixels` returns exactly the stored x and y |
| DartGtkControl.GetSize | swt_native/src/linux/java/org/eclipse/swt/widgets/DartControl.java:961-964 | `getSizeInPixels` returns exactly the stored width and height |
| DartGtkControl.LocationAndSizeClobberEachOther | swt_native/src/linux/java/org/eclipse/swt/widgets/DartControl.java:931-940 | `setLocation` leaves the size at (0, 0) and `setSize` leaves the origin at (0, 0), so the two undo each other |
| DartGtkControl.BoundsRoundTrip | swt_native/src/linux/java/org/eclipse/swt/widgets/DartControl.java:766-884 | bounds within 0..32767 read back exactly as they were set |
| DartGtkControl.ComputeNativeSize | swt_native/src/linux/java/org/eclipse/swt/widgets/DartControl.java:616-628 | hints other than DEFAULT pass through; a single DEFAULT hint becomes 0; two DEFAULT hints give (DEFAULT, DEFAULT) |
| DartGtkControl.ComputeNativeSizeStable | swt_native/src/linux/java/org/eclipse/swt/widgets/DartControl.java:616-628 | the native size fed back in as hints gives the same size, since the 0 that replaces a single DEFAULT hint is a given hint the second time |
| DartGtkControl.ComputeSize | swt_native/src/linux/java/org/eclipse/swt/widgets/DartControl.java:607-614 | non-negative hints pass through, negative ones other than DEFAULT become 0 |
| DartGtkControl.ComputeSizeStable | swt_native/src/linux/java/org/eclipse/swt/widgets/DartControl.java:607-628 | the public size fed back in as hints comes back unchanged |
| DartGtkControl.SetRedraw | swt_native/src/linux/java/org/eclipse/swt/widgets/DartControl.java:3840-3851 | `setRedraw(false)` increments and `setRedraw(true)` decrements `drawCount`, the argument is recorded, and nothing else changes |
| DartGtkControl.SetRedrawNested | swt_native/src/linux/java/org/eclipse/swt/widgets/DartControl.java:3840-3851 | `depth` nested `setRedraw(false)` calls followed by as many `setRedraw(true)` calls restore the counter |
| DartGtkControl.FreezeCount | swt_native/src/linux/java/org/eclipse/swt/widgets/DartControl.java:3840-3851 | `depth` calls of `setRedraw(false)` raise the counter by `depth` |
| DartGtkControl.ThawCount | swt_native/src/linux/java/org/eclipse/swt/widgets/DartControl.java:3840-3851 | `depth` calls of `setRedraw(true)` lower the counter by `depth` |
| DartGtkControl.SetVisible | swt_native/src/linux/java/org/eclipse/swt/widgets/DartControl.java:3985-4028 | `setVisible` does nothing when HIDDEN already matches the request; otherwise it toggles HIDDEN, sends Show or Hide and records `visible`, stopping early when a listener disposed the control |
| DartGtkControl.SetVisibleToggle | swt_native/src/linux/java/org/eclipse/swt/widgets/DartControl.java:3985-4028 | hiding then showing (or the reverse) restores HIDDEN, and repeating a request sends no event |
| DartWinControl.SetLocation | swt_native/src/windows/java/org/eclipse/swt/widgets/DartControl.java:2969-2973 | `setLocationInPixels` replaces x and y and keeps width and height; null bounds raise a NullPointerException |
| DartWinControl.SetSize | swt_native/src/windows/java/org/eclipse/swt/widgets/DartControl.java:3189-3197 | `setSizeInPixels` stores width and height unclamped and keeps x and y, or uses origin (0, 0) when there were no bounds |
| DartWinControl.SetBoundsRect | swt_native/src/windows/java/org/eclipse/swt/widgets/DartControl.java:2683-2693 | `setBounds(Rectangle)` fails with NULL_ARGUMENT for null and otherwise stores the rectangle as given |
| DartWinControl.SetBoundsThenSetters | swt_native/src/windows/java/org/eclipse/swt/widgets/DartControl.java:2683-3197 | after `setBounds(r)`, moving to r's origin or resizing to r's extent leaves exactly r |
| DartWinControl.LocationSizeCommute | swt_native/src/windows/java/org/eclipse/swt/widgets/DartControl.java:2969-3197 | setting the size and then the location yields exactly the requested rectangle |
| DartWinControl.IsTabGroup | swt_native/src/windows/java/org/eclipse/swt/widgets/DartControl.java:1674-1683 | `isTabGroup` is true exactly when the control is in its parent's (non-null) tab list |
| DartWinControl.IsTabItem | swt_native/src/windows/java/org/eclipse/swt/widgets/DartControl.java:1685-1694 | `isTabItem` is exactly the negation of `isTabGroup` |
| DartWinControl.SetOrientation | swt_native/src/windows/java/org/eclipse/swt/widgets/DartControl.java:3058-3070 | an orientation with neither or both direction bits is ignored; otherwise exactly the requested direction remains, MIRRORED and FLIP_TEXT_DIRECTION are cleared, and no other bit changes |
| DartWinControl.SetOrientationOneDirection | swt_native/src/windows/java/org/eclipse/swt/widgets/DartControl.java:3058-3070 | after an accepted `setOrientation` exactly one direction bit is set |
| DartWinControl.SetTextDirection | swt_native/src/windows/java/org/eclipse/swt/widgets/DartControl.java:3263-3277 | the argument is recorded and HAS_AUTO_DIRECTION is set exactly when the argument masked to LTR\|RTL equals AUTO_TEXT_DIRECTION |
| DartWinControl.AutoDirectionIsBothBits | swt_native/src/windows/java/org/eclipse/swt/widgets/DartControl.java:3263-3277 | automatic direction is chosen exactly by giving both direction bits |
| DartWinControl.ComputeSize | swt_native/src/windows/java/org/eclipse/swt/widgets/DartControl.java:593-604 | with no border, given hints come back unchanged and each DEFAULT hint is replaced by the widget's default extent |
| DartWinControl.ComputeSizeStable | swt_native/src/windows/java/org/eclipse/swt/widgets/DartControl.java:593-604 | the computed size, used as the hints, gives the same size |
| DartWinControl.BinarySearch | swt_native/src/windows/java/org/eclipse/swt/widgets/DartControl.java:483-496 | over a sorted range, a non-negative result is a position of the key and a negative result is `-(insertion point) - 1` with smaller keys before and larger keys after the insertion point |
| DartWinControl.BinarySearchComplete | swt_native/src/windows/java/org/eclipse/swt/widgets/DartControl.java:483-496 | the result is non-negative exactly when the key occurs in the range |
| DartWinControl.Nudge | swt_native/src/windows/java/org/eclipse/swt/widgets/DartControl.java:1385-1387 | a channel above 127 moves down by 8 and any other channel up by 8, staying within 0..255 |
| DartWinControl.SlightlyDifferentBackground | swt_native/src/windows/java/org/eclipse/swt/widgets/DartControl.java:1380-1389 | every 8-bit channel of the result is the corresponding channel of the pixel nudged by 8 toward the middle, and the result fits in 24 bits |
| DartWinControl.PackChannels | swt_native/src/windows/java/org/eclipse/swt/widgets/DartControl.java:1388 | packing three channels and reading them back with mask and shift gives the channels |
| DartCocoaControl.SetLocation | swt_native/src/macos/java/org/eclipse/swt/widgets/DartControl.java:2126-2128 | `setLocation` keeps the current width and height and replaces x and y; null bounds raise a NullPointerException |
| DartCocoaControl.SetSize | swt_native/src/macos/java/org/eclipse/swt/widgets/DartControl.java:2283-2285 | `setSize` keeps the current x and y and replaces width and height; null bounds raise a NullPointerException |
| DartCocoaControl.SetBounds | swt_native/src/macos/java/org/eclipse/swt/widgets/DartControl.java:1957-1959 | `setBounds(Rectangle)` accepts anything: a rectangle is stored so that moving to its origin and resizing to its extent change nothing, and null is stored so that both setters then fail |
| DartCocoaControl.SetBoundsThenSetters | swt_native/src/macos/java/org/eclipse/swt/widgets/DartControl.java:1957-2285 | after `setBounds(r)`, `setLocation` keeps r's extent and `setSize` keeps r's origin |
| DartCocoaControl.SetBoundsNullBreaksSetters | swt_native/src/macos/java/org/eclipse/swt/widgets/DartControl.java:1957-2285 | `setBounds(null)` is accepted, and every later `setLocation` and `setSize` fails with a NullPointerException |
| DartCocoaControl.LocationThenSize | swt_native/src/macos/java/org/eclipse/swt/widgets/DartControl.java:2126-2285 | moving then resizing, in either order, gives exactly the requested rectangle |
| DartCocoaControl.ComputeSize | swt_native/src/macos/java/org/eclipse/swt/widgets/DartControl.java:533-545 | each dimension is the hint when not DEFAULT, else the default size, since the border width is 0 |
| DartCocoaControl.ComputeSizeAgreesWithWindows | swt_native/src/macos/java/org/eclipse/swt/widgets/DartControl.java:533-545 | the macOS and Windows controls compute the same size for every hint and default |
| DartCocoaControl.TraversalCode | swt_native/src/macos/java/org/eclipse/swt/widgets/DartControl.java:2525-2531 | a shell whose implementation is not a native `SwtControl` makes the cast throw ClassCastException; otherwise the code always has RETURN, TAB_NEXT/PREVIOUS and PAGE_NEXT/PREVIOUS, has ESCAPE exactly when the shell has a parent, and never has arrow or mnemonic bits |
| DartCocoaControl.IsTabGroup | swt_native/src/macos/java/org/eclipse/swt/widgets/DartControl.java:1211-1223 | a null parent throws a NullPointerException and a Dart parent or, for an unlisted control, a Dart shell throws ClassCastException; whenever it returns, `isTabGroup` is true |
| DartCocoaControl.TabGroupIsNotTabItem | swt_native/src/macos/java/org/eclipse/swt/widgets/DartControl.java:1211-1235 | `isTabGroup` and `isTabItem` throw on the same inputs with the same fault, and otherwise give opposite answers |
| DartCocoaControl.IsTabItem | swt_native/src/macos/java/org/eclipse/swt/widgets/DartControl.java:1225-1235 | the same null and ClassCastException cases as `isTabGroup`; whenever it returns, `isTabItem` is false |
| DartCocoaControl.MoveRelative | swt_native/src/macos/java/org/eclipse/swt/widgets/DartControl.java:1276-1316 | `moveAbove`/`moveBelow` fail with INVALID_ARGUMENT for a disposed sibling, throw ClassCastException for a sibling whose implementation is not a native `SwtControl`, do nothing for a sibling with another parent, and otherwise reach `setZOrder` |
| DartCocoaControl.AxisGap | swt_native/src/macos/java/org/eclipse/swt/widgets/DartControl.java:933-934 | the distance on one axis is non-negative and 0 inside the monitor's span |
| DartCocoaControl.GetMonitor | swt_native/src/macos/java/org/eclipse/swt/widgets/DartControl.java:912-944 | the only monitor is returned when there is one; otherwise the first monitor with the largest positive intersection area, else the first with the least squared distance from the bounds' centre; no monitors at all give an index error |
| DartCocoaControl.LargestOverlap | swt_native/src/macos/java/org/eclipse/swt/widgets/DartControl.java:922-931 | the first loop finds the first monitor with the largest positive overlap, or none exactly when no monitor overlaps |
| DartCocoaControl.NearestCentre | swt_native/src/macos/java/org/eclipse/swt/widgets/DartControl.java:932-942 | the second loop finds the first monitor at least squared distance from the centre |
| DartCocoaControl.ContainedControlOverlaps | swt_native/src/macos/java/org/eclipse/swt/widgets/DartControl.java:922-928 | a control with positive extent inside a monitor overlaps it by its whole area, so the distance fallback is not used |
| GcLine.Stale | swt_native/src/linux/java/org/eclipse/swt/graphics/DartGC.java:3187 | clearing dirty bits from `data.state` clears exactly those bits and keeps the others |
| GcLine.ScanDashes | swt_native/src/linux/java/org/eclipse/swt/graphics/DartGC.java:3145-3153 | the dash loop raises INVALID_ARGUMENT exactly when some dash is <= 0, and otherwise reports a change exactly when the stored dashes differ or were already known to differ |
| GcLine.NewDashes | swt_native/src/linux/java/org/eclipse/swt/graphics/DartGC.java:3143-3168 | non-empty new dashes are stored; without them the stored dashes end up empty or null, and stay as they were when already empty |
| GcLine.SetLineAttributes | swt_native/src/linux/java/org/eclipse/swt/graphics/DartGC.java:3091-3187 | INVALID_ARGUMENT is raised exactly for a changed style, join or cap that is not a known constant, or a non-positive dash; each attribute group is dirty exactly when its value differs; a dirty call stores every attribute as given except that a changed LINE_CUSTOM without dashes becomes LINE_SOLID, and a clean call changes nothing |
| GcLine.CleanStoreIsNoOp | swt_native/src/linux/java/org/eclipse/swt/graphics/DartGC.java:3177-3178 | when nothing is dirty, storing the attributes would not change the data either, so the early return only saves work |
| GcLine.SetLineAttributesWellFormed | swt_native/src/linux/java/org/eclipse/swt/graphics/DartGC.java:3091-3187 | setting line attributes keeps the style, join and cap known and the dashes positive |
| GcLine.SetLineAttributesSettles | swt_native/src/linux/java/org/eclipse/swt/graphics/DartGC.java:3091-3187 | applying the same attributes twice finds nothing dirty the second time, unless LINE_CUSTOM was turned into LINE_SOLID |
| GcLine.SetStyle | swt_native/src/linux/java/org/eclipse/swt/graphics/DartGC.java:3333-3359 | `setLineStyle` does nothing for the current style, raises INVALID_ARGUMENT for an unknown one, and stores LINE_CUSTOM as LINE_SOLID when there are no dashes |
| GcLine.SetCap | swt_native/src/linux/java/org/eclipse/swt/graphics/DartGC.java:3206-3226 | `setLineCap` does nothing for the current cap, raises INVALID_ARGUMENT for an unknown one, and otherwise stores it |
| GcLine.SetJoin | swt_native/src/linux/java/org/eclipse/swt/graphics/DartGC.java:3296-3316 | `setLineJoin` does nothing for the current join, raises INVALID_ARGUMENT for an unknown one, and otherwise stores it |
| GcLine.SetDash | swt_native/src/linux/java/org/eclipse/swt/graphics/DartGC.java:3245-3278 | a non-empty array raises INVALID_ARGUMENT for a dash <= 0 and otherwise sets LINE_CUSTOM with the values; a null or empty array gives LINE_SOLID with null dashes, leaving an already solid GC untouched; only style and dashes change, and state is cleared exactly when something changed |
| GcLine.SettersWellFormed | swt_native/src/linux/java/org/eclipse/swt/graphics/DartGC.java:3206-3359 | every single-attribute setter keeps the line data well formed |
| GcLine.SetDashIdempotent | swt_native/src/linux/java/org/eclipse/swt/graphics/DartGC.java:3245-3278 | setting the same dashes twice is setting them once, and the second call stores nothing |
| GcLine.SingleSettersAgreeWithAttributes | swt_native/src/linux/java/org/eclipse/swt/graphics/DartGC.java:3206-3359 | the cap, join and style setters do what `setLineAttributesInPixels` does when only that attribute changes |
| GcGtk.CheckStyle | swt_native/src/linux/java/org/eclipse/swt/graphics/DartGC.java:212-216 | only LEFT_TO_RIGHT and RIGHT_TO_LEFT survive, and LEFT_TO_RIGHT wins when both are given |
| GcGtk.CheckStyleIdempotent | swt_native/src/windows/java/org/eclipse/swt/graphics/DartGC.java:201-205 | normalising twice is normalising once; the Windows `checkStyle` follows the same rule |
| GcGtk.MaskOf | swt_native/src/linux/java/org/eclipse/swt/graphics/DartGC.java:3096-3176 | the mask has a dirty group's bits exactly when that group is dirty, no other bits, and is 0 exactly when nothing is dirty |
| GcGtk.SetLineAttributes | swt_native/src/linux/java/org/eclipse/swt/graphics/DartGC.java:3082-3187 | a disposed GC raises GRAPHIC_DISPOSED and null attributes NULL_ARGUMENT; otherwise the line data and the cleared state bits are those of the line-attribute rules, and nothing else changes |
| GcGtk.SetLineDash | swt_native/src/linux/java/org/eclipse/swt/graphics/DartGC.java:3245-3278 | `int` dashes are stored as floats under LINE_CUSTOM, a null or empty array gives LINE_SOLID, and LINE_STYLE is cleared exactly when the line data changed |
| GcGtk.SetLineStyle | swt_native/src/linux/java/org/eclipse/swt/graphics/DartGC.java:3333-3359 | `setLineStyle` raises GRAPHIC_DISPOSED on a disposed GC and INVALID_ARGUMENT for a changed unknown style, and clears LINE_STYLE only when the style changes |
| GcGtk.SetLineCap | swt_native/src/linux/java/org/eclipse/swt/graphics/DartGC.java:3206-3226 | `setLineCap` stores a changed known cap and clears LINE_CAP, and does nothing for the current cap |
| GcGtk.SetLineJoin | swt_native/src/linux/java/org/eclipse/swt/graphics/DartGC.java:3296-3316 | `setLineJoin` stores a changed known join and clears LINE_JOIN, and does nothing for the current join |
| GcGtk.CapAgreesWithAttributes | swt_native/src/linux/java/org/eclipse/swt/graphics/DartGC.java:3082-3226 | `setLineCap` changes exactly what `setLineAttributes` changes when only the cap differs |
| GcGtk.SetAlpha | swt_native/src/linux/java/org/eclipse/swt/graphics/DartGC.java:2499-2511 | `setAlpha` raises GRAPHIC_DISPOSED on a disposed GC, does nothing on a GC without Cairo when the low byte is 0xff, and otherwise stores `alpha & 0xff` and clears BACKGROUND, FOREGROUND and BACKGROUND_BG |
| GcGtk.SetAlphaLowByte | swt_native/src/linux/java/org/eclipse/swt/graphics/DartGC.java:2499-2511 | only the low byte of the argument matters, and setting the same alpha twice is setting it once |
| GcGtk.IsIdentity | swt_native/src/linux/java/org/eclipse/swt/graphics/DartGC.java:2411-2415 | null is the identity; otherwise the result is true exactly for `[1, 0, 0, 1, 0, 0]`, and a shorter array that matches so far fails with an index error |
| GcGtk.MatchesFrom | swt_native/src/linux/java/org/eclipse/swt/graphics/DartGC.java:2414 | the left-to-right comparison of the six entries succeeds exactly when they are the identity's |
| GcGtk.TransformedClippingRectangle | swt_native/src/linux/java/org/eclipse/swt/graphics/DartGC.java:2702-2718 | x and y are the minimum corner coordinates, the width is `\|x1 - x2\|` and the height `\|y1 - y4\|` |
| GcGtk.ClippingRectangleRoundTrip | swt_native/src/linux/java/org/eclipse/swt/graphics/DartGC.java:2702-2718 | the corners of a rectangle give the rectangle back, also after a horizontal mirror |
| GcWin.CheckGC | swt_native/src/windows/java/org/eclipse/swt/graphics/DartGC.java:223-407 | `checkGC` leaves an up-to-date state alone, otherwise adds the mask, and on a non-advanced GC then settles the pen and brush selection from the bits that were missing |
| GcWin.MissingBits | swt_native/src/windows/java/org/eclipse/swt/graphics/DartGC.java:227 | `(state ^ mask) & mask` is exactly the mask bits the state lacks |
| GcWin.CheckGCSelects | swt_native/src/windows/java/org/eclipse/swt/graphics/DartGC.java:393-407 | outside the advanced mode, a missing foreground or line attribute selects a real pen and a missing background a real brush, and no bit other than the four selection bits differs from `state \| mask` |
| GcWin.Select | swt_native/src/windows/java/org/eclipse/swt/graphics/DartGC.java:393-407 | the selection step touches only PEN, NULL_PEN, BRUSH and NULL_BRUSH, and selects a real pen or brush when its sources were missing |
| GcWin.SelectPen | swt_native/src/windows/java/org/eclipse/swt/graphics/DartGC.java:393-399 | a missing pen source selects PEN and clears NULL_PEN; otherwise a missing PEN clears NULL_PEN and a missing NULL_PEN clears PEN; with none of them missing nothing changes |
| GcWin.SelectBrush | swt_native/src/windows/java/org/eclipse/swt/graphics/DartGC.java:400-407 | a missing background selects BRUSH and clears NULL_BRUSH; otherwise a missing BRUSH clears NULL_BRUSH and a missing NULL_BRUSH clears BRUSH; with none of them missing nothing changes |
| GcWin.CheckGCKeepsExclusive | swt_native/src/windows/java/org/eclipse/swt/graphics/DartGC.java:393-407 | a state that never selects a pen together with the null pen, nor a brush together with the null brush, stays so after `checkGC` with any mask |
| GcWin.CheckGCDraw | swt_native/src/windows/java/org/eclipse/swt/graphics/DartGC.java:108 | after `checkGC(DRAW)` every DRAW bit is set, a real pen is selected and no brush, and a second `checkGC(DRAW)` changes nothing |
| GcWin.CheckGCFill | swt_native/src/windows/java/org/eclipse/swt/graphics/DartGC.java:110 | after `checkGC(FILL)` every FILL bit is set, a real brush is selected and no pen, and a second `checkGC(FILL)` changes nothing |
| GcWin.MaskOf | swt_native/src/windows/java/org/eclipse/swt/graphics/DartGC.java:3800-3891 | the state bits to clear are non-zero exactly when some attribute group is dirty, one group of bits per dirty group |
| GcWin.ApplyAlpha | swt_native/src/windows/java/org/eclipse/swt/graphics/DartGC.java:3192-3203 | `SetAlphaOperation` ignores an opaque alpha on a non-advanced GC and otherwise stores `alpha & 0xFF`, makes BACKGROUND and FOREGROUND stale and drops both pattern-alpha caches |
| GcWin.ApplyFillRule | swt_native/src/windows/java/org/eclipse/swt/graphics/DartGC.java:3528-3537 | `SetFillRuleOperation` accepts exactly FILL_WINDING and FILL_EVEN_ODD, leaving the data as it was, and raises INVALID_ARGUMENT otherwise |
| GcWin.ApplyLineAttributes | swt_native/src/windows/java/org/eclipse/swt/graphics/DartGC.java:3798-3892 | the corrected Windows `setLineAttributesInPixels`, which copies the dashes where the source's empty loop leaves them zero (Findings), throws exactly when the line rules reject the attributes, leaves the data alone when nothing is dirty, and otherwise stores the new line data and clears the dirty groups' state bits |
| GcWin.Apply | swt_native/src/windows/java/org/eclipse/swt/graphics/DartGC.java:3183-4111 | an operation's `apply` keeps the GC's mode; only `SetAlphaOperation` touches alpha and the pattern caches, and it leaves the line data alone; operations with empty `apply` change nothing |
| GcWin.ApplyWellFormed | swt_native/src/windows/java/org/eclipse/swt/graphics/DartGC.java:3183-4111 | under the corrected dash copying of the Findings, every operation keeps the style, join and cap known and the dashes positive; as written, the stored dashes are zeros |
| GcWin.Replay | swt_native/src/windows/java/org/eclipse/swt/graphics/DartGC.java:4502-4504 | replaying the operation log: an empty log leaves the data alone, a one-entry log is that operation's `apply`, a throwing first operation ends the replay with its fault, and a completed replay keeps the GC's mode |
| GcWin.ReplayAppend | swt_native/src/windows/java/org/eclipse/swt/graphics/DartGC.java:4502-4504 | replaying a log with one more operation is replaying the log and then applying that operation, and an exception stops the replay |
| GcWin.Store | swt_native/src/windows/java/org/eclipse/swt/graphics/DartGC.java:4493-4496 | `storeAndApplyOperationForExistingHandle` always logs the operation, then applies it, keeping the old data when `apply` throws |
| GcWin.Set | swt_native/src/windows/java/org/eclipse/swt/graphics/DartGC.java:2989-2993 | a public setter on a disposed GC raises GRAPHIC_DISPOSED and logs nothing; otherwise it stores the operation |
| GcWin.SetLineAttributes | swt_native/src/windows/java/org/eclipse/swt/graphics/DartGC.java:3772-3782 | null attributes raise NULL_ARGUMENT before the disposed check; otherwise the call is an ordinary setter |
| GcWin.StoreInSync | swt_native/src/windows/java/org/eclipse/swt/graphics/DartGC.java:4493-4506 | after a setter that returns normally, replaying the log onto the initial data gives the current data; after one that throws, replaying the log throws the same fault |
| GcWin.CreateGcHandle | swt_native/src/windows/java/org/eclipse/swt/graphics/DartGC.java:4498-4506 | a 0 handle raises NO_HANDLES; otherwise the new data receives every logged operation in order, and the call fails exactly when the replay does |
| GcWin.CreateGcHandleRestores | swt_native/src/windows/java/org/eclipse/swt/graphics/DartGC.java:4498-4506 | a new handle whose data starts as the original did comes back with exactly the current data |
| GcWin.Dispose | swt_native/src/windows/java/org/eclipse/swt/graphics/DartGC.java:4509-4519 | `dispose` marks the GC disposed and empties the log |
| GcWin.DisposeEmptiesLog | swt_native/src/windows/java/org/eclipse/swt/graphics/DartGC.java:4509-4519 | after `dispose` every setter raises GRAPHIC_DISPOSED and logs nothing, and a new handle keeps its data as created |
| GcWin.SetLineAttributesAsWritten | swt_native/src/windows/java/org/eclipse/swt/graphics/DartGC.java:3858-3862 | as written, changed dashes are stored as an all-zero array of the same length; in every other case the result is that of the copying version |
| GcWin.SetLineAttributesAsWrittenLosesDashes | swt_native/src/windows/java/org/eclipse/swt/graphics/DartGC.java:3858-3862 | setting dashes 3 and 1 as written stores 0 and 0, which is not well formed and stays dirty on a second call, while the copying version stores 3 and 1 |
| GcWin.SetDashAsWritten | swt_native/src/windows/java/org/eclipse/swt/graphics/DartGC.java:3982-4004 | as written, `SetLineDashOperation` compares against a fresh all-zero array and stores that array under LINE_CUSTOM; null or empty dashes behave as in the copying version |
| GcWin.SetDashAsWrittenLosesDashes | swt_native/src/windows/java/org/eclipse/swt/graphics/DartGC.java:3982-4004 | `setLineDash([3, 1])` on a solid line stores the dashes 0 and 0 as written, where the copying version stores 3 and 1 |
| DartTable.CheckStyle | swt_native/src/windows/java/org/eclipse/swt/widgets/DartTable.java:282-285 | H_SCROLL and V_SCROLL are present afterwards exactly when NO_SCROLL is absent or the bit was given, and every other bit is kept |
| DartTable.CheckStyleIdempotent | swt_native/src/windows/java/org/eclipse/swt/widgets/DartTable.java:282-285 | normalising the style twice is normalising it once |
| DartTable.LastIndexOf | swt_native/src/windows/java/org/eclipse/swt/widgets/DartTable.java:1428-1431 | the backward search finds the last occurrence, with no occurrence after it, and -1 exactly when the item is absent |
| DartTable.IndexOfItem | swt_native/src/windows/java/org/eclipse/swt/widgets/DartTable.java:1409-1434 | a null item raises NULL_ARGUMENT; otherwise the answer is a position holding the item, or -1 exactly when the item is absent; a hit moves `lastIndexOf` to the answer and a miss leaves it |
| DartTable.IndexOfItemIgnoresCache | swt_native/src/windows/java/org/eclipse/swt/widgets/DartTable.java:1409-1434 | in a table without duplicate items the answer is the item's one position, whatever `lastIndexOf` held |
| DartTable.CreateItem | swt_native/src/windows/java/org/eclipse/swt/widgets/DartTable.java:561-571 | an index outside 0..length raises INVALID_RANGE; index == length appends, any other index overwrites that slot, and every other slot keeps its item |
| DartTable.CreateItemThenIndexOf | swt_native/src/windows/java/org/eclipse/swt/widgets/DartTable.java:561-571 | an item appended to a table without it is then found at the last position |
| DartTable.Live | swt_native/src/windows/java/org/eclipse/swt/widgets/DartTable.java:513-528 | the live columns are the first `columnCount` slots, all non-null |
| DartTable.CreateColumn | swt_native/src/windows/java/org/eclipse/swt/widgets/DartTable.java:513-528 | an index outside 0..columnCount raises INVALID_RANGE; otherwise the column is inserted at the index with the later columns shifted right, `columnCount` grows by one, and a full array grows by 4 empty slots |
| DartTable.CreateColumnPacked | swt_native/src/windows/java/org/eclipse/swt/widgets/DartTable.java:513-528 | inserting a column keeps the live slots non-null and the rest null, and the live columns gain the new one at the index |
| DartTable.Renumber | swt_native/src/windows/java/org/eclipse/swt/widgets/DartTable.java:758-766 | every order entry above the removed index drops by one and the others are kept |
| DartTable.DropFromOrder | swt_native/src/windows/java/org/eclipse/swt/widgets/DartTable.java:758-766 | when the removed index is not in the order, dropping it only renumbers |
| DartTable.DropFromOrderAt | swt_native/src/windows/java/org/eclipse/swt/widgets/DartTable.java:758-766 | dropping the removed index from an order holding it once is renumbering the order without that entry |
| DartTable.DropFromOrderPermutation | swt_native/src/windows/java/org/eclipse/swt/widgets/DartTable.java:758-766 | dropping an index from a permutation of 0..n-1 gives a permutation of 0..n-2 |
| DartTable.RenumberPermutation | swt_native/src/windows/java/org/eclipse/swt/widgets/DartTable.java:758-766 | renumbering the n-1 distinct entries other than the removed index gives a permutation of 0..n-2 |
| DartTable.Compact | swt_native/src/windows/java/org/eclipse/swt/widgets/DartTable.java:739-740 | removing a live column keeps the others in order, frees the last live slot and decrements `columnCount` |
| DartTable.DestroyColumn | swt_native/src/windows/java/org/eclipse/swt/widgets/DartTable.java:690-788 | a column not in the table makes the array copy throw; otherwise that column leaves the live columns, the others keep their order, the freed slot is null, and the new order is a permutation of the remaining columns |
| DartTable.Moved | swt_native/src/windows/java/org/eclipse/swt/widgets/DartTable.java:774-785 | the moved columns are those displayed from the given order position on, in display order |
| DartTable.DestroyColumnOrder | swt_native/src/windows/java/org/eclipse/swt/widgets/DartTable.java:758-766 | the new order drops the removed index from the old order and renumbers the rest, and is a permutation |
| DartTable.DestroyColumnMoves | swt_native/src/windows/java/org/eclipse/swt/widgets/DartTable.java:774-785 | exactly the columns displayed after the removed one get a Move event, in display order |
| DartTable.CreateThenDestroyColumn | swt_native/src/windows/java/org/eclipse/swt/widgets/DartTable.java:513-788 | creating a column and then destroying it leaves the live columns as they were |
| DartTable.DestroyColumnAsWritten | swt_native/src/windows/java/org/eclipse/swt/widgets/DartTable.java:690-788 | as written, the order searched is all zeros, so destroying a column that is not the first one throws while columns remain |
| DartTable.DestroyColumnAsWrittenThrows | swt_native/src/windows/java/org/eclipse/swt/widgets/DartTable.java:697-788 | destroying the second of two columns throws as written, while the version that uses the real order leaves the first column |
| DartTable.SetColumnOrder | swt_native/src/windows/java/org/eclipse/swt/widgets/DartTable.java:1860-1900 | null raises NULL_ARGUMENT; with no columns only an empty order is accepted; otherwise the order is stored exactly when it is a permutation of the columns, a wrong length raises INVALID_ARGUMENT; otherwise the first bad entry decides the fault, INVALID_RANGE when it is out of range and INVALID_ARGUMENT when it repeats an earlier one |
| DartTable.SetColumnOrderFirstBadWins | swt_native/src/windows/java/org/eclipse/swt/widgets/DartTable.java:1878-1884 | with three columns `[0, 0, 7]` raises INVALID_ARGUMENT and `[7, 0, 0]` raises INVALID_RANGE |
| DartTable.GetSelectionIndex | swt_native/src/windows/java/org/eclipse/swt/widgets/DartTable.java:1251-1254 | `getSelectionIndex` is the first selected index, or -1 for an empty selection |
| DartTable.DeselectAll | swt_native/src/windows/java/org/eclipse/swt/widgets/DartTable.java:683-688 | `deselectAll` leaves nothing selected |
| DartTable.Select | swt_native/src/windows/java/org/eclipse/swt/widgets/DartTable.java:1653-1675 | `select(int[])` raises NULL_ARGUMENT for null, ignores an empty array and, under SINGLE, several indices, and otherwise makes the indices the selection |
| DartTable.SelectIndex | swt_native/src/windows/java/org/eclipse/swt/widgets/DartTable.java:1703-1716 | `select(int)` ignores a negative index and otherwise selects exactly that index |
| DartTable.SelectRangeAsWritten | swt_native/src/windows/java/org/eclipse/swt/widgets/DartTable.java:1741-1749 | as written, an accepted range selects its start before the start is clamped at 0 |
| DartTable.SelectRange | swt_native/src/windows/java/org/eclipse/swt/widgets/DartTable.java:1741-1749 | an empty, negative or (under SINGLE) multi-item range is ignored; otherwise exactly one index is selected, inside 0..end, and it is the start when the start is not negative |
| DartTable.SelectRangeAsWrittenNegative | swt_native/src/windows/java/org/eclipse/swt/widgets/DartTable.java:1741-1749 | `select(-3, 2)` makes `getSelectionIndex` report -3 as written and 0 when the start is clamped |
| DartTable.SetSelection | swt_native/src/windows/java/org/eclipse/swt/widgets/DartTable.java:2390-2408 | `setSelection(int[])` raises NULL_ARGUMENT for null, and otherwise the selection is the indices, or nothing when they are ignored |
| DartTable.SetSelectionIndex | swt_native/src/windows/java/org/eclipse/swt/widgets/DartTable.java:2498-2505 | `setSelection(int)` selects exactly a non-negative index and nothing otherwise |
| DartTable.SetSelectionRange | swt_native/src/windows/java/org/eclipse/swt/widgets/DartTable.java:2530-2539 | `setSelection(start, end)` clears the selection and then selects the clamped start of an accepted range |
| DartTable.FirstPresent | swt_native/src/windows/java/org/eclipse/swt/widgets/DartTable.java:2471-2477 | the position, within a stretch of the listed entries, of the first one that is a non-null item of the table, with no earlier entry of the stretch present, or -1 when none is |
| DartTable.SelectItemsDown | swt_native/src/windows/java/org/eclipse/swt/widgets/DartTable.java:2471-2477 | the downward loop of `setSelection(TableItem[])` throws NULL_ARGUMENT exactly when some entry is null; either way it leaves selected, with the `lastIndexOf` cache on it, the first listed item in the table after the last null entry, or keeps the selection and cache it started with when there is none |
| DartTable.SetSelectionItems | swt_native/src/windows/java/org/eclipse/swt/widgets/DartTable.java:2463-2481 | `setSelection(TableItem[])` raises NULL_ARGUMENT for a null array with nothing changed; it clears the selection, selects nothing for an ignored list, and otherwise raises NULL_ARGUMENT exactly when an entry is null while leaving selected, with the cache on it, the first listed item in the table after the last null entry, or nothing |
| DartTable.SetSelectionItemsDistinct | swt_native/src/windows/java/org/eclipse/swt/widgets/DartTable.java:2463-2481 | with distinct items and no null entry nothing is thrown and the selection is exactly the table position of the first listed item present, whatever `lastIndexOf` held |
| DartTable.SetSelectionItemsNullAfterSelect | swt_native/src/windows/java/org/eclipse/swt/widgets/DartTable.java:2463-2481 | a null entry listed before an item of the table makes `setSelection(TableItem[])` throw NULL_ARGUMENT only after that item has been selected and the cache moved to it |
| DartTable.SetSelectionItem | swt_native/src/windows/java/org/eclipse/swt/widgets/DartTable.java:2431-2436 | `setSelection(TableItem)` raises NULL_ARGUMENT for null with nothing changed, and otherwise throws nothing and selects the item's position when it is in the table and nothing otherwise |
| DartTable.SetSelectionThenGetSelectionIndex | swt_native/src/windows/java/org/eclipse/swt/widgets/DartTable.java:1251-2539 | after each `setSelection` form, `getSelectionIndex` reports the index that form chose, or -1 |
| DartTable.SelectionKeepsSingle | swt_native/src/windows/java/org/eclipse/swt/widgets/DartTable.java:1653-2539 | under SINGLE every selection setter leaves at most one index selected |
| DartTable.SetDeferResizeAsWritten | swt_native/src/windows/java/org/eclipse/swt/widgets/DartTable.java:1910-1944 | as written, the outermost release decrements `drawCount` when a custom-draw listener is hooked although the entry never incremented it, and the one owed Resize is sent exactly then |
| DartTable.SetDeferResize | swt_native/src/windows/java/org/eclipse/swt/widgets/DartTable.java:1910-1944 | deferral nests by `resizeCount`; the outermost entry clears `wasResized` and turns redraw off once for custom drawing; the outermost release sends the Resize owed, exactly when one was recorded, and turns redraw back on |
| DartTable.DeferResizeBalanced | swt_native/src/windows/java/org/eclipse/swt/widgets/DartTable.java:1910-1944 | a deferral followed by its release restores the nesting depth and `drawCount` and sends no Resize |
| DartTable.DeferResizeAsWrittenUnbalanced | swt_native/src/windows/java/org/eclipse/swt/widgets/DartTable.java:1910-1944 | with a custom-draw listener, one deferral and its release leave `drawCount` at -1 as written and at 0 when the entry increments it |
| DartAccessible.AddRelation | swt_native/src/windows/java/org/eclipse/swt/accessibility/DartAccessible.java:568-576 | a null target raises NULL_ARGUMENT and a type outside the array throws; otherwise the type's relation is created if missing and gains the target, and no other type changes |
| DartAccessible.RemoveRelation | swt_native/src/windows/java/org/eclipse/swt/accessibility/DartAccessible.java:970-982 | a null target raises NULL_ARGUMENT and a type outside the array throws; a missing relation is left alone; otherwise the target leaves it, and the relation is released and its slot nulled exactly when no target is left |
| DartAccessible.GetRelationCount | swt_native/src/windows/java/org/eclipse/swt/accessibility/DartAccessible.java:3549-3556 | `getRelationCount` is the number of relation types whose slot is in use, at most MAX_RELATION_TYPES |
| DartAccessible.CountMatchesSet | swt_native/src/windows/java/org/eclipse/swt/accessibility/DartAccessible.java:3549-3556 | the counting loop over the first k types counts exactly the set of those types in use |
| DartAccessible.CountUpdate | swt_native/src/windows/java/org/eclipse/swt/accessibility/DartAccessible.java:3549-3556 | changing one slot changes the count by the change of that slot alone |
| DartAccessible.RelationCountChanges | swt_native/src/windows/java/org/eclipse/swt/accessibility/DartAccessible.java:568-982 | adding a relation counts a new type exactly when its slot was empty; removing one uncounts the type exactly when its relation is released |
| DartAccessible.AddThenRemoveRelation | swt_native/src/windows/java/org/eclipse/swt/accessibility/DartAccessible.java:568-982 | adding a new target and removing it again restores every slot, and both keep every existing relation non-empty |
| DartAccessible.AddRef | swt_native/src/windows/java/org/eclipse/swt/accessibility/DartAccessible.java:1374-1377 | `AddRef` increments the count and returns the new value |
| DartAccessible.InUse | swt_native/src/windows/java/org/eclipse/swt/accessibility/DartAccessible.java:1390-1393 | the relation types in use, each once, in type order |
| DartAccessible.Release | swt_native/src/windows/java/org/eclipse/swt/accessibility/DartAccessible.java:1379-1396 | `Release` decrements the count and returns it; when it reaches 0 exactly the relations in use are released, once each, and otherwise none |
| DartAccessible.AddRefThenRelease | swt_native/src/windows/java/org/eclipse/swt/accessibility/DartAccessible.java:1374-1396 | `AddRef` followed by `Release` restores the count, and releases relations only when the count was 0 before |
| DartAccessible.ToOs | swt_native/src/windows/java/org/eclipse/swt/accessibility/DartAccessible.java:1752-1756 | a child ID is converted to its Windows child ID, and an accessible object or a null entry is passed on as it is |
| DartAccessible.ObjectsCount | swt_native/src/windows/java/org/eclipse/swt/accessibility/DartAccessible.java:1761-1768 | an accessible listed k times among the items is AddRef'd k times, whether its implementation is a `DartAccessible` or an `SwtAccessible` |
| DartAccessible.ObjectsListsEach | swt_native/src/windows/java/org/eclipse/swt/accessibility/DartAccessible.java:1761-1768 | an accessible is AddRef'd exactly when it is listed among the items |
| DartAccessible.FirstStuck | swt_native/src/windows/java/org/eclipse/swt/accessibility/DartAccessible.java:1761-1768 | every entry before the reported position is a child ID or a `DartAccessible`-backed accessible, and the entry at it, if any, is neither |
| DartAccessible.AddRefLoop | swt_native/src/windows/java/org/eclipse/swt/accessibility/DartAccessible.java:1761-1768 | the AddRef loop AddRefs the accessibles before the first entry it cannot get past, in order, and then throws: NullPointerException for a null entry, ClassCastException for an `SwtAccessible` |
| DartAccessible.EndIndex | swt_native/src/windows/java/org/eclipse/swt/accessibility/DartAccessible.java:1745-1747 | the last index asked for is `enumIndex + celt - 1` cut down to the last child; when the `int` sum wraps it lies below the index |
| DartAccessible.Next | swt_native/src/windows/java/org/eclipse/swt/accessibility/DartAccessible.java:1731-1772 | at index 0 the children are fetched afresh; then at most `celt` items from the index on are taken, converted, never past the end, and the index moves past them; when the `int` sum `enumIndex + celt - 1` wraps, nothing is taken; a negative index with something to read throws before anything moves; the AddRef loop then runs over the items, so a null or `SwtAccessible` entry throws with the index moved and the earlier accessibles AddRef'd |
| DartAccessible.NextCastFails | swt_native/src/windows/java/org/eclipse/swt/accessibility/DartAccessible.java:1750-1768 | fetching a `DartAccessible` child and then an `SwtAccessible` child throws ClassCastException with the index at 2 and only the first AddRef'd; a child listed twice is AddRef'd twice |
| DartAccessible.NextWrapsToNothing | swt_native/src/windows/java/org/eclipse/swt/accessibility/DartAccessible.java:1745-1748 | asking for `Integer.MAX_VALUE` items from index 2 of four children wraps the last index negative, so nothing is handed over and the index stays 2 |
| DartAccessible.Skip | swt_native/src/windows/java/org/eclipse/swt/accessibility/DartAccessible.java:1776-1784 | the index moves on by `celt` (an `int` sum that wraps) but no further than the last child; with no child list it throws a NullPointerException after the index has already moved |
| DartAccessible.Reset | swt_native/src/windows/java/org/eclipse/swt/accessibility/DartAccessible.java:1787-1792 | `Reset` puts the index back to 0 and keeps the child list |
| DartAccessible.ResetThenNextAll | swt_native/src/windows/java/org/eclipse/swt/accessibility/DartAccessible.java:1731-1792 | after `Reset`, asking for as many items as there are children takes every child, converted, in order, and throws exactly when some child is null or backed by an `SwtAccessible` |
| DartAccessible.SkipPastEndRepeatsLast | swt_native/src/windows/java/org/eclipse/swt/accessibility/DartAccessible.java:1776-1784 | skipping past the end leaves the index on the last child, so the next `Next` takes that child again without an index fault |
| DartAccessible.SkipFirstStrandsNext | swt_native/src/windows/java/org/eclipse/swt/accessibility/DartAccessible.java:1731-1784 | a `Skip` before the first `Next` throws but leaves the index off 0, so no later `Next` asks for the children and none is returned |
| DartAccessible.ChildIdToOs | swt_native/src/windows/java/org/eclipse/swt/accessibility/DartAccessible.java:3397-3404 | `childIDToOs` adds 1, in Java `int` arithmetic |
| DartAccessible.OsToChildId | swt_native/src/windows/java/org/eclipse/swt/accessibility/DartAccessible.java:3406-3418 | `osToChildID` subtracts 1 in Java `int` arithmetic, except for a Tree, which gives 0 |
| DartAccessible.ChildIdRoundTrip | swt_native/src/windows/java/org/eclipse/swt/accessibility/DartAccessible.java:3397-3418 | outside a Tree, converting any Java `int` child ID to Windows and back gives it back |
| DartAccessible.NewInstance | swt_native/src/windows/java/org/eclipse/swt/accessibility/DartAccessible.java:104 | a new accessible starts without a unique ID and the shared counter is unchanged |
| DartAccessible.EventChildId | swt_native/src/windows/java/org/eclipse/swt/accessibility/DartAccessible.java:3371-3375 | `eventChildID` returns the instance's ID once it has one; on first use it takes the shared counter's value and moves the counter down |
| DartAccessible.EventChildIdFresh | swt_native/src/windows/java/org/eclipse/swt/accessibility/DartAccessible.java:66 | every ID handed out is negative and not -1, an instance keeps the ID it got first, no two instances share one, and other instances are untouched |
| DartAccessible.NewInstanceIssued | swt_native/src/windows/java/org/eclipse/swt/accessibility/DartAccessible.java:104 | creating an instance keeps the issued IDs distinct |
| DartAccessible.FindFrom | swt_native/src/windows/java/org/eclipse/swt/accessibility/DartAccessible.java:2102 | `indexOf(c, from)` returns -1 or a position from `from` on holding `c` |
| DartAccessible.FindFromFirst | swt_native/src/windows/java/org/eclipse/swt/accessibility/DartAccessible.java:2102 | `indexOf(c, from)` skips no earlier occurrence |
| DartAccessible.BindingsPieces | swt_native/src/windows/java/org/eclipse/swt/accessibility/DartAccessible.java:2098-2110 | the scan of `get_keyBinding` counts exactly the non-empty `;`-separated pieces |
| DartAccessible.GetKeyBinding | swt_native/src/windows/java/org/eclipse/swt/accessibility/DartAccessible.java:2087-2115 | `get_keyBinding` counts the non-empty `;`-separated key bindings, stopping at `nMaxBindings` when the limit is reached, and 0 for a null answer |
| DartAccessible.Trim | swt_native/src/windows/java/org/eclipse/swt/accessibility/DartAccessible.java:2306 | `trim()` shortens the string, leaves no blank at either end, and keeps a string that has none |
| DartAccessible.TrimDropsBlanks | swt_native/src/windows/java/org/eclipse/swt/accessibility/DartAccessible.java:2306 | `trim()` keeps the middle of the string and drops only characters up to ' ' at both ends |
| DartAccessible.ParsePiece | swt_native/src/windows/java/org/eclipse/swt/accessibility/DartAccessible.java:2306-2313 | a piece yields an attribute only when its trimmed text has a colon with something after it, and the value is then never empty |
| DartAccessible.ParseAllAppend | swt_native/src/windows/java/org/eclipse/swt/accessibility/DartAccessible.java:2303-2317 | parsing two lists of pieces one after the other is parsing their concatenation |
| DartAccessible.AttributesFromPieces | swt_native/src/windows/java/org/eclipse/swt/accessibility/DartAccessible.java:2303-2317 | the scan from any position parses exactly the `;`-terminated pieces of the rest of the string |
| DartAccessible.SetAttributes | swt_native/src/windows/java/org/eclipse/swt/accessibility/DartAccessible.java:2292-2317 | `setAttributes` yields nothing for a null string and otherwise the attributes of the `;`-terminated pieces, in order |
| DartAccessible.SetAttributesPieces | swt_native/src/windows/java/org/eclipse/swt/accessibility/DartAccessible.java:2303-2317 | the attributes of a string are those of its `;`-terminated pieces; a trailing piece without `;` is ignored |
| DartAccessible.PieceRoundTrip | swt_native/src/windows/java/org/eclipse/swt/accessibility/DartAccessible.java:2306-2313 | a trimmed key without a colon and a trimmed non-empty value, written as `key:value`, parse back to that pair |
| DartAccessible.AttributeRoundTrip | swt_native/src/windows/java/org/eclipse/swt/accessibility/DartAccessible.java:2292-2317 | a pair written as `key:value;` is read back by `setAttributes` as exactly that pair |

## Left out

- Rendering is not modelled. This covers every GTK, Cairo, Win32 and Cocoa call, the Flutter bridge (`FlutterBridge`, `dirty()`, `getBridge()`), the Dart mirror fields those calls keep, and `asyncExec`/`timerExec`. All of them are foreign or cross-runtime calls with opaque handles.
- Listeners, focus handling and event dispatch are not modelled. A listener's answer is a parameter (the children `getChildren` reports, the key bindings, a control's visibility or focus acceptance). An event the code sends is an output flag or a list of receivers.
- `checkWidget`, `checkDevice` and the disposal state of other widgets are not modelled, except where a disposed flag changes the result (GC setters, `showItem`, `moveAbove`/`moveBelow`).
- Drag detection is not modelled, because it busy-waits on the event queue with a timeout.
- Floating-point code is not modelled: `Math.round` colour distances, image zoom, arc end points, gesture deltas and the tab renderer's geometry.
- Line widths, dashes and matrix entries are reals. NaN and float rounding are left out.
- `DPIUtil` scaling is treated as the identity, so values "in pixels" equal values in points.
- The state bits and constants of `Widget` (ZERO_WIDTH, HIDDEN, MOVED, RESIZED, the default width and height, HAS_AUTO_DIRECTION) are booleans or parameters. `Widget` is not part of this model.
- `Rectangle.intersection` is written per axis, as `Geometry.Intersection`. `Rectangle` is not part of this model.
- `Display.map` is not modelled. Coordinates are taken as already relative to the parent.
- Java `int` overflow is left out of the geometry, the overlap areas and the centre distances of monitor selection. These use unbounded integers. Overflow is modelled in the accessibility code: the child-ID conversion, whose round trip depends on it, and the enumerator index of `Next` and `Skip`.
- Resource lifetime of images, colours, fonts, patterns and paths is not modelled.
- Mnemonic.ToLower: lower-cases ASCII letters only. `Character.toLowerCase` also folds non-ASCII letters, and that Unicode table is not part of this model.
- CTabFolder.PageTraversal: in MRU mode it only states that the new selection is a valid index. The chevron and the visible-tab arithmetic of MRU traversal are left out.
- CTabFolder.DestroyItem: assumes the folder invariant (`priority` a permutation of the item indices, distinct items), which the class keeps. So do `CTabFolder.SetItemOrder` and `CTabFolder.PageTraversal`.
- DartTable.CheckStyle: states the scroll bits only. Its `checkBits(SINGLE, MULTI)` step is not modelled.
- DartTable.SetColumnOrder: the `reorder` flag is not modelled. It only decides whether native calls and Move events follow.
- DartTable.DestroyColumn: models the result. The partly updated arrays left behind when the source throws part-way are not modelled, and neither is the skipping of disposed columns when Move events are sent.
- DartTable.SetDeferResize: the `isDisposed` early return and the layout pass after the Resize event are not modelled. `wasResized` is set by a window-size handler that is not part of this model, so it is an input.
- `selectAll`, `deselect(...)`, `setFocusIndex` and `showSelection` have empty bodies in the source. `getColumnOrder` returns a fresh all-zero array. None of them is modelled beyond what the selection functions use.
- DartAccessible.ChildIdToOs: the `checkUniqueID` call that may assign an ID to another accessible is left out, because it depends on a listener's answer. The Tree branch is empty and is not modelled.
- DartAccessible.Next: a child entry that is neither an `Integer` nor an `Accessible` is not modelled. The `(Accessible)` cast at DartAccessible.java:1766 would throw ClassCastException for it, just as for an `SwtAccessible`.
- DartAccessible.EventChildId: the shared counter is unbounded. The source's `int` counter would wrap after 2^31 IDs.
- DartAccessible.SetAttributes: returns the parsed pairs. Applying them to a `TextStyle`/`FontData` is left out, and so is writing the answers through `setString` and the COM output pointers.
- The `Relation` class is not part of this model. A relation is the set of its targets, so adding the same target twice records it once.
- GcGtk.TransformedClippingRectangle: requires eight coordinates. The private caller always passes an eight-entry array.
- The Linux `checkGC` and every Windows GC operation whose `apply` does nothing to the modelled data (drawing, filling, clipping, fonts, colours, transforms) are left out. In `GcWin` these are a single `Nop` operation.
- The `LineAttributes` object that the Linux GC keeps for `getLineAttributes` is not modelled.
- The Windows `checkMirrored` has an empty body. `setOrientation` therefore clears MIRRORED for good, as modelled, and nothing more is modelled of it.
- macOS `setZOrder` has an empty body. `moveAbove`/`moveBelow` are modelled only up to the point where it is called.
- `SwtControl.setRedraw`, `DartControl.setRedraw` and `setVisible` are modelled as their counters and flags. The native redraw they trigger is left out.
- GcWin.Apply: the operation log applies the corrected `setLineAttributesInPixels` and `SetLineDashOperation.apply`, which copy the dashes. As written, both store an all-zero dash array; `GcWin.SetLineAttributesAsWritten` and `GcWin.SetDashAsWritten` model that (see Findings).

## Findings

| source | as written | input that shows it | evidently intended | confidence | as-written member | corrected member |
|---|---|---|---|---|---|---|
| swt_native/src/windows/java/org/eclipse/swt/graphics/DartGC.java:3858-3862 | when the dashes change, `setLineAttributesInPixels` allocates a new array, but the loop meant to copy into it has an empty body, so all-zero dashes are stored | `setLineAttributes` with dash `[3, 1]` on a GC without dashes stores `[0, 0]`, and the same call again still finds the style dirty | copy the dashes, as the Linux GC does with `System.arraycopy`, so `[3, 1]` is stored and a repeated call changes nothing | not executed | GcWin.SetLineAttributesAsWrittenLosesDashes | GcLine.SetLineAttributes |
| swt_native/src/windows/java/org/eclipse/swt/graphics/DartGC.java:3982-4004 | `SetLineDashOperation.apply` compares against, and stores, a new all-zero array instead of the given dashes | `setLineDash([3, 1])` on a solid line stores dashes `[0, 0]` under LINE_CUSTOM | store the given dash lengths as floats | not executed | GcWin.SetDashAsWrittenLosesDashes | GcLine.SetDash |
| swt_native/src/windows/java/org/eclipse/swt/widgets/DartTable.java:697-758 | `destroyItem(TableColumn)` searches a fresh all-zero `oldOrder` for the removed index, so for any index but 0 the search stops at `columnCount`, and `oldOrder[orderIndex]` is then read out of bounds | destroying the second of two columns throws ArrayIndexOutOfBoundsException | search the table's real column order, so that only the removed entry is dropped and the others are renumbered | not executed | DartTable.DestroyColumnAsWrittenThrows | DartTable.DestroyColumn |
| swt_native/src/windows/java/org/eclipse/swt/widgets/DartTable.java:1741-1749 | `select(start, end)` builds the new selection from `start` before clamping `start` at 0 | `select(-3, 2)` on a MULTI table makes `getSelectionIndex()` return -3 | select the clamped start, 0 | not executed | DartTable.SelectRangeAsWrittenNegative | DartTable.SelectRange |
| swt_native/src/windows/java/org/eclipse/swt/widgets/DartTable.java:1910-1944 | with a MeasureItem, EraseItem or PaintItem listener, the outermost `setDeferResize(false)` decrements `drawCount`, but the matching `setDeferResize(true)` never increments it | `setDeferResize(true)` then `setDeferResize(false)` with a PaintItem listener leaves `drawCount` at -1 | increment `drawCount` on the outermost entry, so that a balanced pair restores it | not executed | DartTable.DeferResizeAsWrittenUnbalanced | DartTable.SetDeferResize |
| swt_native/src/macos/java/org/eclipse/swt/widgets/DartControl.java:2708-2716 | the ancestor walk of `traverse` starts from the receiver and casts its implementation, the `DartControl` itself, to `SwtControl` (also to `SwtWidget` and again to `SwtControl` for `hooks` and `parent`); `DartControl` extends `DartWidget`, not the native classes (`DartWidget` is not part of this model and is taken not to be a native class) | `traverse(TRAVERSE_RETURN, …)`, or pressing Return, throws ClassCastException before any control is asked | call `traverse(Event)`, `hooks` and the parent through the control's own implementation, as the Linux and Windows Dart controls do | not executed | Traversal.CocoaTraverseAsWrittenThrows | Traversal.CocoaTraverse |

=== FILE: accessible.dfy ===
/** The bookkeeping of the Windows Dart accessibility object
    (`DartAccessible`): the per-type relation slots, the COM reference
    count, the child enumerator (`IEnumVARIANT`), the parsing of key
    bindings and text attributes, the unique event child ID and the
    conversion between SWT and Windows child IDs. Accessibles are object
    references; here they are identities. */
module DartAccessible {

  import opened Wrappers
  import opened Swt
  import opened Seqs

  type AccessibleId = nat

  // Relations.

  /** `MAX_RELATION_TYPES`: the number of ACC.RELATION_* types. */
  const MAX_RELATION_TYPES: nat := 15

  /** `relations`: one slot per relation type, null or the targets of the
      relation of that type (the `Relation` class is not part of this model;
      a target is added once). */
  type Relations = s: seq<Option<set<AccessibleId>>> | |s| == MAX_RELATION_TYPES
    witness seq(MAX_RELATION_TYPES, _ => None)

  /** No relation of any type. */
  const NO_RELATIONS: Relations := seq(MAX_RELATION_TYPES, _ => None)

  /** A relation slot that exists has targets: `removeRelation` clears the
      slot when the last one goes. */
  predicate Tidy(rel: Relations) {
    forall t :: 0 <= t < MAX_RELATION_TYPES && rel[t].Some? ==> rel[t].value != {}
  }

  /** `addRelation(type, target)`: the relation of that type is created on
      first use; a type outside the array throws. */
  function AddRelation(rel: Relations, relType: int, target: Option<AccessibleId>): (r: Result<Relations>)
    ensures target.None? ==> r == Err(SwtFault(ERROR_NULL_ARGUMENT))
    ensures target.Some? && !(0 <= relType < MAX_RELATION_TYPES) ==> r == Err(IndexOutOfBounds)
    ensures target.Some? && 0 <= relType < MAX_RELATION_TYPES ==>
              r.Ok? && r.value[relType].Some? && target.value in r.value[relType].value
              && (rel[relType].Some? ==> r.value[relType].value == rel[relType].value + {target.value})
              && (rel[relType].None? ==> r.value[relType].value == {target.value})
              && forall t :: 0 <= t < MAX_RELATION_TYPES && t != relType ==> r.value[t] == rel[t]
  {
    if target.None? then Err(SwtFault(ERROR_NULL_ARGUMENT))
    else if !(0 <= relType < MAX_RELATION_TYPES) then Err(IndexOutOfBounds)
    else
      var targets := if rel[relType].None? then {} else rel[relType].value;
      Ok(rel[relType := Some(targets + {target.value})])
  }

  /** The result of `removeRelation`: the slots, and whether the relation
      object was released because its last target went. */
  datatype Removed = Removed(relations: Relations, released: bool)

  /** `removeRelation(type, target)`: the target leaves the relation, and a
      relation left without targets is released and its slot nulled. */
  function RemoveRelation(rel: Relations, relType: int, target: Option<AccessibleId>): (r: Result<Removed>)
    ensures target.None? ==> r == Err(SwtFault(ERROR_NULL_ARGUMENT))
    ensures target.Some? && !(0 <= relType < MAX_RELATION_TYPES) ==> r == Err(IndexOutOfBounds)
    ensures target.Some? && 0 <= relType < MAX_RELATION_TYPES ==>
              r.Ok?
              && (rel[relType].None? ==> r.value == Removed(rel, false))
              && (rel[relType].Some? ==>
                    (r.value.released <==> rel[relType].value - {target.value} == {})
                    && r.value.relations[relType] ==
                         (if r.value.released then None else Some(rel[relType].value - {target.value})))
              && forall t :: 0 <= t < MAX_RELATION_TYPES && t != relType ==> r.value.relations[t] == rel[t]
  {
    if target.None? then Err(SwtFault(ERROR_NULL_ARGUMENT))
    else if !(0 <= relType < MAX_RELATION_TYPES) then Err(IndexOutOfBounds)
    else if rel[relType].None? then Ok(Removed(rel, false))
    else
      var left := rel[relType].value - {target.value};
      if left == {} then Ok(Removed(rel[relType := None], true))
      else Ok(Removed(rel[relType := Some(left)], false))
  }

  /** The number of non-null slots among the first `k`. */
  function CountFrom(rel: Relations, k: nat): (n: nat)
    requires k <= MAX_RELATION_TYPES
    ensures n <= k
  {
    if k == 0 then 0 else CountFrom(rel, k - 1) + (if rel[k - 1].Some? then 1 else 0)
  }

  /** `getRelationCount()`: the number of relation types in use. */
  function GetRelationCount(rel: Relations): (n: nat)
    ensures n <= MAX_RELATION_TYPES
    ensures n == |set t | 0 <= t < MAX_RELATION_TYPES && rel[t].Some?|
  {
    CountMatchesSet(rel, MAX_RELATION_TYPES);
    CountFrom(rel, MAX_RELATION_TYPES)
  }

  lemma {:induction false} CountMatchesSet(rel: Relations, k: nat)
    requires k <= MAX_RELATION_TYPES
    ensures CountFrom(rel, k) == |set t | 0 <= t < k && rel[t].Some?|
  {
    if k > 0 {
      CountMatchesSet(rel, k - 1);
      var before := set t | 0 <= t < k - 1 && rel[t].Some?;
      var now := set t | 0 <= t < k && rel[t].Some?;
      if rel[k - 1].Some? {
        assert now == before + {k - 1};
      } else {
        assert now == before;
      }
    }
  }

  /** Changing one slot changes the count by the change of that slot alone. */
  lemma {:induction false} CountUpdate(rel: Relations, t: nat, slot: Option<set<AccessibleId>>, k: nat)
    requires t < MAX_RELATION_TYPES && k <= MAX_RELATION_TYPES
    ensures CountFrom(rel[t := slot], k) + (if t < k && rel[t].Some? then 1 else 0)
            == CountFrom(rel, k) + (if t < k && slot.Some? then 1 else 0)
  {
    if k > 0 {
      CountUpdate(rel, t, slot, k - 1);
    }
  }

  /** Adding a relation counts a new type exactly when its slot was empty;
      removing one uncounts it exactly when its last target went. */
  lemma RelationCountChanges(rel: Relations, relType: int, target: AccessibleId)
    requires 0 <= relType < MAX_RELATION_TYPES
    ensures GetRelationCount(AddRelation(rel, relType, Some(target)).value)
              == GetRelationCount(rel) + (if rel[relType].None? then 1 else 0)
    ensures GetRelationCount(RemoveRelation(rel, relType, Some(target)).value.relations)
              == GetRelationCount(rel) - (if RemoveRelation(rel, relType, Some(target)).value.released then 1 else 0)
  {
    var added := AddRelation(rel, relType, Some(target)).value;
    assert added == rel[relType := added[relType]];
    CountUpdate(rel, relType, added[relType], MAX_RELATION_TYPES);
    var removed := RemoveRelation(rel, relType, Some(target)).value;
    assert removed.relations == rel[relType := removed.relations[relType]];
    CountUpdate(rel, relType, removed.relations[relType], MAX_RELATION_TYPES);
  }

  /** Adding a new target and removing it again restores the slots; both
      keep every existing relation non-empty. */
  lemma AddThenRemoveRelation(rel: Relations, relType: int, target: AccessibleId)
    requires Tidy(rel) && 0 <= relType < MAX_RELATION_TYPES
    requires rel[relType].None? || target !in rel[relType].value
    ensures Tidy(AddRelation(rel, relType, Some(target)).value)
    ensures RemoveRelation(AddRelation(rel, relType, Some(target)).value, relType, Some(target)).value.relations == rel
    ensures Tidy(RemoveRelation(rel, relType, Some(target)).value.relations)
  {
    var added := AddRelation(rel, relType, Some(target)).value;
    if rel[relType].Some? {
      assert added[relType].value - {target} == rel[relType].value;
    }
    var removed := RemoveRelation(added, relType, Some(target)).value.relations;
    assert removed == rel by {
      forall t | 0 <= t < MAX_RELATION_TYPES ensures removed[t] == rel[t] { }
    }
  }

  // COM reference count.

  datatype Counted = Counted(refCount: int, relations: Relations)

  /** `AddRef()`: the new count is returned. */
  function AddRef(a: Counted): (r: (Counted, int))
    ensures r.0 == a.(refCount := a.refCount + 1) && r.1 == a.refCount + 1
  {
    var b := a.(refCount := a.refCount + 1);
    (b, b.refCount)
  }

  /** What `Release()` leaves: the object, the count it returns, and the
      relation types whose relation objects it released. */
  datatype Released = Released(a: Counted, count: int, releasedTypes: seq<int>)

  /** The relation types in use among the first `k`, in order. */
  function InUse(rel: Relations, k: nat): (r: seq<int>)
    requires k <= MAX_RELATION_TYPES
    ensures |r| == CountFrom(rel, k)
    ensures forall i :: 0 <= i < |r| ==> 0 <= r[i] < k && rel[r[i]].Some?
    ensures forall t :: 0 <= t < k && rel[t].Some? ==> t in r
  {
    if k == 0 then []
    else InUse(rel, k - 1) + (if rel[k - 1].Some? then [k - 1] else [])
  }

  /** `Release()`: decrements the count; when it reaches 0 every relation
      in use is released (the slots themselves stay). */
  function Release(a: Counted): (r: Released)
    ensures r.count == a.refCount - 1 && r.a == a.(refCount := a.refCount - 1)
    ensures r.count != 0 ==> r.releasedTypes == []
    ensures r.count == 0 ==> |r.releasedTypes| == GetRelationCount(a.relations)
    ensures r.count == 0 ==> forall t :: 0 <= t < MAX_RELATION_TYPES ==> (t in r.releasedTypes <==> a.relations[t].Some?)
  {
    var b := a.(refCount := a.refCount - 1);
    if b.refCount == 0 then Released(b, 0, InUse(a.relations, MAX_RELATION_TYPES))
    else Released(b, b.refCount, [])
  }

  /** Balanced AddRef/Release pairs leave the count as it was, and release
      relations only when the count goes from 1 to 0. */
  lemma AddRefThenRelease(a: Counted)
    ensures Release(AddRef(a).0).a == a
    ensures (Release(AddRef(a).0).releasedTypes != []) ==> a.refCount == 0
  {
  }

  // Child enumeration (IEnumVARIANT).

  /** The class behind `accessible.getImpl()`: a `DartAccessible`, or the
      native `SwtAccessible` that the child-ID code also allows for. */
  datatype AccImpl = DartAcc | SwtAcc

  /** An entry of the array `getChildren` reports: an SWT child ID (an
      `Integer`), an accessible object with its implementation, or null. */
  datatype Child = ChildId(id: int) | ChildObject(acc: AccessibleId, impl: AccImpl) | NullChild

  /** `variants` and `enumIndex`. */
  datatype Enumerator = Enumerator(variants: Option<seq<Child>>, enumIndex: int)

  /** What `Next` leaves: the enumerator afterwards, the items (child IDs
      converted to Windows child IDs), the accessibles AddRef'd, and the
      fault when it threw (the items are then not handed over). */
  datatype Fetched = Fetched(e: Enumerator, items: seq<Child>, addRefs: seq<AccessibleId>, fault: Option<Fault>)

  function ToOs(c: Child): (r: Child)
    ensures c.ChildId? ==> r == ChildId(ChildIdToOs(c.id))
    ensures !c.ChildId? ==> r == c
  {
    match c
    case ChildId(id) => ChildId(ChildIdToOs(id))
    case _ => c
  }

  /** The accessibles among `items`, in order: one AddRef per listing. */
  function Objects(items: seq<Child>): seq<AccessibleId>
  {
    if |items| == 0 then []
    else if items[0].ChildObject? then [items[0].acc] + Objects(items[1..])
    else Objects(items[1..])
  }

  /** An accessible listed k times is AddRef'd k times, whichever its
      implementation. */
  lemma {:induction false} ObjectsCount(items: seq<Child>, x: AccessibleId)
    ensures multiset(Objects(items))[x] ==
              multiset(items)[ChildObject(x, DartAcc)] + multiset(items)[ChildObject(x, SwtAcc)]
  {
    if |items| > 0 {
      ObjectsCount(items[1..], x);
      assert items == [items[0]] + items[1..];
      assert multiset(items) == multiset{items[0]} + multiset(items[1..]);
      var c := items[0];
      if c.ChildObject? {
        assert multiset(Objects(items)) == multiset{c.acc} + multiset(Objects(items[1..]));
        if c.acc == x && c.impl == DartAcc {
          assert c == ChildObject(x, DartAcc);
        } else if c.acc == x {
          assert c == ChildObject(x, SwtAcc);
        }
      }
    }
  }

  /** An accessible is AddRef'd exactly when it is listed. */
  lemma ObjectsListsEach(items: seq<Child>, x: AccessibleId)
    ensures x in Objects(items) <==> ChildObject(x, DartAcc) in items || ChildObject(x, SwtAcc) in items
  {
    ObjectsCount(items, x);
    assert x in Objects(items) <==> x in multiset(Objects(items));
    assert ChildObject(x, DartAcc) in items <==> ChildObject(x, DartAcc) in multiset(items);
    assert ChildObject(x, SwtAcc) in items <==> ChildObject(x, SwtAcc) in multiset(items);
  }

  /** An entry the AddRef loop gets past: a child ID, or an accessible
      whose implementation really is a `DartAccessible`. */
  predicate Passes(c: Child)
  {
    c.ChildId? || (c.ChildObject? && c.impl == DartAcc)
  }

  /** The position of the first entry the AddRef loop cannot get past, or
      the length when there is none. */
  function FirstStuck(items: seq<Child>): (p: nat)
    ensures p <= |items|
    ensures forall k :: 0 <= k < p ==> Passes(items[k])
    ensures p < |items| ==> !Passes(items[p])
  {
    if |items| == 0 || !Passes(items[0]) then 0 else 1 + FirstStuck(items[1..])
  }

  /** Why the AddRef loop stops at an entry: `getImpl()` on null, or the
      cast of an `SwtAccessible` to `DartAccessible`. */
  function StuckFault(c: Child): Fault
  {
    if c.NullChild? then NullPointer else ClassCast
  }

  /** `f` is what the AddRef loop leaves after running over `f.items`: the
      accessibles before the first entry it cannot get past, and that
      entry's fault. */
  predicate AddRefsDone(f: Fetched)
  {
    var p := FirstStuck(f.items);
    f.addRefs == Objects(f.items[..p]) && f.fault == if p == |f.items| then None else Some(StuckFault(f.items[p]))
  }

  /** The loop over the built items: each accessible's implementation is
      cast to `DartAccessible` and AddRef'd, in order, until one throws. */
  function AddRefLoop(items: seq<Child>): (r: (seq<AccessibleId>, Option<Fault>))
    ensures r.0 == Objects(items[..FirstStuck(items)])
    ensures r.1 == if FirstStuck(items) == |items| then None else Some(StuckFault(items[FirstStuck(items)]))
  {
    if |items| == 0 then ([], None)
    else
      assert items == [items[0]] + items[1..];
      match items[0]
      case NullChild => ([], Some(NullPointer))
      case ChildId(_) =>
        assert items[..FirstStuck(items)] == [items[0]] + items[1..][..FirstStuck(items[1..])];
        AddRefLoop(items[1..])
      case ChildObject(acc, impl) =>
        if impl == SwtAcc then ([], Some(ClassCast))
        else
          var rest := AddRefLoop(items[1..]);
          assert items[..FirstStuck(items)] == [items[0]] + items[1..][..FirstStuck(items[1..])];
          ([acc] + rest.0, rest.1)
  }

  /** A Java array holds at most `Integer.MAX_VALUE` elements. */
  predicate JavaLength<T>(a: Option<seq<T>>)
  {
    a.None? || |a.value| <= INT_MAX
  }

  /** The Java types of the enumerator's fields: an `int` index and an
      `Object[]` that Java can allocate. */
  predicate ValidEnumerator(e: Enumerator)
  {
    IsInt32(e.enumIndex) && JavaLength(e.variants)
  }

  /** `Next(celt, ...)`. At index 0 the children are asked for afresh
      (`children` is what the listeners report). Then at most `celt` items
      from `enumIndex` on are taken, never past the end, and the index
      moves past them. The last index asked for, `enumIndex + celt - 1`, is
      Java `int` arithmetic: when it wraps, nothing is taken. A negative
      index (left by `Skip` with a negative `celt`, or by `Skip` on an empty
      list) makes the first read throw before anything moves. After the
      items are taken, each accessible among them is AddRef'd through a
      cast of its implementation to `DartAccessible`; a null entry or an
      `SwtAccessible` throws there, with the index already moved and the
      earlier accessibles AddRef'd. */
  function Next(e: Enumerator, celt: int, children: Option<seq<Child>>): (r: Fetched)
    requires ValidEnumerator(e) && IsInt32(celt) && JavaLength(children)
    ensures ValidEnumerator(r.e)
    ensures r.e.variants == if e.enumIndex == 0 then children else e.variants
    ensures r.fault == Some(IndexOutOfBounds) <==>
              e.enumIndex < 0 && e.variants.Some? && celt >= 1 && e.enumIndex <= |e.variants.value| - 1
    ensures e.enumIndex < 0 ==>
              r.e == e && r.items == [] && r.addRefs == [] && (r.fault.None? || r.fault == Some(IndexOutOfBounds))
    ensures e.enumIndex >= 0 ==>
              var v := r.e.variants;
              var n := |r.items|;
              && n <= (if celt < 0 then 0 else celt)
              && r.e.enumIndex == e.enumIndex + n
              && (v.None? ==> n == 0)
              && (v.Some? ==> r.e.enumIndex <= |v.value| || n == 0)
              && (v.Some? && celt >= 1 && e.enumIndex + celt <= |v.value| ==> n == celt)
              && (v.Some? && celt >= 1 && |v.value| < e.enumIndex + celt <= INT_MAX + 1 && e.enumIndex <= |v.value| ==>
                    r.e.enumIndex == |v.value|)
              && (e.enumIndex + celt - 1 > INT_MAX ==> n == 0)
              && (forall i :: 0 <= i < n ==> r.items[i] == ToOs(v.value[e.enumIndex + i]))
    // the AddRef loop: everything before the first entry it cannot pass
    ensures e.enumIndex >= 0 ==> AddRefsDone(r)
  {
    var variants := if e.enumIndex == 0 then children else e.variants;
    if variants.Some? && celt >= 1 then
      var v := variants.value;
      var endIndex := EndIndex(e.enumIndex, celt, |v|);
      if e.enumIndex <= endIndex then
        if e.enumIndex < 0 then Fetched(e, [], [], Some(IndexOutOfBounds))
        else
          Taken(v, e.enumIndex, endIndex)
      else Fetched(Enumerator(variants, e.enumIndex), [], [], None)
    else Fetched(Enumerator(variants, e.enumIndex), [], [], None)
  }

  /** The items `v[from..to]` taken as `VARIANT`s, the enumerator moved past
      them, and the AddRef loop run over them. */
  function Taken(v: seq<Child>, from: nat, to: int): (f: Fetched)
    requires from <= to < |v|
    ensures f.e == Enumerator(Some(v), to + 1)
    ensures |f.items| == to + 1 - from
    ensures forall i :: 0 <= i < |f.items| ==> f.items[i] == ToOs(v[from + i])
    ensures AddRefsDone(f)
  {
    var items := seq(to + 1 - from, i requires 0 <= i < to + 1 - from => ToOs(v[from + i]));
    var loop := AddRefLoop(items);
    Fetched(Enumerator(Some(v), to + 1), items, loop.0, loop.1)
  }

  /** `endIndex` of `Next`: `enumIndex + celt - 1` in Java `int`
      arithmetic, cut down to the last child. Past `Integer.MAX_VALUE` the
      sum wraps to a negative `int`, below the index. */
  function EndIndex(index: int, celt: int, length: nat): (end: int)
    requires IsInt32(index) && IsInt32(celt) && celt >= 1
    ensures end <= length - 1
    ensures index + celt - 1 <= INT_MAX ==>
              end == if index + celt - 1 > length - 1 then length - 1 else index + celt - 1
    ensures index + celt - 1 > INT_MAX ==> end < index && end < 0
  {
    var last := Wrap32(index + celt - 1);
    if last > length - 1 then length - 1 else last
  }

  /** Asking for `Integer.MAX_VALUE` items from index 2 of four children
      wraps the last index to a negative `int`: nothing is handed over and
      the index stays put. */
  lemma NextWrapsToNothing(v: seq<Child>)
    requires |v| == 4
    ensures Next(Enumerator(Some(v), 2), INT_MAX, None) == Fetched(Enumerator(Some(v), 2), [], [], None)
  {
  }

  /** Fetching two children, a `DartAccessible` and then an `SwtAccessible`,
      throws at the cast of the second: the index has moved past both and
      the first has been AddRef'd. The same accessible listed twice is
      AddRef'd twice. */
  lemma NextCastFails(e: Enumerator, a: AccessibleId, b: AccessibleId)
    requires ValidEnumerator(e)
    ensures var f := Next(Reset(e), 2, Some([ChildObject(a, DartAcc), ChildObject(b, SwtAcc)]));
            f.e.enumIndex == 2 && f.addRefs == [a] && f.fault == Some(ClassCast)
    ensures var f := Next(Reset(e), 2, Some([ChildObject(a, DartAcc), ChildObject(a, DartAcc)]));
            f.e.enumIndex == 2 && f.addRefs == [a, a] && f.fault == None
  {
    var f := Next(Reset(e), 2, Some([ChildObject(a, DartAcc), ChildObject(b, SwtAcc)]));
    assert f.items == [ChildObject(a, DartAcc), ChildObject(b, SwtAcc)];
    assert FirstStuck(f.items) == 1;
    assert f.items[..1] == [ChildObject(a, DartAcc)];
    var g := Next(Reset(e), 2, Some([ChildObject(a, DartAcc), ChildObject(a, DartAcc)]));
    assert g.items == [ChildObject(a, DartAcc), ChildObject(a, DartAcc)];
    assert FirstStuck(g.items) == 2;
    assert g.items[..2] == g.items;
  }

  /** What `Skip` leaves: the enumerator, and the fault when it threw. */
  datatype Skipped = Skipped(e: Enumerator, fault: Option<Fault>)

  /** `Skip(celt)`: the index moves on by `celt` (an `int` sum) but no
      further than the last child. The index is advanced before the child
      list is read, so with no child list yet it throws with the index
      already moved. */
  function Skip(e: Enumerator, celt: int): (r: Skipped)
    requires ValidEnumerator(e) && IsInt32(celt)
    ensures ValidEnumerator(r.e) && r.e.variants == e.variants
    ensures e.variants.None? <==> r.fault.Some?
    ensures r.fault.Some? ==> r.fault == Some(NullPointer) && r.e.enumIndex == Wrap32(e.enumIndex + celt)
    ensures e.variants.Some? ==> r.e.enumIndex <= |e.variants.value| - 1
    ensures e.variants.Some? && IsInt32(e.enumIndex + celt) ==>
              r.e.enumIndex == if e.enumIndex + celt > |e.variants.value| - 1 then |e.variants.value| - 1
                               else e.enumIndex + celt
  {
    var index := Wrap32(e.enumIndex + celt);
    if e.variants.None? then Skipped(e.(enumIndex := index), Some(NullPointer))
    else Skipped(e.(enumIndex := if index > |e.variants.value| - 1 then |e.variants.value| - 1 else index), None)
  }

  /** `Reset()`. */
  function Reset(e: Enumerator): (r: Enumerator)
    ensures r.enumIndex == 0 && r.variants == e.variants
  {
    e.(enumIndex := 0)
  }

  /** Asking for everything after a reset returns every child in order. */
  lemma ResetThenNextAll(e: Enumerator, children: seq<Child>)
    requires ValidEnumerator(e)
    requires 0 < |children| <= INT_MAX
    ensures var f := Next(Reset(e), |children|, Some(children));
            && f.items == seq(|children|, i requires 0 <= i < |children| => ToOs(children[i]))
            && f.e.enumIndex == |children|
            && (f.fault.None? <==> forall i :: 0 <= i < |children| ==> Passes(children[i]))
  {
    var f := Next(Reset(e), |children|, Some(children));
    assert |f.items| == |children|;
    if f.fault.None? {
      forall i | 0 <= i < |children| ensures Passes(children[i]) {
        assert f.items[i] == ToOs(children[i]);
      }
    } else {
      var p := FirstStuck(f.items);
      assert f.items[p] == ToOs(children[p]);
    }
  }

  /** Skipping past the end parks the index on the last child, so the next
      `Next` hands out that child again. */
  lemma SkipPastEndRepeatsLast(e: Enumerator, celt: int)
    requires ValidEnumerator(e) && IsInt32(celt)
    requires e.variants.Some? && |e.variants.value| > 1 && e.enumIndex >= 0
    requires |e.variants.value| <= e.enumIndex + celt <= INT_MAX
    ensures Skip(e, celt).fault.None?
    ensures var s := Skip(e, celt).e;
            Next(s, 1, None).fault != Some(IndexOutOfBounds) && Next(s, 1, None).items == [ToOs(e.variants.value[|e.variants.value| - 1])]
  {
  }

  /** A `Skip` before the first `Next` throws, but the index has moved off
      0: no later `Next` asks for the children again, so none is returned. */
  lemma SkipFirstStrandsNext(celt: int, k: int, children: Option<seq<Child>>)
    requires IsInt32(celt) && celt != 0 && IsInt32(k) && JavaLength(children)
    ensures var s := Skip(Enumerator(None, 0), celt);
            && s.fault == Some(NullPointer) && s.e.enumIndex == celt
            && Next(s.e, k, children) == Fetched(s.e, [], [], None)
  {
  }

  // Child IDs.

  /** `childIDToOs(childID)`: Windows child IDs are 1-based (Java `int`
      arithmetic). */
  function ChildIdToOs(childId: int): (r: int)
    ensures IsInt32(childId) && childId < INT_MAX ==> r == childId + 1
  {
    Wrap32(childId + 1)
  }

  /** `osToChildID(osChildID)`: back to 0-based, except for a Tree, whose
      Windows child IDs are item handles, not converted here. */
  function OsToChildId(isTree: bool, osChildId: int): (r: int)
    ensures isTree ==> r == 0
    ensures !isTree && IsInt32(osChildId) && osChildId > INT_MIN ==> r == osChildId - 1
  {
    if !isTree then Wrap32(osChildId - 1) else 0
  }

  /** Two Java `int` values that differ by a multiple of 2^32 are equal. */
  lemma Int32Unique(a: int, b: int)
    requires IsInt32(a) && IsInt32(b) && (a - b) % 0x1_0000_0000 == 0
    ensures a == b
  {
  }

  /** Outside a Tree, converting a child ID to Windows and back gives it
      back, for every Java `int` (INT_MAX goes round through INT_MIN). */
  lemma ChildIdRoundTrip(childId: int)
    requires IsInt32(childId)
    ensures OsToChildId(false, ChildIdToOs(childId)) == childId
  {
    var os := ChildIdToOs(childId);
    var back := Wrap32(os - 1);
    assert (os - (childId + 1)) % 0x1_0000_0000 == 0;
    assert (back - (os - 1)) % 0x1_0000_0000 == 0;
    assert (back - childId) % 0x1_0000_0000 == 0 by {
      var p := os - (childId + 1);
      var q := back - (os - 1);
      assert back - childId == p + q;
    }
    Int32Unique(back, childId);
  }

  // The event child ID.

  /** `UniqueID`: the shared counter the first ID is taken from. */
  const FIRST_UNIQUE_ID: int := -0x10

  /** `uniqueID` of an instance before it has one. */
  const NO_ID: int := -1

  /** The `uniqueID` of every instance, and the shared counter. */
  datatype Registry = Registry(ids: seq<int>, counter: int)

  /** IDs handed out so far lie between the counter and the first ID and
      are all different. */
  ghost predicate Issued(reg: Registry) {
    && reg.counter <= FIRST_UNIQUE_ID
    && (forall k :: 0 <= k < |reg.ids| ==> reg.ids[k] == NO_ID || reg.counter < reg.ids[k] <= FIRST_UNIQUE_ID)
    && (forall j, k :: 0 <= j < k < |reg.ids| && reg.ids[j] != NO_ID ==> reg.ids[j] != reg.ids[k])
  }

  const START: Registry := Registry([], FIRST_UNIQUE_ID)

  /** A new instance, without an ID. */
  function NewInstance(reg: Registry): (r: Registry)
    ensures |r.ids| == |reg.ids| + 1 && r.ids[|reg.ids|] == NO_ID
    ensures r.ids[..|reg.ids|] == reg.ids && r.counter == reg.counter
  {
    reg.(ids := reg.ids + [NO_ID])
  }

  /** `eventChildID()` of instance `k`: on first use it takes the counter's
      value and moves the counter down; afterwards it returns that value. */
  function EventChildId(reg: Registry, k: nat): (r: (Registry, int))
    requires k < |reg.ids|
    ensures reg.ids[k] != NO_ID ==> r == (reg, reg.ids[k])
    ensures reg.ids[k] == NO_ID ==>
              r.1 == reg.counter && r.0.counter == reg.counter - 1 && r.0.ids == reg.ids[k := reg.counter]
  {
    if reg.ids[k] == NO_ID then
      (Registry(reg.ids[k := reg.counter], reg.counter - 1), reg.counter)
    else (reg, reg.ids[k])
  }

  /** Each instance keeps the ID it got first, every ID is negative, and no
      two instances share one. */
  lemma EventChildIdFresh(reg: Registry, k: nat)
    requires Issued(reg) && k < |reg.ids|
    ensures var (next, id) := EventChildId(reg, k);
            && Issued(next)
            && id < 0 && id != NO_ID
            && EventChildId(next, k) == (next, id)
            && forall j :: 0 <= j < |reg.ids| && j != k ==> next.ids[j] == reg.ids[j]
  {
    var (next, id) := EventChildId(reg, k);
    if reg.ids[k] == NO_ID {
      forall i, j | 0 <= i < j < |next.ids| && next.ids[i] != NO_ID
        ensures next.ids[i] != next.ids[j]
      {
        if i != k && j != k {
          assert next.ids[i] == reg.ids[i] && next.ids[j] == reg.ids[j];
        }
      }
    }
  }

  lemma NewInstanceIssued(reg: Registry)
    requires Issued(reg)
    ensures Issued(NewInstance(reg))
  {
    var r := NewInstance(reg);
    assert forall k :: 0 <= k < |reg.ids| ==> r.ids[k] == reg.ids[k];
  }

  // Key bindings and text attributes.

  /** Java `s.indexOf(c, from)` for `from >= 0`. */
  function FindFrom(s: string, c: char, from: nat): (r: int)
    decreases |s| - from
    ensures r == -1 || from <= r < |s|
    ensures r >= 0 ==> s[r] == c
  {
    if from >= |s| then -1
    else if s[from] == c then from
    else FindFrom(s, c, from + 1)
  }

  /** `FindFrom` finds the first `c` from `from` on: none is skipped. */
  lemma {:induction false} FindFromFirst(s: string, c: char, from: nat)
    decreases |s| - from
    ensures var r := FindFrom(s, c, from);
            forall i :: from <= i < (if r == -1 then |s| else r) ==> s[i] != c
  {
    if from < |s| && s[from] != c {
      FindFromFirst(s, c, from + 1);
    }
  }

  /** Searching a suffix finds the same character, shifted. */
  lemma FindFromShift(s: string, c: char, i: nat)
    requires i <= |s|
    ensures var j := FindFrom(s, c, i);
            FindFrom(s[i..], c, 0) == if j == -1 then -1 else j - i
  {
    var j := FindFrom(s, c, i);
    var k := FindFrom(s[i..], c, 0);
    FindFromFirst(s, c, i);
    FindFromFirst(s[i..], c, 0);
    if k != -1 {
      assert s[i + k] == s[i..][k];
    }
    if j != -1 {
      assert s[i..][j - i] == s[j];
    }
  }

  /** The first `c` of `x + [c] + y` when `x` has none is the one after `x`. */
  lemma FindAfter(x: string, c: char, y: string)
    requires c !in x
    ensures FindFrom(x + [c] + y, c, 0) == |x|
  {
    var s := x + [c] + y;
    FindFromFirst(s, c, 0);
    assert s[|x|] == c;
    assert forall i :: 0 <= i < |x| ==> s[i] == x[i];
  }

  /** The pieces of `s` between `;` separators, the last (unterminated)
      one included. */
  function Pieces(s: string): (r: seq<string>)
    decreases |s|
    ensures |r| >= 1
  {
    var k := FindFrom(s, ';', 0);
    if k == -1 then [s] else [s[..k]] + Pieces(s[k + 1..])
  }

  /** The number of non-empty strings. */
  function NonEmpty(pieces: seq<string>): (n: nat)
    ensures n <= |pieces|
  {
    if |pieces| == 0 then 0 else (if |pieces[0]| > 0 then 1 else 0) + NonEmpty(pieces[1..])
  }

  /** The non-empty key bindings in `s[i..]`, none once past the end. */
  function Remaining(s: string, i: nat): nat {
    if i <= |s| then NonEmpty(Pieces(s[i..])) else 0
  }

  /** The non-empty key bindings of `s` from `i` on, counted piece by piece
      as `get_keyBinding` scans. */
  function Bindings(s: string, i: nat): (n: nat)
    decreases |s| - i
  {
    if i >= |s| then 0
    else
      var j := FindFrom(s, ';', i);
      var stop := if j == -1 then |s| else j;
      (if stop > i then 1 else 0) + Bindings(s, stop + 1)
  }

  /** The scan counts exactly the non-empty `;`-separated pieces. */
  lemma {:induction false} BindingsPieces(s: string, i: nat)
    decreases |s| - i
    ensures Bindings(s, i) == Remaining(s, i)
  {
    if i < |s| {
      var j := FindFrom(s, ';', i);
      var stop := if j == -1 then |s| else j;
      RemainingStep(s, i);
      BindingsPieces(s, stop + 1);
    } else if i == |s| {
      assert s[i..] == "";
      assert Pieces("") == [""] + [];
      NonEmptyCons("", []);
    }
  }

  /** One turn of the key-binding loop: the piece from `i` to the next `;`
      (or the end) counts if it is non-empty, and the rest follows it. */
  lemma RemainingStep(s: string, i: nat)
    requires i < |s|
    ensures var j := FindFrom(s, ';', i);
            var stop := if j == -1 then |s| else j;
            Remaining(s, i) == (if stop > i then 1 else 0) + Remaining(s, stop + 1)
  {
    FindFromShift(s, ';', i);
    var j := FindFrom(s, ';', i);
    if j == -1 {
      RemainingLast(s, i);
    } else {
      RemainingCut(s, i, j);
    }
  }

  /** The step of `RemainingStep` where no `;` follows: one last, non-empty
      piece. */
  lemma RemainingLast(s: string, i: nat)
    requires i < |s| && FindFrom(s[i..], ';', 0) == -1
    ensures Remaining(s, i) == 1 && Remaining(s, |s| + 1) == 0
  {
    var t := s[i..];
    assert Pieces(t) == [t];
    NonEmptyCons(t, []);
    assert [t] + [] == [t];
  }

  /** The step of `RemainingStep` where a `;` at `j` ends the piece. */
  lemma RemainingCut(s: string, i: nat, j: nat)
    requires i <= j < |s| && FindFrom(s[i..], ';', 0) == j - i
    ensures Remaining(s, i) == (if j > i then 1 else 0) + Remaining(s, j + 1)
  {
    var t, k := s[i..], j - i;
    assert t[k + 1..] == s[j + 1..];
    calc {
      Remaining(s, i);
      NonEmpty(Pieces(t));
      NonEmpty([t[..k]] + Pieces(t[k + 1..]));
      { NonEmptyCons(t[..k], Pieces(t[k + 1..])); }
      (if k > 0 then 1 else 0) + NonEmpty(Pieces(t[k + 1..]));
      (if j > i then 1 else 0) + Remaining(s, j + 1);
    }
  }

  lemma NonEmptyCons(x: string, rest: seq<string>)
    ensures NonEmpty([x] + rest) == (if |x| > 0 then 1 else 0) + NonEmpty(rest)
  {
    assert ([x] + rest)[1..] == rest;
  }

  /** `get_keyBinding(actionIndex, nMaxBindings, ...)`: the number of
      non-empty `;`-separated key bindings in the listeners' answer, at
      most `nMaxBindings` (a negative limit is never reached). */
  method GetKeyBinding(keyBindings: Option<string>, nMaxBindings: int) returns (count: int)
    ensures var total := if keyBindings.None? then 0 else NonEmpty(Pieces(keyBindings.value));
            count == if 0 <= nMaxBindings < total then nMaxBindings else total
  {
    var s := if keyBindings.None? then "" else keyBindings.value;
    ghost var total := Bindings(s, 0);
    var length := |s|;
    var i := 0;
    count := 0;
    while i < length
      invariant 0 <= i
      invariant count + Bindings(s, i) == total
      invariant 0 <= nMaxBindings ==> count <= nMaxBindings
      decreases length + 1 - i
    {
      if count == nMaxBindings {
        break;
      }
      var j := FindFrom(s, ';', i);
      if j == -1 {
        j := length;
      }
      var keyBinding := s[i..j];
      if |keyBinding| > 0 {
        count := count + 1;
      }
      i := j + 1;
    }
    BindingsPieces(s, 0);
    assert s[0..] == s;
  }

  /** The pieces of `s` that a `;` terminates: the last piece is dropped. */
  function Terminated(s: string): (r: seq<string>)
    decreases |s|
  {
    var k := FindFrom(s, ';', 0);
    if k == -1 then [] else [s[..k]] + Terminated(s[k + 1..])
  }

  /** One turn of the attribute loop, from `begin` to the `;` at `end`. */
  lemma TerminatedStep(s: string, begin: nat)
    requires begin <= |s|
    ensures var end := FindFrom(s, ';', begin);
            Terminated(s[begin..]) == if end == -1 then [] else [s[begin..end]] + Terminated(s[end + 1..])
  {
    FindFromShift(s, ';', begin);
    var end := FindFrom(s, ';', begin);
    var t := s[begin..];
    if end != -1 {
      var k := end - begin;
      assert t[..k] == s[begin..end];
      assert t[k + 1..] == s[end + 1..];
    }
  }

  /** Java's `String.trim()`: drops every character up to ' ' from both ends. */
  function Trim(s: string): (r: string)
    ensures |r| <= |s|
    ensures |r| > 0 ==> r[0] > ' ' && r[|r| - 1] > ' '
    ensures |s| == 0 || (s[0] > ' ' && s[|s| - 1] > ' ') ==> r == s
    ensures |s| > 0 && s[|s| - 1] > ' ' ==> |r| > 0
  {
    var start := Lead(s, 0);
    var end := Tail(s, |s|, start);
    LeadSkipsBlanks(s, 0);
    s[start..end]
  }

  /** The first position from `i` on that is not blank (or the end). */
  function Lead(s: string, i: nat): (k: nat)
    requires i <= |s|
    decreases |s| - i
    ensures i <= k <= |s|
    ensures k < |s| ==> s[k] > ' '
  {
    if i < |s| && s[i] <= ' ' then Lead(s, i + 1) else i
  }

  /** The end of `s[start..e]` once trailing blanks are dropped. */
  function Tail(s: string, e: nat, start: nat): (k: nat)
    requires start <= e <= |s|
    ensures start <= k <= e
    ensures k > start ==> s[k - 1] > ' '
  {
    if e > start && s[e - 1] <= ' ' then Tail(s, e - 1, start) else e
  }

  lemma {:induction false} LeadSkipsBlanks(s: string, i: nat)
    requires i <= |s|
    decreases |s| - i
    ensures forall j :: i <= j < Lead(s, i) ==> s[j] <= ' '
  {
    if i < |s| && s[i] <= ' ' {
      LeadSkipsBlanks(s, i + 1);
    }
  }

  lemma {:induction false} TailSkipsBlanks(s: string, e: nat, start: nat)
    requires start <= e <= |s|
    decreases e
    ensures forall j :: Tail(s, e, start) <= j < e ==> s[j] <= ' '
  {
    if e > start && s[e - 1] <= ' ' {
      TailSkipsBlanks(s, e - 1, start);
    }
  }

  /** `Trim` keeps the middle of the string and drops only blanks: what
      precedes and follows the result is all blank. */
  lemma TrimDropsBlanks(s: string)
    ensures var a := Lead(s, 0);
            var b := Tail(s, |s|, a);
            Trim(s) == s[a..b]
            && (forall j :: 0 <= j < a ==> s[j] <= ' ')
            && (forall j :: b <= j < |s| ==> s[j] <= ' ')
  {
    LeadSkipsBlanks(s, 0);
    TailSkipsBlanks(s, |s|, Lead(s, 0));
  }

  /** A key and a value parsed from one `key:value` piece. */
  datatype Attribute = Attribute(key: string, value: string)

  /** The attribute a piece holds: its trimmed text split at the first
      colon, provided something follows the colon. */
  function ParsePiece(piece: string): (r: Option<Attribute>)
    ensures r.Some? ==> |r.value.value| > 0
  {
    var keyValue := Trim(piece);
    var colon := FindFrom(keyValue, ':', 0);
    if colon != -1 && colon + 1 < |keyValue| then
      var after := keyValue[colon + 1..];
      assert after[|after| - 1] == keyValue[|keyValue| - 1];
      Some(Attribute(Trim(keyValue[..colon]), Trim(after)))
    else None
  }

  /** The attributes one piece contributes: none or one. */
  function Parsed(piece: string): (r: seq<Attribute>)
    ensures |r| <= 1
    ensures |r| == 1 <==> ParsePiece(piece).Some?
  {
    var head := ParsePiece(piece);
    if head.Some? then [head.value] else []
  }

  /** The attributes of a list of pieces, in order. */
  function ParseAll(pieces: seq<string>): (r: seq<Attribute>)
    ensures |r| <= |pieces|
  {
    if |pieces| == 0 then [] else Parsed(pieces[0]) + ParseAll(pieces[1..])
  }

  lemma ParseAllOne(piece: string)
    ensures ParseAll([piece]) == Parsed(piece)
  {
    assert ParseAll([piece]) == Parsed(piece) + ParseAll([]);
  }

  /** Parsing distributes over concatenation of piece lists. */
  lemma {:induction false} ParseAllAppend(a: seq<string>, b: seq<string>)
    ensures ParseAll(a + b) == ParseAll(a) + ParseAll(b)
  {
    if |a| == 0 {
      assert a + b == b;
    } else {
      assert (a + b)[0] == a[0];
      assert (a + b)[1..] == a[1..] + b;
      ParseAllAppend(a[1..], b);
      assert ParseAll(a + b) == Parsed(a[0]) + (ParseAll(a[1..]) + ParseAll(b));
    }
  }

  /** The attributes of the `;`-terminated pieces of `s` from `begin` on,
      found piece by piece as `setAttributes` scans. */
  function AttributesFrom(s: string, begin: nat): (r: seq<Attribute>)
    requires begin <= |s|
    decreases |s| - begin
  {
    var end := FindFrom(s, ';', begin);
    if end == -1 then [] else Parsed(s[begin..end]) + AttributesFrom(s, end + 1)
  }

  /** Scanning from `begin` parses exactly the terminated pieces of the
      rest of the string. */
  lemma {:induction false} AttributesFromPieces(s: string, begin: nat)
    requires begin <= |s|
    decreases |s| - begin
    ensures AttributesFrom(s, begin) == ParseAll(Terminated(s[begin..]))
  {
    TerminatedStep(s, begin);
    var end := FindFrom(s, ';', begin);
    if end != -1 {
      var piece := s[begin..end];
      var rest := Terminated(s[end + 1..]);
      AttributesFromStep(s, begin, end, Parsed(piece));
      AttributesFromPieces(s, end + 1);
      ParseAllAppend([piece], rest);
      ParseAllOne(piece);
      calc {
        ParseAll(Terminated(s[begin..]));
        ParseAll([piece] + rest);
        ParseAll([piece]) + ParseAll(rest);
        Parsed(piece) + AttributesFrom(s, end + 1);
        AttributesFrom(s, begin);
      }
    } else {
      assert AttributesFrom(s, begin) == [];
    }
  }

  /** One step of the scan: the piece up to the `;` at `end`, then the rest. */
  lemma AttributesFromStep(s: string, begin: nat, end: int, head: seq<Attribute>)
    requires begin <= |s| && end == FindFrom(s, ';', begin) && end != -1
    requires head == Parsed(s[begin..end])
    ensures AttributesFrom(s, begin) == head + AttributesFrom(s, end + 1)
  {
  }

  lemma Regroup(a: seq<Attribute>, b: seq<Attribute>, c: seq<Attribute>, all: seq<Attribute>)
    requires a + (b + c) == all
    ensures (a + b) + c == all
  {
    assert (a + b) + c == a + (b + c);
  }

  /** `setAttributes(start, end, attributes)`: the `key:value` pairs parsed
      from the `;`-terminated pieces of the string; a trailing piece without
      `;` is ignored. (Applying them to a text style is not modelled.) */
  method SetAttributes(text: Option<string>) returns (attributes: seq<Attribute>)
    ensures text.None? ==> attributes == []
    ensures text.Some? ==> attributes == AttributesFrom(text.value, 0)
  {
    attributes := [];
    if text.None? {
      return;
    }
    var s := text.value;
    if |s| == 0 {
      return;
    }
    var begin := 0;
    var end := FindFrom(s, ';', 0);
    while end != -1 && end < |s|
      invariant 0 <= begin <= |s|
      invariant end == FindFrom(s, ';', begin)
      invariant attributes + AttributesFrom(s, begin) == AttributesFrom(s, 0)
      decreases |s| - begin
    {
      var head := Parsed(s[begin..end]);
      AttributesFromStep(s, begin, end, head);
      Regroup(attributes, head, AttributesFrom(s, end + 1), AttributesFrom(s, 0));
      attributes := attributes + head;
      begin := end + 1;
      end := FindFrom(s, ';', begin);
    }
    assert attributes + [] == attributes;
  }

  /** `setAttributes` yields the parsed attributes of the terminated pieces. */
  lemma SetAttributesPieces(s: string)
    ensures AttributesFrom(s, 0) == ParseAll(Terminated(s))
  {
    AttributesFromPieces(s, 0);
    assert s[0..] == s;
  }

  /** `key:value` with trimmed parts and a non-empty value is already trimmed. */
  lemma TrimIdentity(key: string, value: string)
    requires Trim(key) == key && Trim(value) == value && |value| > 0
    ensures Trim(key + ":" + value) == key + ":" + value
  {
    var piece := key + ":" + value;
    assert piece[|piece| - 1] == value[|value| - 1];
    if |key| > 0 {
      assert piece[0] == key[0];
    } else {
      assert piece[0] == ':';
    }
  }

  /** A well-formed attribute string round-trips: a pair written as
      `key:value;` is read back as that pair. */
  lemma AttributeRoundTrip(key: string, value: string)
    requires Trim(key) == key && ':' !in key && ';' !in key
    requires Trim(value) == value && |value| > 0 && ';' !in value
    ensures ParseAll(Terminated(key + ":" + value + ";")) == [Attribute(key, value)]
    ensures AttributesFrom(key + ":" + value + ";", 0) == [Attribute(key, value)]
  {
    SetAttributesPieces(key + ":" + value + ";");
    var piece := key + ":" + value;
    TerminatedOne(piece);
    PieceRoundTrip(key, value);
    assert ParseAll([piece]) == Parsed(piece) + ParseAll([]);
  }

  /** A piece without `;` followed by `;` is one terminated piece. */
  lemma TerminatedOne(piece: string)
    requires ';' !in piece
    ensures Terminated(piece + ";") == [piece]
  {
    FindAfter(piece, ';', "");
    assert piece + ";" == piece + [';'] + "";
    assert (piece + ";")[..|piece|] == piece;
    assert (piece + ";")[|piece| + 1..] == "";
  }

  /** `key:value` parses back to the pair. */
  lemma PieceRoundTrip(key: string, value: string)
    requires Trim(key) == key && ':' !in key
    requires Trim(value) == value && |value| > 0
    ensures ParsePiece(key + ":" + value) == Some(Attribute(key, value))
  {
    var piece := key + ":" + value;
    TrimIdentity(key, value);
    FindAfter(key, ':', value);
    assert piece == key + [':'] + value;
    assert piece[..|key|] == key;
    assert piece[|key| + 1..] == value;
  }
}

=== FILE: dartcocoa.dfy ===
/** The macOS Dart `Control`: stored bounds, default size, the traversal
    code and the tab-group / tab-item tests derived from it, sibling z-order
    checks, and the choice of the monitor a control is on. */
module DartCocoaControl {

  import opened Wrappers
  import opened Swt
  import opened Geometry
  import Seqs
  import DartWinControl

  // Bounds, kept in the widget's value object, which may hold null.

  /** `setLocation(x, y)`: keeps the extent of `getBounds()`. */
  function SetLocation(bounds: Option<Rect>, x: int, y: int): (r: Result<Option<Rect>>)
    ensures bounds.None? <==> r == Err(NullPointer)
    ensures bounds.Some? ==> r == Ok(Some(Rect(x, y, bounds.value.width, bounds.value.height)))
  {
    if bounds.None? then Err(NullPointer) else Ok(Some(Rect(x, y, bounds.value.width, bounds.value.height)))
  }

  /** `setSize(width, height)`: keeps the origin of `getBounds()`. */
  function SetSize(bounds: Option<Rect>, width: int, height: int): (r: Result<Option<Rect>>)
    ensures bounds.None? <==> r == Err(NullPointer)
    ensures bounds.Some? ==> r == Ok(Some(Rect(bounds.value.x, bounds.value.y, width, height)))
  {
    if bounds.None? then Err(NullPointer) else Ok(Some(Rect(bounds.value.x, bounds.value.y, width, height)))
  }

  /** `setBounds(Rectangle)`: stored without any check, null included. A
      stored rectangle is one that moving to its own origin and resizing to
      its own extent leave alone; a stored null makes both fail. */
  function SetBounds(bounds: Option<Rect>, rect: Option<Rect>): (r: Option<Rect>)
    ensures rect.None? ==> SetLocation(r, 0, 0) == Err(NullPointer) && SetSize(r, 0, 0) == Err(NullPointer)
    ensures rect.Some? ==> SetLocation(r, rect.value.x, rect.value.y) == Ok(r)
    ensures rect.Some? ==> SetSize(r, rect.value.width, rect.value.height) == Ok(r)
  {
    rect
  }

  /** The stored bounds read back as what `setBounds` was given: the two
      setters keep the other half of exactly that rectangle. */
  lemma SetBoundsThenSetters(bounds: Option<Rect>, rect: Rect, x: int, y: int, width: int, height: int)
    ensures SetLocation(SetBounds(bounds, Some(rect)), x, y) == Ok(Some(Rect(x, y, rect.width, rect.height)))
    ensures SetSize(SetBounds(bounds, Some(rect)), width, height) == Ok(Some(Rect(rect.x, rect.y, width, height)))
  {
  }

  /** `setBounds(null)` is accepted, and the null it stores makes every later
      `setLocation` and `setSize` fail. */
  lemma SetBoundsNullBreaksSetters(bounds: Option<Rect>, x: int, y: int, width: int, height: int)
    ensures SetLocation(SetBounds(bounds, None), x, y) == Err(NullPointer)
    ensures SetSize(SetBounds(bounds, None), width, height) == Err(NullPointer)
  {
  }

  /** Moving and then resizing gives the bounds asked for, and the two
      setters each leave the other half alone. */
  lemma LocationThenSize(b: Rect, x: int, y: int, width: int, height: int)
    ensures SetLocation(Some(b), x, y).Ok?
    ensures SetSize(SetLocation(Some(b), x, y).value, width, height) == Ok(Some(Rect(x, y, width, height)))
    ensures SetLocation(SetSize(Some(b), width, height).value, x, y) == Ok(Some(Rect(x, y, width, height)))
  {
  }

  /** `getBorderWidth()`. */
  const BORDER_WIDTH: int := 0

  /** `computeSize(wHint, hHint, changed)`: each given hint, else the
      widget's default extent (from `Widget`, not part of this model), plus
      the border on both sides. */
  function ComputeSize(defaultWidth: int, defaultHeight: int, wHint: int, hHint: int): (p: Point)
    ensures wHint != DEFAULT ==> p.x == wHint
    ensures hHint != DEFAULT ==> p.y == hHint
    ensures wHint == DEFAULT ==> p.x == defaultWidth
    ensures hHint == DEFAULT ==> p.y == defaultHeight
  {
    var width := if wHint != DEFAULT then wHint else defaultWidth;
    var height := if hHint != DEFAULT then hHint else defaultHeight;
    var border := BORDER_WIDTH;
    Point(width + border * 2, height + border * 2)
  }
  /** The macOS and Windows controls compute the same size for every hint
      and default, both drawing no border. */
  lemma ComputeSizeAgreesWithWindows(defaultWidth: int, defaultHeight: int, wHint: int, hHint: int)
    ensures ComputeSize(defaultWidth, defaultHeight, wHint, hHint)
            == DartWinControl.ComputeSize(defaultWidth, defaultHeight, wHint, hHint)
  {
  }


  // Traversal code and tab tests.

  const ARROWS: bv32 := TRAVERSE_ARROW_PREVIOUS | TRAVERSE_ARROW_NEXT
  const TABS: bv32 := TRAVERSE_TAB_PREVIOUS | TRAVERSE_TAB_NEXT

  // Other controls' implementations.

  /** The class of the object behind another widget's `getImpl()`: one of
      the native `Swt` classes, or a Dart one. The code below casts the
      implementations of the shell, the parent and a sibling to native
      classes, which throws for a Dart implementation. */
  datatype Impl = NativeImpl | DartImpl

  /** The receiver's shell: its implementation and whether it has a parent. */
  datatype ShellView = ShellView(impl: Impl, hasParent: bool)

  /** `traversalCode(key, event)`: RETURN, TAB and PAGE always; ESCAPE in a
      shell that has a parent, read through a cast of the shell's
      implementation to `SwtControl`. */
  function TraversalCode(shell: ShellView): (r: Result<bv32>)
    ensures shell.impl.DartImpl? <==> r.Err?
    ensures r.Err? ==> r.fault == ClassCast
    ensures r.Ok? ==>
              var code := r.value;
              && code & TRAVERSE_RETURN != 0 && code & TRAVERSE_TAB_NEXT != 0 && code & TRAVERSE_TAB_PREVIOUS != 0
              && code & TRAVERSE_PAGE_NEXT != 0 && code & TRAVERSE_PAGE_PREVIOUS != 0
              && (code & TRAVERSE_ESCAPE != 0 <==> shell.hasParent)
              && code & ARROWS == 0
              && code & TRAVERSE_MNEMONIC == 0
  {
    var code := TRAVERSE_RETURN | TRAVERSE_TAB_NEXT | TRAVERSE_TAB_PREVIOUS | TRAVERSE_PAGE_NEXT | TRAVERSE_PAGE_PREVIOUS;
    if shell.impl.DartImpl? then Err(ClassCast)
    else if shell.hasParent then Ok(code | TRAVERSE_ESCAPE)
    else Ok(code)
  }

  predicate InTabList<W(==)>(tabList: Option<seq<W>>, self: W) {
    tabList.Some? && self in tabList.value
  }

  /** The tab list of the parent, read through a cast of the parent's
      implementation to `SwtComposite`: a null parent or a Dart one throws. */
  function ParentTabList<W>(parent: Option<Impl>, tabList: Option<seq<W>>): (r: Result<Option<seq<W>>>)
    ensures parent.None? <==> r == Err(NullPointer)
    ensures parent == Some(DartImpl) <==> r == Err(ClassCast)
    ensures parent == Some(NativeImpl) <==> r == Ok(tabList)
  {
    match parent
    case None => Err(NullPointer)
    case Some(DartImpl) => Err(ClassCast)
    case Some(NativeImpl) => Ok(tabList)
  }

  /** `isTabGroup()`: listed in the parent's tab list, or a control whose
      traversal code has TAB but no ARROW bits, which on macOS is every
      control. */
  function IsTabGroup<W(==)>(parent: Option<Impl>, tabList: Option<seq<W>>, self: W, shell: ShellView): (r: Result<bool>)
    ensures parent.None? ==> r == Err(NullPointer)
    ensures parent == Some(DartImpl) ==> r == Err(ClassCast)
    ensures parent == Some(NativeImpl) && InTabList(tabList, self) ==> r == Ok(true)
    ensures parent == Some(NativeImpl) && !InTabList(tabList, self) ==>
              r == if shell.impl.DartImpl? then Err(ClassCast) else Ok(true)
  {
    var list :- ParentTabList(parent, tabList);
    if InTabList(list, self) then Ok(true)
    else
      var code :- TraversalCode(shell);
      if code & ARROWS != 0 then Ok(false)
      else Ok(code & TABS != 0)
  }

  /** `isTabItem()`: not listed, and a traversal code with ARROW bits, which
      no macOS control has. */
  function IsTabItem<W(==)>(parent: Option<Impl>, tabList: Option<seq<W>>, self: W, shell: ShellView): (r: Result<bool>)
    ensures parent.None? ==> r == Err(NullPointer)
    ensures parent == Some(DartImpl) ==> r == Err(ClassCast)
    ensures parent == Some(NativeImpl) && InTabList(tabList, self) ==> r == Ok(false)
    ensures parent == Some(NativeImpl) && !InTabList(tabList, self) ==>
              r == if shell.impl.DartImpl? then Err(ClassCast) else Ok(false)
  {
    var list :- ParentTabList(parent, tabList);
    if InTabList(list, self) then Ok(false)
    else
      var code :- TraversalCode(shell);
      Ok(code & ARROWS != 0)
  }

  /** The two tests fail on the same inputs, with the same fault, and when
      they answer, a control is a tab group exactly when it is not a tab
      item. */
  lemma TabGroupIsNotTabItem<W>(parent: Option<Impl>, tabList: Option<seq<W>>, self: W, shell: ShellView)
    ensures IsTabGroup(parent, tabList, self, shell).Err? <==> IsTabItem(parent, tabList, self, shell).Err?
    ensures IsTabGroup(parent, tabList, self, shell).Err? ==>
              IsTabGroup(parent, tabList, self, shell).fault == IsTabItem(parent, tabList, self, shell).fault
    ensures IsTabGroup(parent, tabList, self, shell).Ok? ==>
              IsTabGroup(parent, tabList, self, shell).value == !IsTabItem(parent, tabList, self, shell).value
  {
  }

  // Z-order.

  /** A sibling argument: identity, disposed flag, parent identity and the
      class of its implementation. */
  datatype Sibling = Sibling(id: nat, disposed: bool, parent: nat, impl: Impl)

  /** `moveAbove(control)` / `moveBelow(control)`: whether the (empty)
      `setZOrder` is reached. A disposed sibling is refused; the sibling's
      parent is read through a cast of its implementation to `SwtControl`;
      one with another parent is ignored; null means top or bottom. */
  function MoveRelative(parent: nat, control: Option<Sibling>): (r: Result<bool>)
    ensures control.Some? && control.value.disposed <==> r == Err(SwtFault(ERROR_INVALID_ARGUMENT))
    ensures control.Some? && !control.value.disposed && control.value.impl.DartImpl? <==> r == Err(ClassCast)
    ensures control.None? ==> r == Ok(true)
    ensures control.Some? && !control.value.disposed && control.value.impl.NativeImpl? ==>
              r == Ok(control.value.parent == parent)
  {
    if control.Some? then
      if control.value.disposed then Err(SwtFault(ERROR_INVALID_ARGUMENT))
      else if control.value.impl.DartImpl? then Err(ClassCast)
      else if parent != control.value.parent then Ok(false)
      else Ok(true)
    else Ok(true)
  }

  // Monitor choice.

  function OverlapArea(bounds: Rect, monitor: Rect): int {
    Area(Intersection(bounds, monitor))
  }

  /** Distance on one axis from a coordinate to a monitor's span, 0 inside. */
  function AxisGap(c: int, start: int, extent: int): (d: int)
    ensures d >= 0
    ensures start <= c <= start + extent ==> d == 0
  {
    if c < start then start - c else if c > start + extent then c - start - extent else 0
  }

  /** Squared distance of the centre of `bounds` (Java integer halving) to a monitor. */
  function CentreDistance(bounds: Rect, monitor: Rect): (d: int)
    ensures d >= 0
  {
    var centreX := bounds.x + Seqs.JavaDiv(bounds.width, 2);
    var centreY := bounds.y + Seqs.JavaDiv(bounds.height, 2);
    var dx := AxisGap(centreX, monitor.x, monitor.width);
    var dy := AxisGap(centreY, monitor.y, monitor.height);
    dx * dx + dy * dy
  }

  /** `i` is the first monitor with the largest positive overlap. */
  ghost predicate BestOverlap(monitors: seq<Rect>, bounds: Rect, i: int) {
    && 0 <= i < |monitors|
    && OverlapArea(bounds, monitors[i]) > 0
    && (forall j :: 0 <= j < |monitors| ==> OverlapArea(bounds, monitors[j]) <= OverlapArea(bounds, monitors[i]))
    && (forall j :: 0 <= j < i ==> OverlapArea(bounds, monitors[j]) < OverlapArea(bounds, monitors[i]))
  }

  /** `i` is the first monitor nearest to the centre. */
  ghost predicate Nearest(monitors: seq<Rect>, bounds: Rect, i: int) {
    && 0 <= i < |monitors|
    && (forall j :: 0 <= j < |monitors| ==> CentreDistance(bounds, monitors[i]) <= CentreDistance(bounds, monitors[j]))
    && (forall j :: 0 <= j < i ==> CentreDistance(bounds, monitors[i]) < CentreDistance(bounds, monitors[j]))
  }

  /** `getMonitor()` on the control's bounds in display coordinates: the
      index of the chosen monitor. With no monitors at all the final array
      access fails. */
  method GetMonitor(monitors: seq<Rect>, bounds: Rect) returns (r: Result<int>)
    ensures |monitors| == 0 <==> r == Err(IndexOutOfBounds)
    ensures |monitors| == 1 ==> r == Ok(0)
    ensures |monitors| > 1 && (exists j :: 0 <= j < |monitors| && OverlapArea(bounds, monitors[j]) > 0) ==>
              r.Ok? && BestOverlap(monitors, bounds, r.value)
    ensures |monitors| > 1 && (forall j :: 0 <= j < |monitors| ==> OverlapArea(bounds, monitors[j]) <= 0) ==>
              r.Ok? && Nearest(monitors, bounds, r.value)
  {
    if |monitors| == 1 {
      return Ok(0);
    }
    var index := LargestOverlap(monitors, bounds);
    if index >= 0 {
      return Ok(index);
    }
    if |monitors| == 0 {
      return Err(IndexOutOfBounds);
    }
    index := NearestCentre(monitors, bounds);
    return Ok(index);
  }

  /** The first pass of `getMonitor()`: the first monitor with the largest
      positive overlap, or -1 when no monitor overlaps. */
  method LargestOverlap(monitors: seq<Rect>, bounds: Rect) returns (index: int)
    ensures index == -1 <==> forall j :: 0 <= j < |monitors| ==> OverlapArea(bounds, monitors[j]) <= 0
    ensures index != -1 ==> BestOverlap(monitors, bounds, index)
  {
    var value := -1;
    index := -1;
    var i := 0;
    while i < |monitors|
      invariant 0 <= i <= |monitors|
      invariant index == -1 ==> value == -1 && forall j :: 0 <= j < i ==> OverlapArea(bounds, monitors[j]) <= 0
      invariant index != -1 ==> 0 <= index < i && value == OverlapArea(bounds, monitors[index]) && value > 0
      invariant index != -1 ==> forall j :: 0 <= j < i ==> OverlapArea(bounds, monitors[j]) <= value
      invariant index != -1 ==> forall j :: 0 <= j < index ==> OverlapArea(bounds, monitors[j]) < value
    {
      var area := OverlapArea(bounds, monitors[i]);
      if area > 0 && area > value {
        index, value := i, area;
      }
      i := i + 1;
    }
  }

  /** The fallback pass of `getMonitor()`: the first monitor whose centre is
      nearest to the control's centre. */
  method NearestCentre(monitors: seq<Rect>, bounds: Rect) returns (index: int)
    requires |monitors| > 0
    ensures Nearest(monitors, bounds, index)
  {
    var value := CentreDistance(bounds, monitors[0]);
    index := 0;
    var i := 1;
    while i < |monitors|
      invariant 1 <= i <= |monitors|
      invariant 0 <= index < i && value == CentreDistance(bounds, monitors[index])
      invariant forall j :: 0 <= j < i ==> value <= CentreDistance(bounds, monitors[j])
      invariant forall j :: 0 <= j < index ==> value < CentreDistance(bounds, monitors[j])
    {
      var distance := CentreDistance(bounds, monitors[i]);
      if distance < value {
        index, value := i, distance;
      }
      i := i + 1;
    }
  }

  /** A monitor that contains the whole of a control with positive extent
      has positive overlap, so the nearest-centre fallback is not used. */
  lemma ContainedControlOverlaps(bounds: Rect, monitor: Rect)
    requires bounds.width > 0 && bounds.height > 0
    requires monitor.x <= bounds.x && bounds.x + bounds.width <= monitor.x + monitor.width
    requires monitor.y <= bounds.y && bounds.y + bounds.height <= monitor.y + monitor.height
    ensures OverlapArea(bounds, monitor) == bounds.width * bounds.height > 0
  {
  }
}

=== FILE: dartgtk.dfy ===
/** The Linux Dart `Control`: the bounds live in a `bounds` field that the
    Flutter side reads, instead of in a GTK allocation. The setter keeps the
    GTK control's shape but never compares with the old bounds, so it never
    reports a move or a resize. */
module DartGtkControl {

  import opened Swt
  import opened Geometry
  import GtkControl

  datatype Control = Control(
    bounds: Rect,
    zeroWidth: bool,      // ZERO_WIDTH state bit
    zeroHeight: bool,     // ZERO_HEIGHT state bit
    hidden: bool,         // HIDDEN state bit
    visible: bool,        // last argument of setVisible
    drawCount: int,
    redraw: bool          // last argument of setRedraw
  )

  /** The internal `setBounds(x, y, width, height, move, resize)`, with its
      MOVED / RESIZED result bits. */
  datatype Outcome = Outcome(control: Control, moved: bool, resized: bool)

  function SetBounds(c: Control, x: int, y: int, width: int, height: int, move: bool, resize: bool): (o: Outcome)
    ensures o.control.bounds == Rect(x, y, Min(width, GtkControl.MAX_EXTENT), Min(height, GtkControl.MAX_EXTENT))
    ensures o.control.bounds.width <= GtkControl.MAX_EXTENT && o.control.bounds.height <= GtkControl.MAX_EXTENT
    ensures !o.moved && !o.resized
    ensures o.control == c.(bounds := o.control.bounds)
  {
    var width := Min(width, GtkControl.MAX_EXTENT);
    var height := Min(height, GtkControl.MAX_EXTENT);
    // sameOrigin and sameExtent are never recomputed
    var sameOrigin := true;
    var sameExtent := true;
    Outcome(c.(bounds := Rect(x, y, width, height)), move && !sameOrigin, resize && !sameExtent)
  }

  /** Public `setBounds(x, y, width, height)`. */
  function SetBoundsPublic(c: Control, x: int, y: int, width: int, height: int): (d: Control)
    ensures GetLocation(d) == Point(x, y)
    ensures GetSize(d) == Point(Min(Max(0, width), GtkControl.MAX_EXTENT), Min(Max(0, height), GtkControl.MAX_EXTENT))
  {
    SetBounds(c, x, y, Max(0, width), Max(0, height), true, true).control
  }

  /** `setLocation(x, y)` goes through the bounds setter with a zero extent. */
  function SetLocation(c: Control, x: int, y: int): (d: Control)
    ensures GetLocation(d) == Point(x, y)
  {
    SetBounds(c, x, y, 0, 0, true, false).control
  }

  /** `setSize(width, height)` goes through the bounds setter with origin (0, 0). */
  function SetSize(c: Control, width: int, height: int): (d: Control)
    ensures GetSize(d) == Point(Min(Max(0, width), GtkControl.MAX_EXTENT), Min(Max(0, height), GtkControl.MAX_EXTENT))
  {
    SetBounds(c, 0, 0, Max(0, width), Max(0, height), false, true).control
  }

  /** `getLocationInPixels()`. */
  function GetLocation(c: Control): (p: Point)
    ensures p.x == c.bounds.x && p.y == c.bounds.y
  {
    Point(c.bounds.x, c.bounds.y)
  }

  /** `getSizeInPixels()`. */
  function GetSize(c: Control): (p: Point)
    ensures p.x == c.bounds.width && p.y == c.bounds.height
  {
    Point(c.bounds.width, c.bounds.height)
  }

  /** Because the flags are fixed, moving loses the size and resizing loses
      the origin. */
  lemma LocationAndSizeClobberEachOther(c: Control, x: int, y: int, width: int, height: int)
    ensures GetSize(SetLocation(c, x, y)) == Point(0, 0)
    ensures GetLocation(SetSize(c, width, height)) == Point(0, 0)
    ensures GetLocation(SetSize(SetLocation(c, x, y), width, height)) == Point(0, 0)
  {
  }

  /** The bounds read back are the bounds written, clamped. */
  lemma BoundsRoundTrip(c: Control, b: Rect)
    requires 0 <= b.width <= GtkControl.MAX_EXTENT && 0 <= b.height <= GtkControl.MAX_EXTENT
    ensures var d := SetBoundsPublic(c, b.x, b.y, b.width, b.height);
            GetLocation(d) == Point(b.x, b.y) && GetSize(d) == Point(b.width, b.height) && d.bounds == b
  {
  }

  /** `computeNativeSize(handle, wHint, hHint, changed)`: the natural size is
      never queried, so a single DEFAULT hint gives 0. */
  function ComputeNativeSize(wHint: int, hHint: int): (p: Point)
    ensures wHint == DEFAULT && hHint == DEFAULT ==> p == Point(DEFAULT, DEFAULT)
    ensures wHint != DEFAULT ==> p.x == wHint
    ensures hHint != DEFAULT ==> p.y == hHint
    ensures wHint == DEFAULT && hHint != DEFAULT ==> p.x == 0
    ensures hHint == DEFAULT && wHint != DEFAULT ==> p.y == 0
  {
    var naturalSize := 0;
    if wHint == DEFAULT && hHint == DEFAULT then Point(wHint, hHint)
    else if wHint == DEFAULT then Point(naturalSize, hHint)
    else if hHint == DEFAULT then Point(wHint, naturalSize)
    else Point(wHint, hHint)
  }

  /** The native size is its own fixed point: feeding it back in as the
      hints gives it again, since the 0 that stands in for a DEFAULT hint is
      a given hint the second time. */
  lemma ComputeNativeSizeStable(wHint: int, hHint: int)
    ensures var p := ComputeNativeSize(wHint, hHint);
            ComputeNativeSize(p.x, p.y) == p
  {
  }

  /** `computeSizeInPixels(wHint, hHint, changed)`: clamped hints, then the
      native size. */
  function ComputeSize(wHint: int, hHint: int): (p: Point)
    ensures p == Point(DEFAULT, DEFAULT) || (p.x >= 0 && p.y >= 0)
    ensures wHint >= 0 ==> p.x == wHint
    ensures hHint >= 0 ==> p.y == hHint
  {
    ComputeNativeSize(GtkControl.ClampHint(wHint), GtkControl.ClampHint(hHint))
  }
  /** The public size is stable as well: its result, used as the hints,
      comes back unchanged. */
  lemma ComputeSizeStable(wHint: int, hHint: int)
    ensures var p := ComputeSize(wHint, hHint);
            ComputeSize(p.x, p.y) == p
  {
  }


  /** `setRedraw(redraw)`: the same counter as the GTK control; the argument
      is recorded. */
  function SetRedraw(c: Control, redraw: bool): (d: Control)
    ensures d.drawCount == if redraw then c.drawCount - 1 else c.drawCount + 1
    ensures d.redraw == redraw
    ensures d == c.(drawCount := d.drawCount, redraw := redraw)
  {
    c.(drawCount := GtkControl.SetRedraw(c.drawCount, redraw).drawCount, redraw := redraw)
  }

  /** Nested `setRedraw(false)` / `setRedraw(true)` pairs restore the count. */
  lemma SetRedrawNested(c: Control, depth: nat)
    ensures Thaw(Freeze(c, depth), depth).drawCount == c.drawCount
    ensures Thaw(Freeze(c, depth), depth).redraw == (depth > 0 || c.redraw)
  {
    FreezeCount(c, depth);
    ThawCount(Freeze(c, depth), depth);
  }

  function Freeze(c: Control, depth: nat): Control {
    if depth == 0 then c else SetRedraw(Freeze(c, depth - 1), false)
  }

  function Thaw(c: Control, depth: nat): Control {
    if depth == 0 then c else SetRedraw(Thaw(c, depth - 1), true)
  }

  lemma {:induction false} FreezeCount(c: Control, depth: nat)
    ensures Freeze(c, depth).drawCount == c.drawCount + depth
  {
    if depth > 0 { FreezeCount(c, depth - 1); }
  }

  lemma {:induction false} ThawCount(c: Control, depth: nat)
    ensures Thaw(c, depth).drawCount == c.drawCount - depth
  {
    if depth > 0 { ThawCount(c, depth - 1); }
  }

  /** Events `setVisible` sends. */
  datatype VisibilityEvent = NoEvent | ShowEvent | HideEvent

  /** `setVisible(visible)`. `disposed` says whether a listener disposed the
      widget during the Show event or the focus fix-up, which ends the call. */
  function SetVisible(c: Control, visible: bool, disposed: bool): (r: (Control, VisibilityEvent))
    // a no-op when the HIDDEN bit already agrees
    ensures (!c.hidden) == visible ==> r == (c, NoEvent)
    ensures (!c.hidden) != visible && !disposed ==>
              r.0 == c.(hidden := !visible, visible := visible)
              && r.1 == (if visible then ShowEvent else HideEvent)
    // a widget disposed by a listener keeps whatever state it had reached
    ensures (!c.hidden) != visible && disposed ==>
              r.1 == (if visible then ShowEvent else NoEvent)
              && r.0 == (if visible then c else c.(hidden := true))
  {
    if (!c.hidden) == visible then (c, NoEvent)
    else if visible then
      if disposed then (c, ShowEvent)
      else (c.(hidden := false, visible := true), ShowEvent)
    else
      var hiddenNow := c.(hidden := true);
      if disposed then (hiddenNow, NoEvent)
      else (hiddenNow.(visible := false), HideEvent)
  }

  /** Showing after hiding (or the reverse) restores the HIDDEN bit. */
  lemma SetVisibleToggle(c: Control, visible: bool)
    requires (!c.hidden) != visible
    ensures SetVisible(SetVisible(c, visible, false).0, !visible, false).0.hidden == c.hidden
    ensures SetVisible(SetVisible(c, visible, false).0, visible, false).1 == NoEvent
  {
  }
}

=== FILE: dartwin.dfy ===
/** The Windows Dart `Control`: stored bounds, the tab-list membership
    tests, orientation and text-direction bits, the default size, the
    binary search over a sorted index array and the background-colour tweak. */
module DartWinControl {

  import opened Wrappers
  import opened Swt
  import opened Geometry

  // Stored bounds. The field starts as (0, 0, 0, 0); only
  // `setBoundsInPixels(Rectangle)` can store null.

  /** `setLocationInPixels(x, y)`: keeps the extent; null bounds make the
      read of `bounds.width` fail. */
  function SetLocation(bounds: Option<Rect>, x: int, y: int): (r: Result<Rect>)
    ensures bounds.None? <==> r == Err(NullPointer)
    ensures bounds.Some? ==> r.Ok? && r.value.x == x && r.value.y == y
                             && r.value.width == bounds.value.width && r.value.height == bounds.value.height
  {
    if bounds.None? then Err(NullPointer) else Ok(Rect(x, y, bounds.value.width, bounds.value.height))
  }

  /** `setSizeInPixels(width, height)`: keeps the origin, (0, 0) for null
      bounds; the extent is stored as given, negative or not. */
  function SetSize(bounds: Option<Rect>, width: int, height: int): (r: Rect)
    ensures r.width == width && r.height == height
    ensures bounds.Some? ==> r.x == bounds.value.x && r.y == bounds.value.y
    ensures bounds.None? ==> r.x == 0 && r.y == 0
  {
    if bounds.None? then Rect(0, 0, width, height)
    else Rect(bounds.value.x, bounds.value.y, width, height)
  }

  /** `setBounds(Rectangle)`: null is refused, anything else stored as is. */
  function SetBoundsRect(bounds: Option<Rect>, rect: Option<Rect>): (r: Result<Rect>)
    ensures rect.None? <==> r == Err(SwtFault(ERROR_NULL_ARGUMENT))
    ensures rect.Some? ==> r == Ok(rect.value)
  {
    if rect.None? then Err(SwtFault(ERROR_NULL_ARGUMENT)) else Ok(rect.value)
  }

  /** After `setBounds(r)`, moving to r's origin or resizing to r's extent
      changes nothing: the stored rectangle is r itself. */
  lemma SetBoundsThenSetters(b: Option<Rect>, r: Rect)
    ensures SetBoundsRect(b, Some(r)).Ok?
    ensures var s := SetBoundsRect(b, Some(r)).value;
            SetLocation(Some(s), r.x, r.y) == Ok(r) && SetSize(Some(s), r.width, r.height) == r
  {
  }

  /** Location and size are independent: setting one keeps the other, in
      either order. */
  lemma LocationSizeCommute(b: Rect, x: int, y: int, width: int, height: int)
    ensures SetLocation(Some(SetSize(Some(b), width, height)), x, y)
            == Ok(SetSize(Some(SetLocation(Some(b), x, y).value), width, height))
    ensures SetLocation(Some(SetSize(Some(b), width, height)), x, y) == Ok(Rect(x, y, width, height))
  {
  }

  // Tab lists.

  /** `isTabGroup()`: the control occurs in its parent's tab list. */
  method IsTabGroup<W(==)>(tabList: Option<seq<W>>, self: W) returns (r: bool)
    ensures r <==> tabList.Some? && self in tabList.value
  {
    if tabList.Some? {
      var list := tabList.value;
      var i := 0;
      while i < |list|
        invariant 0 <= i <= |list|
        invariant self !in list[..i]
      {
        if list[i] == self {
          return true;
        }
        i := i + 1;
      }
      assert list[..i] == list;
    }
    return false;
  }

  /** `isTabItem()`: the same loop with the answers swapped. */
  method IsTabItem<W(==)>(tabList: Option<seq<W>>, self: W) returns (r: bool)
    ensures r <==> !(tabList.Some? && self in tabList.value)
  {
    if tabList.Some? {
      var list := tabList.value;
      var i := 0;
      while i < |list|
        invariant 0 <= i <= |list|
        invariant self !in list[..i]
      {
        if list[i] == self {
          return false;
        }
        i := i + 1;
      }
      assert list[..i] == list;
    }
    return true;
  }

  // Orientation and text direction.

  /** `setOrientation(orientation)`: ignored unless exactly one direction is
      given; then that direction replaces the old one and MIRRORED and
      FLIP_TEXT_DIRECTION are cleared (this control's `checkMirrored` sets
      nothing). */
  function SetOrientation(style: bv32, orientation: bv32): (r: bv32)
    ensures var flags := LEFT_TO_RIGHT | RIGHT_TO_LEFT;
            orientation & flags == 0 || orientation & flags == flags ==> r == style
    ensures var flags := LEFT_TO_RIGHT | RIGHT_TO_LEFT;
            orientation & flags != 0 && orientation & flags != flags ==>
              && r & flags == orientation & flags
              && r & (MIRRORED | FLIP_TEXT_DIRECTION) == 0
              && r & !(flags | MIRRORED | FLIP_TEXT_DIRECTION) == style & !(flags | MIRRORED | FLIP_TEXT_DIRECTION)
  {
    var flags := RIGHT_TO_LEFT | LEFT_TO_RIGHT;
    if orientation & flags == 0 || orientation & flags == flags then style
    else (((style & !MIRRORED) & !flags) | (orientation & flags)) & !FLIP_TEXT_DIRECTION
  }

  /** After an accepted `setOrientation` exactly one direction bit is set. */
  lemma SetOrientationOneDirection(style: bv32, orientation: bv32)
    requires orientation & (LEFT_TO_RIGHT | RIGHT_TO_LEFT) != 0
    requires orientation & (LEFT_TO_RIGHT | RIGHT_TO_LEFT) != LEFT_TO_RIGHT | RIGHT_TO_LEFT
    ensures var r := SetOrientation(style, orientation);
            (r & LEFT_TO_RIGHT != 0) != (r & RIGHT_TO_LEFT != 0)
  {
  }

  /** The text-direction state: the argument last given and HAS_AUTO_DIRECTION. */
  datatype TextDirection = TextDirection(textDirection: bv32, hasAutoDirection: bool)

  /** `setTextDirection(textDirection)`. */
  function SetTextDirection(textDirection: bv32): (t: TextDirection)
    ensures t.textDirection == textDirection
    ensures t.hasAutoDirection <==> textDirection & (LEFT_TO_RIGHT | RIGHT_TO_LEFT) == AUTO_TEXT_DIRECTION
  {
    var masked := textDirection & (RIGHT_TO_LEFT | LEFT_TO_RIGHT);
    TextDirection(textDirection, masked == AUTO_TEXT_DIRECTION)
  }

  /** Automatic direction is chosen exactly by giving both direction bits. */
  lemma AutoDirectionIsBothBits(textDirection: bv32)
    ensures SetTextDirection(textDirection).hasAutoDirection <==>
            textDirection & LEFT_TO_RIGHT != 0 && textDirection & RIGHT_TO_LEFT != 0
  {
  }

  // Size.

  /** `getBorderWidthInPixels()`: this control draws no border. */
  const BORDER_WIDTH: int := 0

  /** `computeSizeInPixels(wHint, hHint, changed)`: a given hint, else the
      widget's default extent, plus the border on both sides. The defaults
      come from `Widget`, which is not part of this model. */
  function ComputeSize(defaultWidth: int, defaultHeight: int, wHint: int, hHint: int): (p: Point)
    ensures wHint != DEFAULT && hHint != DEFAULT ==> p == Point(wHint, hHint)
    ensures wHint == DEFAULT && hHint == DEFAULT ==> p == Point(defaultWidth, defaultHeight)
    ensures wHint == DEFAULT && hHint != DEFAULT ==> p == Point(defaultWidth, hHint)
    ensures wHint != DEFAULT && hHint == DEFAULT ==> p == Point(wHint, defaultHeight)
  {
    var width := if wHint != DEFAULT then wHint else defaultWidth;
    var height := if hHint != DEFAULT then hHint else defaultHeight;
    var border := BORDER_WIDTH;
    Point(width + border * 2, height + border * 2)
  }

  /** Feeding the computed size back in as hints gives the same size: with
      no border, a size is its own fixed point. */
  lemma ComputeSizeStable(defaultWidth: int, defaultHeight: int, wHint: int, hHint: int)
    ensures var p := ComputeSize(defaultWidth, defaultHeight, wHint, hHint);
            ComputeSize(defaultWidth, defaultHeight, p.x, p.y) == p
  {
  }

  // Binary search.

  ghost predicate SortedUp(a: seq<int>, start: int, end: int)
    requires 0 <= start <= end <= |a|
  {
    forall p, q :: start <= p < q < end ==> a[p] <= a[q]
  }

  /** `binarySearch(indices, start, end, index)` over the sorted range
      `[start, end)`: the position of `index`, or `-(insertion point) - 1`. */
  method BinarySearch(indices: seq<int>, start: int, end: int, index: int) returns (r: int)
    requires 0 <= start <= end <= |indices|
    requires SortedUp(indices, start, end)
    ensures r >= 0 ==> start <= r < end && indices[r] == index
    ensures r < 0 ==> start <= -r - 1 <= end
    ensures r < 0 ==> forall k :: start <= k < -r - 1 ==> indices[k] < index
    ensures r < 0 ==> forall k :: -r - 1 <= k < end ==> indices[k] > index
  {
    var low, high := start, end - 1;
    while low <= high
      invariant start <= low <= high + 1 <= end
      invariant forall k :: start <= k < low ==> indices[k] < index
      invariant forall k :: high < k < end ==> indices[k] > index
    {
      var mid := (low + high) / 2;
      if indices[mid] == index {
        return mid;
      }
      if indices[mid] < index {
        low := mid + 1;
      } else {
        high := mid - 1;
      }
    }
    return -low - 1;
  }

  /** A negative result never hides a present key: it is found exactly
      when it occurs in the range. */
  lemma BinarySearchComplete(indices: seq<int>, start: int, end: int, index: int, r: int)
    requires 0 <= start <= end <= |indices|
    requires r < 0 ==> start <= -r - 1 <= end
    requires r < 0 ==> forall k :: start <= k < -r - 1 ==> indices[k] < index
    requires r < 0 ==> forall k :: -r - 1 <= k < end ==> indices[k] > index
    requires r >= 0 ==> start <= r < end && indices[r] == index
    ensures r >= 0 <==> index in indices[start..end]
  {
    var range := indices[start..end];
    if r < 0 {
      forall j | 0 <= j < |range| ensures range[j] != index {
        assert range[j] == indices[start + j];
      }
    } else {
      assert range[r - start] == index;
    }
  }

  // Colour.

  /** One 8-bit channel of a packed 0x00BBGGRR pixel: Java's `(pixel & mask) >> shift`. */
  function Channel(pixel: int, shift: nat): (c: int)
    ensures 0 <= c < 256
  {
    (pixel / Pow2(shift)) % 256
  }

  function Pow2(n: nat): (r: int)
    ensures r > 0
  {
    if n == 0 then 1 else 2 * Pow2(n - 1)
  }

  /** The channel moved 8 toward the middle. */
  function Nudge(c: int): (r: int)
    requires 0 <= c < 256
    ensures 0 <= r < 256
    ensures r == c - 8 || r == c + 8
    ensures c > 127 <==> r < c
  {
    if c > 127 then c - 8 else c + 8
  }

  /** `getSlightlyDifferentBackgroundColor(pixel)`. */
  function SlightlyDifferentBackground(pixel: int): (r: int)
    ensures 0 <= r < 0x100_0000
    ensures Channel(r, 0) == Nudge(Channel(pixel, 0))
    ensures Channel(r, 8) == Nudge(Channel(pixel, 8))
    ensures Channel(r, 16) == Nudge(Channel(pixel, 16))
  {
    var red := Nudge(Channel(pixel, 0));
    var green := Nudge(Channel(pixel, 8));
    var blue := Nudge(Channel(pixel, 16));
    PackChannels(red, green, blue);
    red + green * 0x100 + blue * 0x1_0000
  }

  /** Reading the channels back out of a packed pixel. */
  lemma PackChannels(red: int, green: int, blue: int)
    requires 0 <= red < 256 && 0 <= green < 256 && 0 <= blue < 256
    ensures var p := red + green * 0x100 + blue * 0x1_0000;
            0 <= p < 0x100_0000
            && Channel(p, 0) == red && Channel(p, 8) == green && Channel(p, 16) == blue
  {
    var p := red + green * 0x100 + blue * 0x1_0000;
    assert Pow2(8) == 0x100 by { Pow2Value(8); }
    assert Pow2(16) == 0x1_0000 by { Pow2Value(16); }
    assert p / 0x100 == green + blue * 0x100;
    assert p / 0x1_0000 == blue;
  }

  lemma {:induction false} Pow2Value(n: nat)
    requires n == 8 || n == 16
    ensures n == 8 ==> Pow2(n) == 0x100
    ensures n == 16 ==> Pow2(n) == 0x1_0000
  {
    assert Pow2(0) == 1;
    assert Pow2(4) == 16 by { assert Pow2(1) == 2 && Pow2(2) == 4 && Pow2(3) == 8; }
    assert Pow2(8) == 256 by { assert Pow2(5) == 32 && Pow2(6) == 64 && Pow2(7) == 128; }
    if n == 16 {
      assert Pow2(12) == 4096 by { assert Pow2(9) == 512 && Pow2(10) == 1024 && Pow2(11) == 2048; }
      assert Pow2(16) == 0x1_0000 by { assert Pow2(13) == 8192 && Pow2(14) == 16384 && Pow2(15) == 32768; }
    }
  }
}

=== FILE: gcgtk.dfy ===
/** The Linux Dart `GC`: style normalisation, the line setters, alpha and
    the two small geometric helpers. `state` holds the bits of attributes
    whose native counterpart is up to date; a setter clears the bits it makes
    stale. */
module GcGtk {

  import opened Wrappers
  import opened Swt
  import opened Geometry
  import opened GcLine
  import Seqs

  // State bits of `data.state`.
  const FOREGROUND: bv32 := 0x0000_0001  // 1 << 0
  const BACKGROUND: bv32 := 0x0000_0002  // 1 << 1
  const FONT: bv32 := 0x0000_0004  // 1 << 2
  const LINE_STYLE: bv32 := 0x0000_0008  // 1 << 3
  const LINE_CAP: bv32 := 0x0000_0010  // 1 << 4
  const LINE_JOIN: bv32 := 0x0000_0020  // 1 << 5
  const LINE_WIDTH: bv32 := 0x0000_0040  // 1 << 6
  const LINE_MITERLIMIT: bv32 := 0x0000_0080  // 1 << 7
  const BACKGROUND_BG: bv32 := 0x0000_0100  // 1 << 8
  const DRAW_OFFSET: bv32 := 0x0000_0200  // 1 << 9
  /** `checkStyle(style)`: only the direction bits survive, and LEFT_TO_RIGHT
      wins when both are given. The Windows `GC` has the same rule. */
  function CheckStyle(style: bv32): (r: bv32)
    ensures r & !(LEFT_TO_RIGHT | RIGHT_TO_LEFT) == 0
    ensures r & LEFT_TO_RIGHT == style & LEFT_TO_RIGHT
    ensures r & RIGHT_TO_LEFT != 0 <==> style & RIGHT_TO_LEFT != 0 && style & LEFT_TO_RIGHT == 0
    ensures r != LEFT_TO_RIGHT | RIGHT_TO_LEFT
  {
    var s := if style & LEFT_TO_RIGHT != 0 then style & !RIGHT_TO_LEFT else style;
    s & (LEFT_TO_RIGHT | RIGHT_TO_LEFT)
  }

  /** Normalising twice is normalising once. */
  lemma CheckStyleIdempotent(style: bv32)
    ensures CheckStyle(CheckStyle(style)) == CheckStyle(style)
  {
  }

  /** The part of the graphics context the setters touch. `advanced` is
      `data.cairo != 0`. */
  datatype Gc = Gc(disposed: bool, advanced: bool, state: bv32, alpha: int, line: LineData)

  /** The state bits for the dirty attribute groups. */
  function MaskOf(d: Dirty): (mask: bv32)
    ensures mask == 0 <==> Clean(d)
    ensures mask & (LINE_WIDTH | DRAW_OFFSET) != 0 <==> d.width
    ensures mask & LINE_STYLE != 0 <==> d.style
    ensures mask & LINE_CAP != 0 <==> d.cap
    ensures mask & LINE_JOIN != 0 <==> d.join
    ensures mask & LINE_MITERLIMIT != 0 <==> d.miterLimit
    ensures mask & !(LINE_WIDTH | DRAW_OFFSET | LINE_STYLE | LINE_CAP | LINE_JOIN | LINE_MITERLIMIT) == 0
  {
    (if d.width then LINE_WIDTH | DRAW_OFFSET else 0)
    | (if d.style then LINE_STYLE else 0)
    | (if d.join then LINE_JOIN else 0)
    | (if d.cap then LINE_CAP else 0)
    | (if d.miterLimit then LINE_MITERLIMIT else 0)
  }

  /** `setLineAttributes(attributes)`: a disposed GC or a null argument is
      refused, then `setLineAttributesInPixels` validates, stores and clears
      the dirty bits. */
  function SetLineAttributes(gc: Gc, a: Option<LineAttributes>): (r: Result<Gc>)
    ensures gc.disposed ==> r == Err(SwtFault(ERROR_GRAPHIC_DISPOSED))
    ensures !gc.disposed && a.None? ==> r == Err(SwtFault(ERROR_NULL_ARGUMENT))
    ensures !gc.disposed && a.Some? ==>
              (r.Err? <==> Rejects(gc.line, a.value))
              && (r.Err? ==> r.fault == SwtFault(ERROR_INVALID_ARGUMENT))
    ensures r.Ok? ==> r.value == gc.(line := r.value.line, state := r.value.state)
    ensures r.Ok? ==> var (line, dirty) := GcLine.SetLineAttributes(gc.line, a.value).value;
              if Clean(dirty) then r.value == gc
              else r.value.line == line && r.value.state == Stale(gc.state, MaskOf(dirty))
  {
    if gc.disposed then Err(SwtFault(ERROR_GRAPHIC_DISPOSED))
    else if a.None? then Err(SwtFault(ERROR_NULL_ARGUMENT))
    else
      var res := GcLine.SetLineAttributes(gc.line, a.value);
      if res.Err? then Err(res.fault)
      else
        var mask := MaskOf(res.value.1);
        if mask == 0 then Ok(gc)
        else Ok(gc.(line := res.value.0, state := Stale(gc.state, mask)))
  }

  /** `GcLine.Touched` applied to this platform's GC record. */
  function Touch(gc: Gc, r: Result<(LineData, bool)>, bit: bv32): (g: Result<Gc>)
    ensures r.Err? ==> g == Err(r.fault)
    ensures r.Ok? ==> g.Ok? && g.value.line == r.value.0
    ensures r.Ok? ==> g.value.state == if r.value.1 then Stale(gc.state, bit) else gc.state
    ensures r.Ok? ==> g.value == gc.(line := g.value.line, state := g.value.state)
  {
    var t :- Touched(gc.state, r, bit);
    Ok(gc.(line := t.0, state := t.1))
  }

  /** `setLineDash(dashes)`: the `int` dashes are stored as floats; only
      LINE_STYLE becomes stale, and only when the line data changes. */
  function SetLineDash(gc: Gc, dashes: Option<seq<int>>): (r: Result<Gc>)
    ensures gc.disposed ==> r == Err(SwtFault(ERROR_GRAPHIC_DISPOSED))
    ensures !gc.disposed && dashes.Some? && |dashes.value| > 0 ==>
              && (r.Err? <==> !AllPositive(ToReals(dashes.value)))
              && (r.Ok? ==> r.value.line.style == LINE_CUSTOM && r.value.line.dashes == Some(ToReals(dashes.value)))
    ensures !gc.disposed && !(dashes.Some? && |dashes.value| > 0) ==>
              r.Ok? && r.value.line.style == LINE_SOLID && !NonEmpty(r.value.line.dashes)
    ensures r.Ok? ==> r.value.state == if r.value.line == gc.line then gc.state else Stale(gc.state, LINE_STYLE)
  {
    if gc.disposed then Err(SwtFault(ERROR_GRAPHIC_DISPOSED))
    else
      var d := if dashes.Some? then Some(ToReals(dashes.value)) else None;
      assert NonEmpty(d) <==> dashes.Some? && |dashes.value| > 0;
      var stored := SetDash(gc.line, d);
      assert stored.Ok? ==> (stored.value.1 <==> stored.value.0 != gc.line);
      Touch(gc, stored, LINE_STYLE)
  }

  /** `setLineStyle(lineStyle)`. */
  function SetLineStyle(gc: Gc, style: int): (r: Result<Gc>)
    ensures gc.disposed ==> r == Err(SwtFault(ERROR_GRAPHIC_DISPOSED))
    ensures !gc.disposed ==> (r.Err? <==> gc.line.style != style && !KnownStyle(style))
    ensures r.Ok? ==> r.value.line == SetStyle(gc.line, style).value.0
    ensures r.Ok? ==> r.value.state == if gc.line.style == style then gc.state else Stale(gc.state, LINE_STYLE)
  {
    if gc.disposed then Err(SwtFault(ERROR_GRAPHIC_DISPOSED))
    else Touch(gc, SetStyle(gc.line, style), LINE_STYLE)
  }

  /** `setLineCap(cap)`. */
  function SetLineCap(gc: Gc, cap: int): (r: Result<Gc>)
    ensures gc.disposed ==> r == Err(SwtFault(ERROR_GRAPHIC_DISPOSED))
    ensures !gc.disposed ==> (r.Err? <==> gc.line.cap != cap && !KnownCap(cap))
    ensures r.Ok? ==> r.value.line == gc.line.(cap := cap)
    ensures r.Ok? ==> r.value.state == if gc.line.cap == cap then gc.state else Stale(gc.state, LINE_CAP)
  {
    if gc.disposed then Err(SwtFault(ERROR_GRAPHIC_DISPOSED))
    else Touch(gc, SetCap(gc.line, cap), LINE_CAP)
  }

  /** `setLineJoin(join)`. */
  function SetLineJoin(gc: Gc, join: int): (r: Result<Gc>)
    ensures gc.disposed ==> r == Err(SwtFault(ERROR_GRAPHIC_DISPOSED))
    ensures !gc.disposed ==> (r.Err? <==> gc.line.join != join && !KnownJoin(join))
    ensures r.Ok? ==> r.value.line == gc.line.(join := join)
    ensures r.Ok? ==> r.value.state == if gc.line.join == join then gc.state else Stale(gc.state, LINE_JOIN)
  {
    if gc.disposed then Err(SwtFault(ERROR_GRAPHIC_DISPOSED))
    else Touch(gc, SetJoin(gc.line, join), LINE_JOIN)
  }

  /** `setLineCap` changes exactly what `setLineAttributes` does when only
      the cap differs, state bits included. */
  lemma CapAgreesWithAttributes(gc: Gc, cap: int)
    requires !gc.disposed && gc.line.cap != cap && KnownCap(cap) && WellFormed(gc.line)
    ensures var l := gc.line;
            var a := LineAttributes(l.width, l.style, cap, l.join, l.dashes, l.dashesOffset, l.miterLimit);
            SetLineAttributes(gc, Some(a)) == SetLineCap(gc, cap)
  {
    SingleSettersAgreeWithAttributes(gc.line, gc.line.style, cap, gc.line.join);
    assert MaskOf(Dirty(false, false, true, false, false)) == LINE_CAP;
  }

  /** `setAlpha(alpha)`: the low byte is stored (`alpha & 0xff`, the
      Euclidean remainder by 256 for every Java int) and the colour bits are
      cleared, except on a GC without Cairo, where an opaque alpha is
      ignored. */
  function SetAlpha(gc: Gc, alpha: int): (r: Result<Gc>)
    ensures gc.disposed <==> r == Err(SwtFault(ERROR_GRAPHIC_DISPOSED))
    ensures !gc.disposed && !gc.advanced && alpha % 256 == 0xff ==> r == Ok(gc)
    ensures !gc.disposed && (gc.advanced || alpha % 256 != 0xff) ==>
              && r.Ok? && r.value.alpha == alpha % 256
              && r.value.state == Stale(gc.state, BACKGROUND | FOREGROUND | BACKGROUND_BG)
              && r.value == gc.(alpha := r.value.alpha, state := r.value.state)
  {
    if gc.disposed then Err(SwtFault(ERROR_GRAPHIC_DISPOSED))
    else if !gc.advanced && alpha % 256 == 0xff then Ok(gc)
    else Ok(gc.(alpha := alpha % 256, state := Stale(gc.state, BACKGROUND | FOREGROUND | BACKGROUND_BG)))
  }

  /** Only the low byte of the argument matters, and setting it twice is
      setting it once. */
  lemma SetAlphaLowByte(gc: Gc, alpha: int, k: int)
    ensures SetAlpha(gc, alpha + 256 * k) == SetAlpha(gc, alpha)
    ensures SetAlpha(gc, alpha).Ok? ==> SetAlpha(SetAlpha(gc, alpha).value, alpha) == SetAlpha(gc, alpha)
  {
    ModShift(alpha, k);
  }

  lemma {:induction false} ModShift(a: int, k: int)
    ensures (a + 256 * k) % 256 == a % 256
    decreases if k < 0 then -k else k
  {
    if k > 0 {
      ModShift(a, k - 1);
      assert a + 256 * k == (a + 256 * (k - 1)) + 256;
    } else if k < 0 {
      ModShift(a, k + 1);
      assert a + 256 * k == (a + 256 * (k + 1)) - 256;
    }
  }

  /** The identity matrix `[1, 0, 0, 1, 0, 0]`. */
  const IDENTITY: seq<real> := [1.0, 0.0, 0.0, 1.0, 0.0, 0.0]

  /** `isIdentity(matrix)`: null is the identity; otherwise the six entries
      are compared left to right and the first mismatch answers false, so a
      short array fails only when its entries all match so far. */
  function IsIdentity(matrix: Option<seq<real>>): (r: Result<bool>)
    ensures matrix.None? ==> r == Ok(true)
    ensures matrix.Some? ==>
              && (r == Ok(true) <==> |matrix.value| >= 6 && matrix.value[..6] == IDENTITY)
              && (r == Err(IndexOutOfBounds) <==> |matrix.value| < 6 && matrix.value == IDENTITY[..|matrix.value|])
              && (r.Err? ==> r.fault == IndexOutOfBounds)
  {
    if matrix.None? then Ok(true) else MatchesFrom(matrix.value, 0)
  }

  /** Compares entries `k..5` of the matrix with the identity. */
  function MatchesFrom(m: seq<real>, k: nat): (r: Result<bool>)
    requires k <= 6
    requires k <= |m| && m[..k] == IDENTITY[..k]
    ensures r == Ok(true) <==> |m| >= 6 && m[..6] == IDENTITY
    ensures r == Err(IndexOutOfBounds) <==> |m| < 6 && m == IDENTITY[..|m|]
    ensures r.Err? ==> r.fault == IndexOutOfBounds
    decreases 6 - k
  {
    if k == 6 then Ok(true)
    else if k >= |m| then
      assert m == m[..k];
      Err(IndexOutOfBounds)
    else if m[k] != IDENTITY[k] then
      assert |m| >= 6 ==> m[..6] != IDENTITY by { if |m| >= 6 { assert m[..6][k] != IDENTITY[k]; } }
      assert |m| < 6 ==> m != IDENTITY[..|m|] by { if |m| < 6 { assert m[k] != IDENTITY[..|m|][k]; } }
      Ok(false)
    else
      assert m[..k + 1] == m[..k] + [m[k]];
      assert IDENTITY[..k + 1] == IDENTITY[..k] + [IDENTITY[k]];
      MatchesFrom(m, k + 1)
  }

  /** `getTransformedClippingRectangle(points)` over the four corners
      `(x1,y1) .. (x4,y4)` of an axis-parallel rectangle: the smallest x and
      y, the width `|x1 - x2|` and the height `|y1 - y4|`. */
  function TransformedClippingRectangle(points: seq<int>): (r: Rect)
    requires |points| >= 8
    ensures r.x <= points[0] && r.x <= points[2] && r.x <= points[4] && r.x <= points[6]
    ensures r.x in {points[0], points[2], points[4], points[6]}
    ensures r.y <= points[1] && r.y <= points[3] && r.y <= points[5] && r.y <= points[7]
    ensures r.y in {points[1], points[3], points[5], points[7]}
    ensures r.width >= 0 && (r.width == points[0] - points[2] || r.width == points[2] - points[0])
    ensures r.height >= 0 && (r.height == points[1] - points[7] || r.height == points[7] - points[1])
  {
    var x := Min(Min(points[0], points[2]), Min(points[4], points[6]));
    var y := Min(Min(points[1], points[3]), Min(points[5], points[7]));
    Rect(x, y, Seqs.Abs(points[0] - points[2]), Seqs.Abs(points[1] - points[7]))
  }

  /** The corners of a rectangle, in the order the clipping code transforms
      them: top left, top right, bottom right, bottom left. */
  function Corners(r: Rect): seq<int> {
    [r.x, r.y, r.x + r.width, r.y, r.x + r.width, r.y + r.height, r.x, r.y + r.height]
  }

  /** For the untransformed corners the rectangle comes back unchanged, and
      so it does for the corners of any rectangle mirrored about the y axis. */
  lemma ClippingRectangleRoundTrip(r: Rect)
    requires r.width >= 0 && r.height >= 0
    ensures TransformedClippingRectangle(Corners(r)) == r
    ensures var m := [-r.x, r.y, -r.x - r.width, r.y, -r.x - r.width, r.y + r.height, -r.x, r.y + r.height];
            TransformedClippingRectangle(m) == Rect(-r.x - r.width, r.y, r.width, r.height)
  {
  }
}

=== FILE: gcline.dfy ===
/** Line attributes of a graphics context, shared by the Linux and the
    Windows `GC`: the `LineAttributes` value a caller passes, the line part
    of `GCData`, the validation both platforms apply, the groups of
    attributes a change makes dirty and the clearing of their state bits. Floats are modelled as reals. */
module GcLine {

  import opened Wrappers
  import opened Swt

  /** `LineAttributes`; a null dash array is `None`. */
  datatype LineAttributes = LineAttributes(
    width: real,
    style: int,
    cap: int,
    join: int,
    dash: Option<seq<real>>,
    dashOffset: real,
    miterLimit: real
  )

  /** The line fields of `GCData`. */
  datatype LineData = LineData(
    width: real,
    style: int,
    cap: int,
    join: int,
    dashes: Option<seq<real>>,
    dashesOffset: real,
    miterLimit: real
  )

  predicate KnownStyle(style: int) {
    style in {LINE_SOLID, LINE_DASH, LINE_DOT, LINE_DASHDOT, LINE_DASHDOTDOT, LINE_CUSTOM}
  }

  predicate KnownJoin(join: int) {
    join in {JOIN_MITER, JOIN_ROUND, JOIN_BEVEL}
  }

  predicate KnownCap(cap: int) {
    cap in {CAP_FLAT, CAP_ROUND, CAP_SQUARE}
  }

  /** A dash array that is present and has at least one entry. */
  predicate NonEmpty(dashes: Option<seq<real>>) {
    dashes.Some? && |dashes.value| > 0
  }

  predicate AllPositive(dashes: seq<real>) {
    forall i :: 0 <= i < |dashes| ==> dashes[i] > 0.0
  }

  /** Line data every setter keeps: known style, join and cap, and no
      dash that is not positive. */
  predicate WellFormed(line: LineData) {
    && KnownStyle(line.style)
    && KnownJoin(line.join)
    && KnownCap(line.cap)
    && (line.dashes.Some? ==> AllPositive(line.dashes.value))
  }

  /** The attribute groups a call marks dirty; each platform turns them into
      its own state bits. */
  datatype Dirty = Dirty(width: bool, style: bool, cap: bool, join: bool, miterLimit: bool)

  predicate Clean(d: Dirty) {
    !d.width && !d.style && !d.cap && !d.join && !d.miterLimit
  }

  /** A `data.state` word with the given bits cleared: the attributes they
      stand for are out of date on the native side. */
  function Stale(state: bv32, bits: bv32): (s: bv32)
    ensures s & bits == 0
    ensures s & !bits == state & !bits
  {
    state & !bits
  }

  /** A single-attribute setter's outcome on the line data and the state
      word: the new line data, and the attribute's state bit cleared when the
      setter stored anything. Both platforms' GC records apply it. */
  function Touched(state: bv32, r: Result<(LineData, bool)>, bit: bv32): (t: Result<(LineData, bv32)>)
    ensures r.Err? <==> t.Err?
    ensures r.Err? ==> t.fault == r.fault
    ensures r.Ok? ==> t.value.0 == r.value.0
    ensures r.Ok? && r.value.1 ==> t.value.1 == Stale(state, bit)
    ensures r.Ok? && !r.value.1 ==> t.value.1 == state
  {
    if r.Err? then Err(r.fault)
    else if r.value.1 then Ok((r.value.0, Stale(state, bit)))
    else Ok((r.value.0, state))
  }

  /** The conditions under which `setLineAttributesInPixels` raises
      INVALID_ARGUMENT: a changed style, join or cap that is not one of the
      constants, or a present, non-empty dash array with an entry <= 0. */
  predicate Rejects(line: LineData, a: LineAttributes) {
    || (a.style != line.style && !KnownStyle(a.style))
    || (a.join != line.join && !KnownJoin(a.join))
    || (a.cap != line.cap && !KnownCap(a.cap))
    || (NonEmpty(a.dash) && !AllPositive(a.dash.value))
  }

  /** The loop over the new dashes: any entry <= 0 is an error; otherwise
      whether the dashes differ from the stored ones, starting from the
      caller's own first guess `changed` (a missing array, another length,
      or for `setLineDash` another style). */
  method ScanDashes(stored: Option<seq<real>>, dashes: seq<real>, changed: bool) returns (r: Result<bool>)
    requires !changed ==> stored.Some? && |stored.value| == |dashes|
    ensures r.Err? <==> !AllPositive(dashes)
    ensures r.Err? ==> r.fault == SwtFault(ERROR_INVALID_ARGUMENT)
    ensures r.Ok? ==> (r.value <==> changed || stored != Some(dashes))
  {
    var differs := changed;
    var i := 0;
    while i < |dashes|
      invariant 0 <= i <= |dashes|
      invariant AllPositive(dashes[..i])
      invariant !changed ==> (differs <==> stored.value[..i] != dashes[..i])
      invariant changed ==> differs
    {
      var dash := dashes[i];
      if dash <= 0.0 {
        assert !AllPositive(dashes) by { assert dashes[i] <= 0.0; }
        return Err(SwtFault(ERROR_INVALID_ARGUMENT));
      }
      if !differs && stored.value[i] != dash {
        assert stored.value[..i + 1][i] != dashes[..i + 1][i];
        differs := true;
      }
      if !changed && differs {
        PrefixDiffers(stored.value, dashes, i);
      }
      assert dashes[..i + 1] == dashes[..i] + [dash];
      i := i + 1;
    }
    assert dashes[..i] == dashes;
    assert !changed ==> stored.value[..i] == stored.value;
    return Ok(differs);
  }

  /** A difference in a prefix remains in the longer prefix. */
  lemma PrefixDiffers(s: seq<real>, t: seq<real>, i: nat)
    requires i < |s| == |t|
    requires s[..i] != t[..i] || s[i] != t[i]
    ensures s[..i + 1] != t[..i + 1]
  {
    if s[..i] != t[..i] {
      assert s[..i + 1][..i] == s[..i];
      assert t[..i + 1][..i] == t[..i];
    } else {
      assert s[..i + 1][i] == s[i];
      assert t[..i + 1][i] == t[i];
    }
  }

  /** The dashes `setLineAttributesInPixels` would store: the new ones when
      they are non-empty and differ; the new (null or empty) ones when the
      stored ones are non-empty; otherwise the stored ones. */
  function NewDashes(stored: Option<seq<real>>, dash: Option<seq<real>>): (d: Option<seq<real>>)
    ensures NonEmpty(dash) ==> d == dash
    ensures !NonEmpty(dash) ==> !NonEmpty(d)
    ensures !NonEmpty(dash) && !NonEmpty(stored) ==> d == stored
  {
    if NonEmpty(dash) then
      if stored != dash then dash else stored
    else if NonEmpty(stored) then dash
    else stored
  }

  /** `setLineAttributesInPixels(attributes)` on the line data: the new
      line data and the groups marked dirty. With nothing dirty the data is
      left as it was; the dashes are copied when they are stored. */
  function SetLineAttributes(line: LineData, a: LineAttributes): (r: Result<(LineData, Dirty)>)
    ensures r.Err? <==> Rejects(line, a)
    ensures r.Err? ==> r.fault == SwtFault(ERROR_INVALID_ARGUMENT)
    ensures r.Ok? ==> var (next, dirty) := r.value;
              && (dirty.width <==> a.width != line.width)
              && (dirty.cap <==> a.cap != line.cap)
              && (dirty.join <==> a.join != line.join)
              && (dirty.miterLimit <==> a.miterLimit != line.miterLimit)
              && (dirty.style <==> a.style != line.style || a.dashOffset != line.dashesOffset
                                    || (NonEmpty(a.dash) && a.dash != line.dashes)
                                    || (!NonEmpty(a.dash) && NonEmpty(line.dashes)))
              && (Clean(dirty) ==> next == line)
    // a dirty call stores every attribute as given, except that a changed
    // style of LINE_CUSTOM without a dash array becomes LINE_SOLID
    ensures r.Ok? && !Clean(r.value.1) ==> var next := r.value.0;
              && next.width == a.width && next.cap == a.cap && next.join == a.join
              && next.dashesOffset == a.dashOffset && next.miterLimit == a.miterLimit
              && next.style == (if a.style != line.style && a.style == LINE_CUSTOM && a.dash.None? then LINE_SOLID else a.style)
              && (NonEmpty(a.dash) ==> next.dashes == a.dash)
              && (!NonEmpty(a.dash) ==> !NonEmpty(next.dashes))
  {
    if Rejects(line, a) then Err(SwtFault(ERROR_INVALID_ARGUMENT))
    else
      var style := if a.style != line.style && a.style == LINE_CUSTOM && a.dash.None? then LINE_SOLID else a.style;
      var dashesChanged := if NonEmpty(a.dash) then a.dash != line.dashes else NonEmpty(line.dashes);
      var dirty := Dirty(
        a.width != line.width,
        a.style != line.style || dashesChanged || a.dashOffset != line.dashesOffset,
        a.cap != line.cap,
        a.join != line.join,
        a.miterLimit != line.miterLimit);
      if Clean(dirty) then Ok((line, dirty))
      else Ok((LineData(a.width, style, a.cap, a.join, NewDashes(line.dashes, a.dash), a.dashOffset, a.miterLimit), dirty))
  }

  /** The early return when nothing is dirty only saves work: storing the
      attributes would leave the data as it was. */
  lemma CleanStoreIsNoOp(line: LineData, a: LineAttributes)
    requires SetLineAttributes(line, a).Ok? && Clean(SetLineAttributes(line, a).value.1)
    ensures LineData(a.width, a.style, a.cap, a.join, NewDashes(line.dashes, a.dash), a.dashOffset, a.miterLimit) == line
  {
  }

  /** Setting line attributes keeps the line data well formed. */
  lemma SetLineAttributesWellFormed(line: LineData, a: LineAttributes)
    requires WellFormed(line)
    requires SetLineAttributes(line, a).Ok?
    ensures WellFormed(SetLineAttributes(line, a).value.0)
  {
  }

  /** Setting the same attributes again finds nothing dirty, unless the
      first call turned a dash-less LINE_CUSTOM into LINE_SOLID: then the
      style is dirty on every repetition. */
  lemma SetLineAttributesSettles(line: LineData, a: LineAttributes)
    requires SetLineAttributes(line, a).Ok?
    ensures var next := SetLineAttributes(line, a).value.0;
            var again := SetLineAttributes(next, a);
            again.Ok?
            && (next.style == a.style ==> again == Ok((next, Dirty(false, false, false, false, false))))
            && (next.style != a.style ==> again.value.1.style && again.value.0 == next)
  {
  }

  /** `setLineStyle(lineStyle)` on the line data: the new data and whether
      the setter stored anything (and so makes LINE_STYLE stale). A style
      equal to the current one is a no-op; LINE_CUSTOM without a dash array
      becomes LINE_SOLID. */
  function SetStyle(line: LineData, style: int): (r: Result<(LineData, bool)>)
    ensures line.style == style ==> r == Ok((line, false))
    ensures line.style != style ==>
              && (r.Err? <==> !KnownStyle(style))
              && (r.Err? ==> r.fault == SwtFault(ERROR_INVALID_ARGUMENT))
              && (r.Ok? ==> r.value.1 && r.value.0 == line.(style := r.value.0.style))
              && (r.Ok? && (style != LINE_CUSTOM || line.dashes.Some?) ==> r.value.0.style == style)
              && (r.Ok? && style == LINE_CUSTOM && line.dashes.None? ==> r.value.0.style == LINE_SOLID)
  {
    if line.style == style then Ok((line, false))
    else if !KnownStyle(style) then Err(SwtFault(ERROR_INVALID_ARGUMENT))
    else
      var s := if style == LINE_CUSTOM && line.dashes.None? then LINE_SOLID else style;
      Ok((line.(style := s), true))
  }

  /** `setLineCap(cap)` on the line data. */
  function SetCap(line: LineData, cap: int): (r: Result<(LineData, bool)>)
    ensures line.cap == cap ==> r == Ok((line, false))
    ensures line.cap != cap ==>
              && (r.Err? <==> !KnownCap(cap))
              && (r.Err? ==> r.fault == SwtFault(ERROR_INVALID_ARGUMENT))
              && (r.Ok? ==> r.value == (line.(cap := cap), true))
  {
    if line.cap == cap then Ok((line, false))
    else if !KnownCap(cap) then Err(SwtFault(ERROR_INVALID_ARGUMENT))
    else Ok((line.(cap := cap), true))
  }

  /** `setLineJoin(join)` on the line data. */
  function SetJoin(line: LineData, join: int): (r: Result<(LineData, bool)>)
    ensures line.join == join ==> r == Ok((line, false))
    ensures line.join != join ==>
              && (r.Err? <==> !KnownJoin(join))
              && (r.Err? ==> r.fault == SwtFault(ERROR_INVALID_ARGUMENT))
              && (r.Ok? ==> r.value == (line.(join := join), true))
  {
    if line.join == join then Ok((line, false))
    else if !KnownJoin(join) then Err(SwtFault(ERROR_INVALID_ARGUMENT))
    else Ok((line.(join := join), true))
  }

  /** `setLineDash(dashes)` on the line data: a non-empty array makes the
      style LINE_CUSTOM with a copy of the dashes; a null or empty one makes
      it LINE_SOLID with no dashes. Nothing is stored when that is already
      the state. */
  function SetDash(line: LineData, dashes: Option<seq<real>>): (r: Result<(LineData, bool)>)
    ensures NonEmpty(dashes) ==>
              && (r.Err? <==> !AllPositive(dashes.value))
              && (r.Err? ==> r.fault == SwtFault(ERROR_INVALID_ARGUMENT))
              && (r.Ok? ==> r.value.0.style == LINE_CUSTOM && r.value.0.dashes == dashes)
    ensures !NonEmpty(dashes) ==>
              && r.Ok?
              && r.value.0.style == LINE_SOLID && !NonEmpty(r.value.0.dashes)
              && (line.style == LINE_SOLID && !NonEmpty(line.dashes) ==> r.value == (line, false))
              && (line.style != LINE_SOLID || NonEmpty(line.dashes) ==> r.value.0.dashes.None?)
    // a store happens exactly when the line data changes, and only the style
    // and the dashes can change
    ensures r.Ok? ==> (r.value.1 <==> r.value.0 != line)
    ensures r.Ok? ==> r.value.0 == line.(style := r.value.0.style, dashes := r.value.0.dashes)
  {
    if NonEmpty(dashes) then
      if !AllPositive(dashes.value) then Err(SwtFault(ERROR_INVALID_ARGUMENT))
      else
        var changed := line.style != LINE_CUSTOM || line.dashes != dashes;
        if !changed then Ok((line, false))
        else Ok((line.(dashes := dashes, style := LINE_CUSTOM), true))
    else if line.style == LINE_SOLID && !NonEmpty(line.dashes) then Ok((line, false))
    else Ok((line.(dashes := None, style := LINE_SOLID), true))
  }

  /** Every single-attribute setter keeps the line data well formed. */
  lemma SettersWellFormed(line: LineData, style: int, cap: int, join: int, dashes: Option<seq<real>>)
    requires WellFormed(line)
    ensures SetStyle(line, style).Ok? ==> WellFormed(SetStyle(line, style).value.0)
    ensures SetCap(line, cap).Ok? ==> WellFormed(SetCap(line, cap).value.0)
    ensures SetJoin(line, join).Ok? ==> WellFormed(SetJoin(line, join).value.0)
    ensures SetDash(line, dashes).Ok? ==> WellFormed(SetDash(line, dashes).value.0)
  {
  }

  /** Setting the same dashes twice is setting them once, and the second
      call stores nothing. */
  lemma SetDashIdempotent(line: LineData, dashes: Option<seq<real>>)
    requires SetDash(line, dashes).Ok?
    ensures SetDash(SetDash(line, dashes).value.0, dashes) == Ok((SetDash(line, dashes).value.0, false))
  {
  }

  /** The cap, join and style setters do what `setLineAttributes` does with
      every other attribute left as it is. */
  lemma SingleSettersAgreeWithAttributes(line: LineData, style: int, cap: int, join: int)
    requires WellFormed(line)
    ensures var a := LineAttributes(line.width, line.style, cap, line.join, line.dashes, line.dashesOffset, line.miterLimit);
            SetCap(line, cap).Ok? ==> SetLineAttributes(line, a) == Ok((SetCap(line, cap).value.0, Dirty(false, false, cap != line.cap, false, false)))
    ensures var a := LineAttributes(line.width, line.style, line.cap, join, line.dashes, line.dashesOffset, line.miterLimit);
            SetJoin(line, join).Ok? ==> SetLineAttributes(line, a) == Ok((SetJoin(line, join).value.0, Dirty(false, false, false, join != line.join, false)))
    ensures var a := LineAttributes(line.width, style, line.cap, line.join, line.dashes, line.dashesOffset, line.miterLimit);
            SetStyle(line, style).Ok? ==> SetLineAttributes(line, a) == Ok((SetStyle(line, style).value.0, Dirty(false, style != line.style, false, false, false)))
  {
  }

  /** `int` dashes as the `float` values they are stored as. */
  function ToReals(dashes: seq<int>): (r: seq<real>)
    ensures |r| == |dashes|
    ensures forall i :: 0 <= i < |dashes| ==> r[i] == dashes[i] as real
  {
    if |dashes| == 0 then [] else [dashes[0] as real] + ToReals(dashes[1..])
  }

  /** All-zero array of the given length, what `new float[n]` holds. */
  function Zeros(n: nat): (r: seq<real>)
    ensures |r| == n
    ensures forall i :: 0 <= i < n ==> r[i] == 0.0
  {
    if n == 0 then [] else Zeros(n - 1) + [0.0]
  }
}

=== FILE: gcwin.dfy ===
/** The Windows Dart `GC`: the `checkGC` state-bit algebra and the log of
    operations. Every setter records an operation object and applies it to
    the current native data; when a new native handle is made, the whole log
    is applied again, in order, to the new data. */
module GcWin {

  import opened Wrappers
  import opened Swt
  import opened GcLine

  // State bits of `data.state`.
  const FOREGROUND: bv32 := 0x0000_0001  // 1 << 0
  const BACKGROUND: bv32 := 0x0000_0002  // 1 << 1
  const FONT: bv32 := 0x0000_0004  // 1 << 2
  const LINE_STYLE: bv32 := 0x0000_0008  // 1 << 3
  const LINE_WIDTH: bv32 := 0x0000_0010  // 1 << 4
  const LINE_CAP: bv32 := 0x0000_0020  // 1 << 5
  const LINE_JOIN: bv32 := 0x0000_0040  // 1 << 6
  const LINE_MITERLIMIT: bv32 := 0x0000_0080  // 1 << 7
  const FOREGROUND_TEXT: bv32 := 0x0000_0100  // 1 << 8
  const BACKGROUND_TEXT: bv32 := 0x0000_0200  // 1 << 9
  const BRUSH: bv32 := 0x0000_0400  // 1 << 10
  const PEN: bv32 := 0x0000_0800  // 1 << 11
  const NULL_BRUSH: bv32 := 0x0000_1000  // 1 << 12
  const NULL_PEN: bv32 := 0x0000_2000  // 1 << 13
  const DRAW_OFFSET: bv32 := 0x0000_4000  // 1 << 14
  /** What line drawing needs. */
  const DRAW: bv32 := FOREGROUND | LINE_STYLE | LINE_WIDTH | LINE_CAP | LINE_JOIN | LINE_MITERLIMIT | PEN | NULL_BRUSH | DRAW_OFFSET
  /** What filling needs. */
  const FILL: bv32 := BACKGROUND | BRUSH | NULL_PEN

  /** Missing bits that make a non-advanced GC select a new pen. */
  const PEN_SOURCES: bv32 := FOREGROUND | LINE_CAP | LINE_JOIN | LINE_STYLE | LINE_WIDTH
  const SELECTION: bv32 := PEN | NULL_PEN | BRUSH | NULL_BRUSH

  /** `checkGC(mask)` on `data.state`. Nothing happens when every bit of the
      mask is already up to date. Otherwise the mask is added; a
      non-advanced GC (no GDI+ graphics) then selects a pen when the
      foreground or a line attribute was out of date, a brush when the
      background was, and otherwise settles PEN against NULL_PEN and BRUSH
      against NULL_BRUSH in favour of the bit that was missing. */
  function CheckGC(state: bv32, advanced: bool, mask: bv32): (r: bv32)
    ensures state & mask == mask ==> r == state
    ensures state & mask != mask && advanced ==> r == state | mask
    ensures state & mask != mask && !advanced ==> r == Select(state | mask, mask & !state)
  {
    if state & mask == mask then state
    else
      var missing := (state ^ mask) & mask;
      MissingBits(state, mask);
      if advanced then state | mask
      else Select(state | mask, missing)
  }

  /** The bits `checkGC` finds out of date: those of the mask that the
      state lacks. */
  lemma MissingBits(state: bv32, mask: bv32)
    ensures (state ^ mask) & mask == mask & !state
  {
  }

  /** Outside the advanced mode an incomplete state gains the mask's bits,
      keeps every other bit except the selection, and has a real pen
      selected when a pen attribute was stale and a real brush when the
      background was. */
  lemma CheckGCSelects(state: bv32, mask: bv32)
    requires state & mask != mask
    ensures CheckGC(state, false, mask) & !SELECTION == (state | mask) & !SELECTION
    ensures mask & !state & PEN_SOURCES != 0 ==> CheckGC(state, false, mask) & PEN != 0 && CheckGC(state, false, mask) & NULL_PEN == 0
    ensures mask & !state & BACKGROUND != 0 ==> CheckGC(state, false, mask) & BRUSH != 0 && CheckGC(state, false, mask) & NULL_BRUSH == 0
  {
    var r := CheckGC(state, false, mask);
    assert r == Select(state | mask, mask & !state);
  }

  /** The selection step of `checkGC` on the state with the mask added:
      the pen half, then the brush half. */
  function Select(s: bv32, missing: bv32): (r: bv32)
    ensures r & !SELECTION == s & !SELECTION
    ensures missing & PEN_SOURCES != 0 ==> r & PEN != 0 && r & NULL_PEN == 0
    ensures missing & BACKGROUND != 0 ==> r & BRUSH != 0 && r & NULL_BRUSH == 0
  {
    var pen := SelectPen(s, missing);
    var r := SelectBrush(pen, missing);
    assert r & PEN == pen & PEN && r & NULL_PEN == pen & NULL_PEN;
    r
  }

  /** The pen half of `checkGC` on a non-advanced GC. */
  function SelectPen(s: bv32, missing: bv32): (r: bv32)
    ensures r & !(PEN | NULL_PEN) == s & !(PEN | NULL_PEN)
    ensures missing & PEN_SOURCES != 0 ==> r & PEN != 0 && r & NULL_PEN == 0
    ensures missing & PEN_SOURCES == 0 && missing & PEN != 0 ==> r & PEN == s & PEN && r & NULL_PEN == 0
    ensures missing & (PEN_SOURCES | PEN) == 0 && missing & NULL_PEN != 0 ==> r & PEN == 0 && r & NULL_PEN == s & NULL_PEN
    ensures missing & (PEN_SOURCES | PEN | NULL_PEN) == 0 ==> r == s
  {
    if missing & PEN_SOURCES != 0 then (s | PEN) & !NULL_PEN
    else if missing & PEN != 0 then s & !NULL_PEN
    else if missing & NULL_PEN != 0 then s & !PEN
    else s
  }

  /** The brush half of `checkGC` on a non-advanced GC. */
  function SelectBrush(s: bv32, missing: bv32): (r: bv32)
    ensures r & !(BRUSH | NULL_BRUSH) == s & !(BRUSH | NULL_BRUSH)
    ensures missing & BACKGROUND != 0 ==> r & BRUSH != 0 && r & NULL_BRUSH == 0
    ensures missing & BACKGROUND == 0 && missing & BRUSH != 0 ==> r & BRUSH == s & BRUSH && r & NULL_BRUSH == 0
    ensures missing & (BACKGROUND | BRUSH) == 0 && missing & NULL_BRUSH != 0 ==> r & BRUSH == 0 && r & NULL_BRUSH == s & NULL_BRUSH
    ensures missing & (BACKGROUND | BRUSH | NULL_BRUSH) == 0 ==> r == s
  {
    if missing & BACKGROUND != 0 then (s | BRUSH) & !NULL_BRUSH
    else if missing & BRUSH != 0 then s & !NULL_BRUSH
    else if missing & NULL_BRUSH != 0 then s & !BRUSH
    else s
  }

  /** A state that never selects both a pen and the null pen, nor both a
      brush and the null brush. */
  predicate Exclusive(state: bv32) {
    && (state & PEN == 0 || state & NULL_PEN == 0)
    && (state & BRUSH == 0 || state & NULL_BRUSH == 0)
  }

  /** On a non-advanced GC, `checkGC` keeps the selection exclusive, for
      every mask. */
  lemma CheckGCKeepsExclusive(state: bv32, mask: bv32)
    requires Exclusive(state)
    ensures Exclusive(CheckGC(state, false, mask))
  {
    if state & mask != mask {
      var missing := mask & !state;
      var pen := SelectPen(state | mask, missing);
      var r := SelectBrush(pen, missing);
      assert CheckGC(state, false, mask) == r;
      PenStaysExclusive(state, mask);
      BrushStaysExclusive(pen, state, mask);
      PenSurvivesBrush(pen, missing);
    }
  }

  // The halves of `CheckGCKeepsExclusive`.

  lemma PenStaysExclusive(state: bv32, mask: bv32)
    requires state & PEN == 0 || state & NULL_PEN == 0
    ensures var p := SelectPen(state | mask, mask & !state);
            p & PEN == 0 || p & NULL_PEN == 0
  {
  }

  lemma BrushStaysExclusive(s: bv32, state: bv32, mask: bv32)
    requires state & BRUSH == 0 || state & NULL_BRUSH == 0
    requires s & BRUSH == (state | mask) & BRUSH && s & NULL_BRUSH == (state | mask) & NULL_BRUSH
    ensures var b := SelectBrush(s, mask & !state);
            b & BRUSH == 0 || b & NULL_BRUSH == 0
  {
  }

  lemma PenSurvivesBrush(s: bv32, missing: bv32)
    ensures SelectBrush(s, missing) & PEN == s & PEN
    ensures SelectBrush(s, missing) & NULL_PEN == s & NULL_PEN
  {
  }

  /** After `checkGC(DRAW)` a non-advanced GC has every DRAW bit, a real
      pen and no brush, so a second call does nothing. */
  lemma CheckGCDraw(state: bv32)
    requires Exclusive(state)
    ensures var r := CheckGC(state, false, DRAW);
            r & DRAW == DRAW && r & NULL_PEN == 0 && r & BRUSH == 0 && CheckGC(r, false, DRAW) == r
  {
    DrawCovers(state);
    DrawPen(state);
    DrawBrush(state);
  }

  // The facts of `CheckGCDraw` and `CheckGCFill`, one at a time.

  lemma DrawCovers(state: bv32)
    requires Exclusive(state)
    ensures CheckGC(state, false, DRAW) & DRAW == DRAW
  {
  }

  lemma DrawPen(state: bv32)
    requires Exclusive(state)
    ensures CheckGC(state, false, DRAW) & NULL_PEN == 0
  {
  }

  lemma DrawBrush(state: bv32)
    requires Exclusive(state)
    ensures CheckGC(state, false, DRAW) & BRUSH == 0
  {
  }

  /** After `checkGC(FILL)` a non-advanced GC has every FILL bit, a real
      brush and no pen, so a second call does nothing. */
  lemma CheckGCFill(state: bv32)
    requires Exclusive(state)
    ensures var r := CheckGC(state, false, FILL);
            r & FILL == FILL && r & PEN == 0 && r & NULL_BRUSH == 0 && CheckGC(r, false, FILL) == r
  {
    FillCovers(state);
    FillPen(state);
    FillBrush(state);
  }

  lemma FillCovers(state: bv32)
    requires Exclusive(state)
    ensures CheckGC(state, false, FILL) & FILL == FILL
  {
  }

  lemma FillPen(state: bv32)
    requires Exclusive(state)
    ensures CheckGC(state, false, FILL) & PEN == 0
  {
  }

  lemma FillBrush(state: bv32)
    requires Exclusive(state)
    ensures CheckGC(state, false, FILL) & NULL_BRUSH == 0
  {
  }

  /** The native data the operations act on. `advanced` is
      `data.gdipGraphics != 0`; the two pattern-alpha fields are the cached
      alpha brushes of the foreground and background patterns. */
  datatype Gc = Gc(advanced: bool, state: bv32, alpha: int, fgPatternAlpha: int, bgPatternAlpha: int, line: LineData)

  /** The logged operations whose effect on the data is modelled. `Nop`
      stands for every operation whose `apply` is empty: the drawing and
      filling operations, `SetLineWidthOperation`, `SetXORModeOperation`
      and the clipping-rectangle operations. */
  datatype Operation =
    | SetAlphaOp(alpha: int)
    | SetFillRuleOp(rule: int)
    | SetLineAttributesOp(attributes: LineAttributes)
    | SetLineCapOp(cap: int)
    | SetLineDashOp(dashes: Option<seq<int>>)
    | SetLineJoinOp(join: int)
    | SetLineStyleOp(style: int)
    | Nop

  /** The state bits for the dirty attribute groups. */
  function MaskOf(d: Dirty): (mask: bv32)
    ensures mask == 0 <==> Clean(d)
    ensures mask & (LINE_WIDTH | DRAW_OFFSET) != 0 <==> d.width
    ensures mask & LINE_STYLE != 0 <==> d.style
    ensures mask & LINE_CAP != 0 <==> d.cap
    ensures mask & LINE_JOIN != 0 <==> d.join
    ensures mask & LINE_MITERLIMIT != 0 <==> d.miterLimit
  {
    (if d.width then LINE_WIDTH | DRAW_OFFSET else 0)
    | (if d.style then LINE_STYLE else 0)
    | (if d.join then LINE_JOIN else 0)
    | (if d.cap then LINE_CAP else 0)
    | (if d.miterLimit then LINE_MITERLIMIT else 0)
  }

  /** A single-attribute operation's outcome, as `GcLine.Touched` gives it,
      written into the Windows record. */
  function WithLine(gc: Gc, t: (LineData, bv32)): Gc {
    gc.(line := t.0, state := t.1)
  }

  function DashesAsReals(dashes: Option<seq<int>>): (r: Option<seq<real>>)
    ensures r.Some? <==> dashes.Some?
    ensures dashes.Some? ==> r.value == ToReals(dashes.value)
  {
    if dashes.Some? then Some(ToReals(dashes.value)) else None
  }

  /** `SetAlphaOperation.apply()`: the low byte is stored, the colour bits
      become stale and the pattern-alpha caches are dropped, except on a
      non-advanced GC, where an opaque alpha is ignored. */
  function ApplyAlpha(gc: Gc, alpha: int): (r: Gc)
    ensures !gc.advanced && alpha % 256 == 0xFF ==> r == gc
    ensures gc.advanced || alpha % 256 != 0xFF ==>
              && r.alpha == alpha % 256 && 0 <= r.alpha < 256
              && r.state == Stale(gc.state, BACKGROUND | FOREGROUND)
              && r.fgPatternAlpha == 0 && r.bgPatternAlpha == 0
              && r.line == gc.line && r.advanced == gc.advanced
  {
    if !gc.advanced && alpha % 256 == 0xFF then gc
    else gc.(alpha := alpha % 256, state := Stale(gc.state, BACKGROUND | FOREGROUND), fgPatternAlpha := 0, bgPatternAlpha := 0)
  }

  /** `SetFillRuleOperation.apply()`: only validates; the rule itself is not
      kept in the data. */
  function ApplyFillRule(gc: Gc, rule: int): (r: Result<Gc>)
    ensures r.Ok? <==> rule == FILL_WINDING || rule == FILL_EVEN_ODD
    ensures r.Ok? ==> r.value == gc
    ensures r.Err? ==> r.fault == SwtFault(ERROR_INVALID_ARGUMENT)
  {
    if rule == FILL_WINDING || rule == FILL_EVEN_ODD then Ok(gc)
    else Err(SwtFault(ERROR_INVALID_ARGUMENT))
  }

  /** `setLineAttributesInPixels(attributes)`, with the dashes copied when
      they are stored (see `SetLineAttributesAsWritten`). */
  function ApplyLineAttributes(gc: Gc, a: LineAttributes): (r: Result<Gc>)
    ensures r.Err? <==> Rejects(gc.line, a)
    ensures r.Ok? ==> var (line, dirty) := GcLine.SetLineAttributes(gc.line, a).value;
              if Clean(dirty) then r.value == gc
              else r.value == gc.(line := line, state := Stale(gc.state, MaskOf(dirty)))
  {
    var res := GcLine.SetLineAttributes(gc.line, a);
    if res.Err? then Err(res.fault)
    else
      var mask := MaskOf(res.value.1);
      if mask == 0 then Ok(gc)
      else Ok(gc.(line := res.value.0, state := Stale(gc.state, mask)))
  }

  /** `operation.apply()` on the current data, with the dash arrays copied
      where the source leaves them all zero. */
  function Apply(gc: Gc, op: Operation): (r: Result<Gc>)
    ensures op.Nop? ==> r == Ok(gc)
    ensures op.SetFillRuleOp? ==> r == ApplyFillRule(gc, op.rule)
    ensures r.Ok? ==> r.value.advanced == gc.advanced
    ensures r.Ok? && !op.SetAlphaOp? ==>
              r.value.alpha == gc.alpha && r.value.fgPatternAlpha == gc.fgPatternAlpha && r.value.bgPatternAlpha == gc.bgPatternAlpha
    ensures r.Ok? && op.SetAlphaOp? ==> r.value.line == gc.line
  {
    match op
    case SetAlphaOp(alpha) => Ok(ApplyAlpha(gc, alpha))
    case SetFillRuleOp(rule) => ApplyFillRule(gc, rule)
    case SetLineAttributesOp(a) => ApplyLineAttributes(gc, a)
    case SetLineCapOp(cap) =>
      var t :- Touched(gc.state, SetCap(gc.line, cap), LINE_CAP);
      Ok(WithLine(gc, t))
    case SetLineDashOp(dashes) =>
      var t :- Touched(gc.state, SetDash(gc.line, DashesAsReals(dashes)), LINE_STYLE);
      Ok(WithLine(gc, t))
    case SetLineJoinOp(join) =>
      var t :- Touched(gc.state, SetJoin(gc.line, join), LINE_JOIN);
      Ok(WithLine(gc, t))
    case SetLineStyleOp(style) =>
      var t :- Touched(gc.state, SetStyle(gc.line, style), LINE_STYLE);
      Ok(WithLine(gc, t))
    case Nop => Ok(gc)
  }

  /** Every operation keeps the line data well formed. */
  lemma ApplyWellFormed(gc: Gc, op: Operation)
    requires WellFormed(gc.line)
    requires Apply(gc, op).Ok?
    ensures WellFormed(Apply(gc, op).value.line)
  {
    match op
    case SetLineAttributesOp(a) => SetLineAttributesWellFormed(gc.line, a);
    case SetLineCapOp(cap) => SettersWellFormed(gc.line, gc.line.style, cap, gc.line.join, None);
    case SetLineDashOp(dashes) => SettersWellFormed(gc.line, gc.line.style, gc.line.cap, gc.line.join, DashesAsReals(dashes));
    case SetLineJoinOp(join) => SettersWellFormed(gc.line, gc.line.style, gc.line.cap, join, None);
    case SetLineStyleOp(style) => SettersWellFormed(gc.line, style, gc.line.cap, gc.line.join, None);
    case _ =>
  }

  /** Applies a log in order, stopping at the first operation that throws. */
  function Replay(gc: Gc, ops: seq<Operation>): (r: Result<Gc>)
    ensures ops == [] ==> r == Ok(gc)
    ensures |ops| == 1 ==> r == Apply(gc, ops[0])
    ensures r.Ok? ==> r.value.advanced == gc.advanced
    ensures |ops| > 0 && Apply(gc, ops[0]).Err? ==> r == Err(Apply(gc, ops[0]).fault)
    decreases |ops|
  {
    if ops == [] then Ok(gc)
    else match Apply(gc, ops[0])
      case Err(f) => Err(f)
      case Ok(next) => Replay(next, ops[1..])
  }

  /** Replaying a longer log is replaying the shorter one and then the last
      operation. */
  lemma {:induction false} ReplayAppend(gc: Gc, ops: seq<Operation>, op: Operation)
    ensures Replay(gc, ops + [op]) == match Replay(gc, ops) { case Ok(d) => Apply(d, op) case Err(f) => Err(f) }
    decreases |ops|
  {
    if ops == [] {
      assert ops + [op] == [op];
      assert [op][1..] == [];
    } else {
      assert (ops + [op])[0] == ops[0];
      assert (ops + [op])[1..] == ops[1..] + [op];
      match Apply(gc, ops[0])
      case Err(f) =>
      case Ok(next) => ReplayAppend(next, ops[1..], op);
    }
  }

  /** The Windows `GC` wrapper: the current data, whether it is disposed,
      and the operations logged since the last `dispose`. */
  datatype Graphics = Graphics(data: Gc, disposed: bool, operations: seq<Operation>)

  /** `storeAndApplyOperationForExistingHandle(op)`: the operation is logged
      first and then applied, so one that throws stays in the log. */
  function Store(g: Graphics, op: Operation): (r: (Graphics, Option<Fault>))
    ensures r.0.operations == g.operations + [op]
    ensures r.0.disposed == g.disposed
    ensures Apply(g.data, op).Ok? ==> r == (r.0.(data := Apply(g.data, op).value), None)
    ensures Apply(g.data, op).Err? ==> r == (r.0, Some(Apply(g.data, op).fault)) && r.0.data == g.data
  {
    var logged := g.(operations := g.operations + [op]);
    match Apply(g.data, op)
    case Ok(d) => (logged.(data := d), None)
    case Err(f) => (logged, Some(f))
  }

  /** A public setter: `checkNonDisposed()` and then the store. */
  function Set(g: Graphics, op: Operation): (r: (Graphics, Option<Fault>))
    ensures g.disposed ==> r == (g, Some(SwtFault(ERROR_GRAPHIC_DISPOSED)))
    ensures !g.disposed ==> r == Store(g, op)
  {
    if g.disposed then (g, Some(SwtFault(ERROR_GRAPHIC_DISPOSED))) else Store(g, op)
  }

  /** `setLineAttributes(attributes)`: null is refused before the disposed
      check. */
  function SetLineAttributes(g: Graphics, a: Option<LineAttributes>): (r: (Graphics, Option<Fault>))
    ensures a.None? ==> r == (g, Some(SwtFault(ERROR_NULL_ARGUMENT)))
    ensures a.Some? ==> r == Set(g, SetLineAttributesOp(a.value))
  {
    if a.None? then (g, Some(SwtFault(ERROR_NULL_ARGUMENT))) else Set(g, SetLineAttributesOp(a.value))
  }

  /** The log reproduces the data: replaying it onto `initial` gives the
      current data. */
  ghost predicate InSync(g: Graphics, initial: Gc) {
    Replay(initial, g.operations) == Ok(g.data)
  }

  /** A setter that returns normally keeps the log in step with the data;
      one that throws leaves a log whose replay throws too. */
  lemma StoreInSync(g: Graphics, op: Operation, initial: Gc)
    requires InSync(g, initial)
    ensures Store(g, op).1.None? ==> InSync(Store(g, op).0, initial)
    ensures Store(g, op).1.Some? ==> Replay(initial, Store(g, op).0.operations) == Err(Store(g, op).1.value)
  {
    ReplayAppend(initial, g.operations, op);
  }

  /** `createGcHandle(drawable, newData)`: a 0 handle is NO_HANDLES;
      otherwise the new data gets every logged operation, in order. */
  function CreateGcHandle(g: Graphics, handle: int, newData: Gc): (r: Result<Graphics>)
    ensures handle == 0 ==> r == Err(SwtFault(ERROR_NO_HANDLES))
    ensures handle != 0 ==> (r.Ok? <==> Replay(newData, g.operations).Ok?)
    ensures r.Ok? ==> r.value == g.(data := Replay(newData, g.operations).value)
  {
    if handle == 0 then Err(SwtFault(ERROR_NO_HANDLES))
    else match Replay(newData, g.operations)
      case Err(f) => Err(f)
      case Ok(d) => Ok(g.(data := d))
  }

  /** A new handle for data that starts as the original did comes back with
      exactly the current data. */
  lemma CreateGcHandleRestores(g: Graphics, handle: int, initial: Gc)
    requires InSync(g, initial) && handle != 0
    ensures CreateGcHandle(g, handle, initial) == Ok(g)
  {
  }

  /** `dispose()`: the GC is disposed and the log is emptied. */
  function Dispose(g: Graphics): (r: Graphics)
    ensures r.disposed && r.operations == [] && r.data == g.data
  {
    g.(disposed := true, operations := [])
  }

  /** After `dispose` every setter throws GRAPHIC_DISPOSED and logs nothing,
      and a new handle gets its data unchanged. */
  lemma DisposeEmptiesLog(g: Graphics, op: Operation, handle: int, newData: Gc)
    requires handle != 0
    ensures Set(Dispose(g), op) == (Dispose(g), Some(SwtFault(ERROR_GRAPHIC_DISPOSED)))
    ensures CreateGcHandle(Dispose(g), handle, newData) == Ok(Dispose(g).(data := newData))
  {
  }

  // The dash arrays as the source writes them.

  /** `setLineAttributesInPixels` as written: when the dashes changed, the
      new array is allocated but the loop that should copy into it has an
      empty body, so an all-zero array of the right length is stored. */
  function SetLineAttributesAsWritten(line: LineData, a: LineAttributes): (r: Result<(LineData, Dirty)>)
    ensures r.Err? <==> Rejects(line, a)
    ensures r.Ok? && NonEmpty(a.dash) && a.dash != line.dashes ==> r.value.0.dashes == Some(Zeros(|a.dash.value|))
    ensures r.Ok? && !(NonEmpty(a.dash) && a.dash != line.dashes) ==> r == GcLine.SetLineAttributes(line, a)
  {
    match GcLine.SetLineAttributes(line, a)
    case Err(f) => Err(f)
    case Ok((next, dirty)) =>
      if NonEmpty(a.dash) && a.dash != line.dashes then Ok((next.(dashes := Some(Zeros(|a.dash.value|))), dirty))
      else Ok((next, dirty))
  }

  /** Dash lengths 3 and 1 are stored as 0 and 0: the data is no longer well
      formed, and setting the same attributes again finds the style dirty
      once more. The copying version stores 3 and 1 and settles. */
  lemma SetLineAttributesAsWrittenLosesDashes(line: LineData)
    requires WellFormed(line) && line.dashes.None?
    ensures var a := LineAttributes(line.width, line.style, line.cap, line.join, Some([3.0, 1.0]), line.dashesOffset, line.miterLimit);
            var r := SetLineAttributesAsWritten(line, a);
            && r.Ok? && r.value.0.dashes == Some([0.0, 0.0]) && !WellFormed(r.value.0)
            && SetLineAttributesAsWritten(r.value.0, a).value.1.style
            && GcLine.SetLineAttributes(line, a).value.0.dashes == Some([3.0, 1.0])
            && WellFormed(GcLine.SetLineAttributes(line, a).value.0)
            && !GcLine.SetLineAttributes(GcLine.SetLineAttributes(line, a).value.0, a).value.1.style
  {
    var a := LineAttributes(line.width, line.style, line.cap, line.join, Some([3.0, 1.0]), line.dashesOffset, line.miterLimit);
    assert Zeros(2) == [0.0, 0.0];
    assert !AllPositive([0.0, 0.0]) by { assert [0.0, 0.0][0] <= 0.0; }
    assert [0.0, 0.0] != [3.0, 1.0] by { assert [0.0, 0.0][0] != [3.0, 1.0][0]; }
    SetLineAttributesWellFormed(line, a);
    SetLineAttributesSettles(line, a);
  }

  /** `SetLineDashOperation.apply()` as written: the array meant for the
      new dashes is never filled, so the change test compares the stored
      dashes with zeros and the zeros are what is stored. */
  function SetDashAsWritten(line: LineData, dashes: Option<seq<int>>): (r: Result<(LineData, bool)>)
    ensures dashes.Some? && |dashes.value| > 0 ==>
              && (r.Err? <==> !AllPositive(ToReals(dashes.value)))
              && (r.Ok? ==> r.value.0.style == LINE_CUSTOM && r.value.0.dashes == Some(Zeros(|dashes.value|)))
    ensures !(dashes.Some? && |dashes.value| > 0) ==> r == SetDash(line, DashesAsReals(dashes))
  {
    if dashes.Some? && |dashes.value| > 0 then
      var newDashes := Zeros(|dashes.value|);
      if !AllPositive(ToReals(dashes.value)) then Err(SwtFault(ERROR_INVALID_ARGUMENT))
      else
        var changed := line.style != LINE_CUSTOM || line.dashes != Some(newDashes);
        if !changed then Ok((line, false))
        else Ok((line.(dashes := Some(newDashes), style := LINE_CUSTOM), true))
    else SetDash(line, DashesAsReals(dashes))
  }

  /** `setLineDash([3, 1])` on a solid line stores the dashes 0 and 0, which
      no well-formed data holds; the copying version stores 3 and 1. A
      second, different array of the same length is then not even seen as a
      change. */
  lemma SetDashAsWrittenLosesDashes(line: LineData)
    requires WellFormed(line) && line.style == LINE_SOLID
    ensures var r := SetDashAsWritten(line, Some([3, 1]));
            && r == Ok((line.(style := LINE_CUSTOM, dashes := Some([0.0, 0.0])), true))
            && !WellFormed(r.value.0)
            && SetDashAsWritten(r.value.0, Some([5, 2])) == Ok((r.value.0, false))
    ensures SetDash(line, DashesAsReals(Some([3, 1]))) == Ok((line.(style := LINE_CUSTOM, dashes := Some([3.0, 1.0])), true))
  {
    assert Zeros(2) == [0.0, 0.0];
    assert !AllPositive([0.0, 0.0]) by { assert [0.0, 0.0][0] <= 0.0; }
    assert ToReals([3, 1]) == [3.0, 1.0];
    assert ToReals([5, 2]) == [5.0, 2.0];
  }
}

=== FILE: geometry.dfy ===
/** Rectangles and points in pixels, with the overlap arithmetic that
    `Rectangle.intersection` provides. */
module Geometry {

  datatype Point = Point(x: int, y: int)

  datatype Rect = Rect(x: int, y: int, width: int, height: int)

  function Min(a: int, b: int): (r: int)
    ensures r <= a && r <= b && (r == a || r == b)
  {
    if a <= b then a else b
  }

  function Max(a: int, b: int): (r: int)
    ensures r >= a && r >= b && (r == a || r == b)
  {
    if a >= b then a else b
  }

  /** `Rectangle.intersection`: per axis, the overlap, or position and
      extent 0 when the two do not overlap on that axis. */
  function Intersection(a: Rect, b: Rect): (r: Rect)
    ensures r.width >= 0 && r.height >= 0
    ensures r.width > 0 <==> Max(a.x, b.x) < Min(a.x + a.width, b.x + b.width)
    ensures r.height > 0 <==> Max(a.y, b.y) < Min(a.y + a.height, b.y + b.height)
    ensures r.width > 0 ==> r.x == Max(a.x, b.x) && r.x + r.width == Min(a.x + a.width, b.x + b.width)
    ensures r.height > 0 ==> r.y == Max(a.y, b.y) && r.y + r.height == Min(a.y + a.height, b.y + b.height)
  {
    var left := Max(a.x, b.x);
    var top := Max(a.y, b.y);
    var right := Min(a.x + a.width, b.x + b.width);
    var bottom := Min(a.y + a.height, b.y + b.height);
    Rect(if left < right then left else 0, if top < bottom then top else 0,
         if left < right then right - left else 0, if top < bottom then bottom - top else 0)
  }

  function Area(r: Rect): int {
    r.width * r.height
  }
}

=== FILE: gtkcontrol.dfy ===
/** Geometry and style bookkeeping of the GTK `Control` (`SwtControl`):
    hint clamping, the bounds setter with its MOVED/RESIZED result and
    zero-extent state, orientation, the redraw counter and the Shell sort
    used to order child indices. The GTK allocation of the top handle is the
    only native state kept; all GTK/GDK calls are left out. */
module GtkControl {

  import opened Swt
  import opened Geometry

  /** GTK crashes above this extent (32767), so widths and heights are capped. */
  const MAX_EXTENT: int := (2 * 0x4000) - 1

  /** `computeSize(wHint, hHint, changed)`: a negative hint other than
      `SWT.DEFAULT` counts as 0. */
  function ClampHint(hint: int): (r: int)
    ensures r == DEFAULT || r >= 0
    ensures hint >= 0 || hint == DEFAULT ==> r == hint
    ensures hint < 0 && hint != DEFAULT ==> r == 0
  {
    if hint != DEFAULT && hint < 0 then 0 else hint
  }

  /** What the bounds setter sees of the widget: its last allocation and the
      ZERO_WIDTH / ZERO_HEIGHT / HIDDEN state bits. A zero extent is never
      allocated (GTK needs 1x1), so the state bits stand for it. */
  datatype Widget = Widget(allocation: Rect, zeroWidth: bool, zeroHeight: bool, hidden: bool)

  /** Visibility of the top handle after the call. */
  datatype Show = Untouched | Shown | Hidden

  /** The widget afterwards, the MOVED / RESIZED result bits, and the
      Move / Resize events sent. */
  datatype Outcome = Outcome(widget: Widget, moved: bool, resized: bool,
                             moveEvent: bool, resizeEvent: bool, topHandle: Show)

  /** The extent the widget currently has, in SWT's terms. */
  function OldWidth(w: Widget): int { if w.zeroWidth then 0 else w.allocation.width }
  function OldHeight(w: Widget): int { if w.zeroHeight then 0 else w.allocation.height }

  /** The internal `setBounds(x, y, width, height, move, resize)`. Under a
      mirrored parent (whose client width is `clientWidth`) the x coordinate
      is measured from the right edge, and even a pure resize moves the
      widget so that its right edge stays put. */
  function SetBounds(w: Widget, parentMirrored: bool, clientWidth: int,
                     x: int, y: int, width: int, height: int, move: bool, resize: bool): (o: Outcome)
    // extents are capped
    ensures o.resized ==> o.widget.allocation.width == Min(width, MAX_EXTENT)
                          && o.widget.allocation.height == Min(height, MAX_EXTENT)
    // result bits outside a mirrored parent
    ensures !parentMirrored ==>
              (o.moved <==> move && (x != w.allocation.x || y != w.allocation.y))
    ensures o.resized <==>
              resize && (Min(width, MAX_EXTENT) != OldWidth(w) || Min(height, MAX_EXTENT) != OldHeight(w))
    ensures !parentMirrored && o.moved ==> o.widget.allocation.x == x && o.widget.allocation.y == y
    ensures !o.moved ==> o.widget.allocation.x == w.allocation.x && o.widget.allocation.y == w.allocation.y
    ensures !o.resized ==> OldWidth(o.widget) == OldWidth(w) && OldHeight(o.widget) == OldHeight(w)
    // the zero-extent bits follow a change of extent
    ensures o.resized ==> o.widget.zeroWidth == (Min(width, MAX_EXTENT) == 0)
                          && o.widget.zeroHeight == (Min(height, MAX_EXTENT) == 0)
    ensures !o.resized ==> o.widget.zeroWidth == w.zeroWidth && o.widget.zeroHeight == w.zeroHeight
    ensures o.widget.hidden == w.hidden
    // events
    ensures o.resizeEvent == o.resized
    ensures !parentMirrored ==> o.moveEvent == o.moved
    ensures parentMirrored && !move ==> !o.moveEvent
    // a zero-sized widget is hidden, a re-grown one shown unless HIDDEN
    ensures o.resized && (o.widget.zeroWidth || o.widget.zeroHeight) ==> o.topHandle == Hidden
    ensures o.resized && !o.widget.zeroWidth && !o.widget.zeroHeight ==>
              o.topHandle == if w.hidden then Untouched else Shown
    ensures !o.resized ==> o.topHandle == Untouched
  {
    var width := Min(width, MAX_EXTENT);
    var height := Min(height, MAX_EXTENT);
    var a := w.allocation;
    var oldWidth := OldWidth(w);
    var oldHeight := OldHeight(w);
    var oldMirroredX := clientWidth - oldWidth - a.x;
    var newX :=
      if !parentMirrored then x
      else if move then clientWidth - (if resize then width else oldWidth) - x
      else clientWidth - (if resize then width else oldWidth) - oldMirroredX;
    var newY := if parentMirrored && !move then a.y else y;
    var sendMove := move && (!parentMirrored || x != oldMirroredX);
    var moving := move || parentMirrored;
    var sameOrigin := !moving || (newX == a.x && newY == a.y);
    var sameExtent := !resize || (width == oldWidth && height == oldHeight);
    var allocation :=
      if sameOrigin && sameExtent then a
      else Rect(if moving then newX else a.x, if moving then newY else a.y,
                if resize then width else a.width, if resize then height else a.height);
    var zeroWidth := if sameExtent then w.zeroWidth else width == 0;
    var zeroHeight := if sameExtent then w.zeroHeight else height == 0;
    var topHandle :=
      if sameExtent then Untouched
      else if zeroWidth || zeroHeight then Hidden
      else if w.hidden then Untouched
      else Shown;
    Outcome(w.(allocation := allocation, zeroWidth := zeroWidth, zeroHeight := zeroHeight),
            moving && !sameOrigin, resize && !sameExtent,
            moving && !sameOrigin && sendMove, resize && !sameExtent, topHandle)
  }

  /** Public `setBounds(x, y, width, height)`: negative extents become 0. */
  function SetBoundsPublic(w: Widget, parentMirrored: bool, clientWidth: int,
                           x: int, y: int, width: int, height: int): (o: Outcome)
    ensures o.widget.allocation.width >= 0 || !o.resized
    ensures o.resized ==> 0 <= o.widget.allocation.width <= MAX_EXTENT
                          && 0 <= o.widget.allocation.height <= MAX_EXTENT
    ensures o.resized ==> o.widget.allocation.width == Min(Max(0, width), MAX_EXTENT)
                          && o.widget.allocation.height == Min(Max(0, height), MAX_EXTENT)
    ensures o.resized && width < 0 ==> o.widget.zeroWidth
  {
    SetBounds(w, parentMirrored, clientWidth, x, y, Max(0, width), Max(0, height), true, true)
  }

  /** Public `setLocation(x, y)`: a move without resize. */
  function SetLocation(w: Widget, parentMirrored: bool, clientWidth: int, x: int, y: int): (o: Outcome)
    ensures !o.resized && !o.resizeEvent
    ensures OldWidth(o.widget) == OldWidth(w) && OldHeight(o.widget) == OldHeight(w)
    ensures !parentMirrored ==> o.widget.allocation.x == x && o.widget.allocation.y == y
  {
    SetBounds(w, parentMirrored, clientWidth, x, y, 0, 0, true, false)
  }

  /** Public `setSize(width, height)`: a resize without move. */
  function SetSize(w: Widget, parentMirrored: bool, clientWidth: int, width: int, height: int): (o: Outcome)
    ensures !parentMirrored ==> !o.moved && !o.moveEvent
    ensures !parentMirrored ==> o.widget.allocation.x == w.allocation.x
                                && o.widget.allocation.y == w.allocation.y
    ensures o.resized ==> o.widget.allocation.width == Min(Max(0, width), MAX_EXTENT)
  {
    SetBounds(w, parentMirrored, clientWidth, 0, 0, Max(0, width), Max(0, height), false, true)
  }

  /** Under a mirrored parent, resizing keeps the right edge where it was. */
  lemma MirroredSetSizeKeepsRightEdge(w: Widget, clientWidth: int, width: int, height: int)
    requires SetSize(w, true, clientWidth, width, height).resized
    ensures var a := SetSize(w, true, clientWidth, width, height).widget.allocation;
            a.x + Min(Max(0, width), MAX_EXTENT) == w.allocation.x + OldWidth(w)
            && a.y == w.allocation.y
  {
  }

  /** Under a mirrored parent, `x` is the distance of the right edge from
      the parent's right side. */
  lemma MirroredSetBoundsFromRight(w: Widget, clientWidth: int, x: int, y: int, width: int, height: int)
    requires SetBounds(w, true, clientWidth, x, y, width, height, true, true).moved
    ensures var a := SetBounds(w, true, clientWidth, x, y, width, height, true, true).widget.allocation;
            clientWidth - (a.x + Min(width, MAX_EXTENT)) == x && a.y == y
  {
  }

  /** Setting the same bounds twice: the second call neither moves nor
      resizes, with or without a mirrored parent. */
  lemma SetBoundsIdempotent(w: Widget, parentMirrored: bool, clientWidth: int,
                            x: int, y: int, width: int, height: int)
    requires width >= 0 && height >= 0
    ensures var o1 := SetBounds(w, parentMirrored, clientWidth, x, y, width, height, true, true);
            var o2 := SetBounds(o1.widget, parentMirrored, clientWidth, x, y, width, height, true, true);
            !o2.moved && !o2.resized && !o2.moveEvent && o2.widget == o1.widget
  {
  }

  /** `checkMirrored()`: a right-to-left control is drawn mirrored. */
  function CheckMirrored(style: bv32): (r: bv32)
    ensures r & !MIRRORED == style & !MIRRORED
  {
    if style & RIGHT_TO_LEFT != 0 then
      SetBit(style, MIRRORED);
      style | MIRRORED
    else style
  }

  /** After `checkMirrored` MIRRORED is set exactly when it was already set
      or the control is right-to-left. */
  lemma CheckMirroredSets(style: bv32)
    ensures CheckMirrored(style) & MIRRORED != 0 <==> style & MIRRORED != 0 || style & RIGHT_TO_LEFT != 0
  {
    if style & RIGHT_TO_LEFT != 0 {
      SetBit(style, MIRRORED);
    }
  }

  lemma SetBit(s: bv32, m: bv32)
    ensures (s | m) & m == m && (s | m) & !m == s & !m
  {
  }

  /** `setOrientation(orientation)`: ignored unless exactly one of
      LEFT_TO_RIGHT and RIGHT_TO_LEFT is given; then the direction bits are
      replaced and MIRRORED recomputed from them. */
  function SetOrientation(style: bv32, orientation: bv32): (r: bv32)
    ensures var flags := LEFT_TO_RIGHT | RIGHT_TO_LEFT;
            orientation & flags == 0 || orientation & flags == flags ==> r == style
    ensures var flags := LEFT_TO_RIGHT | RIGHT_TO_LEFT;
            orientation & flags != 0 && orientation & flags != flags ==>
              && r & flags == orientation & flags
              && (r & MIRRORED != 0 <==> orientation & RIGHT_TO_LEFT != 0)
              && r & !(flags | MIRRORED) == style & !(flags | MIRRORED)
  {
    var flags := RIGHT_TO_LEFT | LEFT_TO_RIGHT;
    if orientation & flags == 0 || orientation & flags == flags then style
    else CheckMirrored(((style & !flags) | (orientation & flags)) & !MIRRORED)
  }

  /** Setting an orientation twice is the same as setting it once. */
  lemma SetOrientationIdempotent(style: bv32, orientation: bv32)
    ensures SetOrientation(SetOrientation(style, orientation), orientation) == SetOrientation(style, orientation)
  {
  }

  /** `setRedraw(redraw)`: a nesting counter; the off-screen redraw window
      is created when the count leaves 0 and destroyed when it returns to 0. */
  datatype Redraw = Redraw(drawCount: int, freeze: bool, thaw: bool)

  function SetRedraw(drawCount: int, redraw: bool): (r: Redraw)
    ensures r.drawCount == if redraw then drawCount - 1 else drawCount + 1
    ensures r.freeze <==> !redraw && drawCount == 0
    ensures r.thaw <==> redraw && drawCount == 1
  {
    if redraw then Redraw(drawCount - 1, false, drawCount - 1 == 0)
    else Redraw(drawCount + 1, drawCount == 0, false)
  }

  /** Every `setRedraw(false)` is undone by one `setRedraw(true)`, and the
      outermost pair is the one that freezes and thaws. */
  lemma SetRedrawBalanced(drawCount: int)
    ensures SetRedraw(SetRedraw(drawCount, false).drawCount, true).drawCount == drawCount
    ensures SetRedraw(drawCount, false).freeze <==> SetRedraw(SetRedraw(drawCount, false).drawCount, true).thaw
  {
  }

  // The Shell sort of `sort(int[])`.

  /** Non-increasing order. */
  ghost predicate SortedDown(s: seq<int>, from: int, to: int)
    requires 0 <= from <= to <= |s|
  {
    forall p, q :: from <= p < q < to ==> s[p] >= s[q]
  }

  function Swap(s: seq<int>, i: int, j: int): (r: seq<int>)
    requires 0 <= i < |s| && 0 <= j < |s|
    ensures multiset(r) == multiset(s) && |r| == |s|
    ensures r[i] == s[j] && r[j] == s[i]
    ensures forall k :: 0 <= k < |s| && k != i && k != j ==> r[k] == s[k]
  {
    s[i := s[j]][j := s[i]]
  }

  /** `sort(items)`: Shell sort with gaps n/2, n/4, ..., 1. Because it swaps
      whenever `items[j] <= items[j + gap]`, the result is in non-increasing
      order. */
  method Sort(items: seq<int>) returns (sorted: seq<int>)
    ensures multiset(sorted) == multiset(items)
    ensures |sorted| == |items| && SortedDown(sorted, 0, |sorted|)
  {
    sorted := items;
    var length := |items|;
    var gap := length / 2;
    while gap > 0
      invariant multiset(sorted) == multiset(items) && |sorted| == length
      invariant gap >= 0
      invariant gap == 0 ==> SortedDown(sorted, 0, length)
    {
      sorted := GapPass(sorted, gap);
      gap := gap / 2;
    }
  }

  /** One pass of the two inner loops for a fixed `gap`; with gap 1 it is an
      insertion sort that completes the ordering. */
  method GapPass(items: seq<int>, gap: int) returns (s: seq<int>)
    requires gap > 0
    ensures multiset(s) == multiset(items) && |s| == |items|
    ensures gap == 1 ==> SortedDown(s, 0, |s|)
  {
    s := items;
    var length := |items|;
    var i := gap;
    while i < length
      invariant multiset(s) == multiset(items) && |s| == length
      invariant gap == 1 ==> i >= 1 && (i <= length ==> SortedDown(s, 0, i))
      invariant gap == 1 && i > length ==> SortedDown(s, 0, length)
    {
      var j := i - gap;
      while j >= 0
        invariant -gap <= j < i && j + gap <= i
        invariant multiset(s) == multiset(items) && |s| == length
        invariant gap == 1 ==> InsertInv(s, j, i)
      {
        if s[j] <= s[j + gap] {
          if gap == 1 {
            InsertSwap(s, j, i);
          }
          s := Swap(s, j, j + gap);
        } else if gap == 1 {
          InsertKeep(s, j, i);
        }
        j := j - gap;
      }
      i := i + 1;
    }
  }

  /** The inner loop of the gap-1 pass inserting `s[i]`: below `j + 1` the old
      sorted prefix, from `j + 1` to `i` a sorted run, nothing below
      smaller than anything in the run past its head. */
  ghost predicate InsertInv(s: seq<int>, j: int, i: int)
  {
    && -1 <= j < i < |s|
    && SortedDown(s, 0, j + 1)
    && SortedDown(s, j + 1, i + 1)
    && (forall p, q :: 0 <= p <= j && j + 2 <= q <= i ==> s[p] >= s[q])
  }

  /** A swap moves the inserted element one step down and keeps the
      invariant. */
  lemma InsertSwap(s: seq<int>, j: int, i: int)
    requires InsertInv(s, j, i) && j >= 0 && s[j] <= s[j + 1]
    ensures InsertInv(Swap(s, j, j + 1), j - 1, i)
  {
    var t := Swap(s, j, j + 1);
    forall p, q | 0 <= p < q < j ensures t[p] >= t[q] {
      assert s[p] >= s[q];
    }
    forall p, q | j <= p < q < i + 1 ensures t[p] >= t[q] {
      if p == j && q == j + 1 {
      } else if p == j {
        assert s[j + 1] >= s[q];
      } else if p == j + 1 {
        assert s[j] >= s[q];
      } else {
        assert s[p] >= s[q];
      }
    }
    forall p, q | 0 <= p <= j - 1 && j + 1 <= q <= i ensures t[p] >= t[q] {
      assert s[p] >= s[j];
      if q == j + 1 {
      } else {
        assert s[j] >= s[q];
      }
    }
  }

  /** Without a swap the inserted element has found its place: the invariant
      holds one step down. */
  lemma InsertKeep(s: seq<int>, j: int, i: int)
    requires InsertInv(s, j, i) && j >= 0 && s[j] > s[j + 1]
    ensures InsertInv(s, j - 1, i)
  {
    forall p, q | j <= p < q < i + 1 ensures s[p] >= s[q] {
      if p == j && q > j + 1 {
        assert s[j + 1] >= s[q];
      }
    }
    forall p, q | 0 <= p <= j - 1 && j + 1 <= q <= i ensures s[p] >= s[q] {
      assert s[p] >= s[j];
    }
  }
}

=== FILE: mnemonic.dfy ===
/** `&`-mnemonics in widget texts.

    In a label such as "&File" the character after an `&` is the mnemonic;
    "&&" stands for a literal `&`. Three loops of the toolkit work on this
    convention: `findMnemonic` / `_findMnemonic` return the mnemonic
    character, `stripMnemonic` removes its `&`, and the graphics context's
    `fixMnemonic` rewrites a whole buffer for display. Each loop is modelled
    as the method it is, and proved equal to one recursive reading of the
    convention. */
module Mnemonic {

  import opened Wrappers

  const NUL: char := 0 as char

  function Shift(r: Option<nat>, d: nat): Option<nat> {
    if r.Some? then Some(r.value + d) else None
  }

  /** Position of the mnemonic character: the first character after an `&`
      that is not itself part of an "&&" escape. */
  function MnemonicAt(s: string): (r: Option<nat>)
    ensures r.Some? ==> 1 <= r.value < |s| && s[r.value - 1] == '&' && s[r.value] != '&'
    decreases |s|
  {
    if |s| == 0 then None
    else if s[0] != '&' then Shift(MnemonicAt(s[1..]), 1)
    else if |s| == 1 then None
    else if s[1] != '&' then Some(1)
    else Shift(MnemonicAt(s[2..]), 2)
  }

  /** A text without `&` has no mnemonic. */
  lemma {:induction false} NoAmpersandNoMnemonic(s: string)
    requires '&' !in s
    ensures MnemonicAt(s) == None
    decreases |s|
  {
    if |s| > 0 {
      assert s[0] != '&';
      assert '&' !in s[1..] by {
        forall k | 0 <= k < |s[1..]| ensures s[1..][k] != '&' { assert s[1..][k] == s[k + 1]; }
      }
      NoAmpersandNoMnemonic(s[1..]);
    }
  }

  /** Everything before the mnemonic's `&` pairs up into "&&" escapes and
      plain characters, so a lone `&` at position 0 is always the one. */
  lemma LeadingMnemonic(s: string)
    requires |s| >= 2 && s[0] == '&' && s[1] != '&'
    ensures MnemonicAt(s) == Some(1)
  {
  }

  lemma MnemonicAtPlain(s: string, i: nat)
    requires i < |s| && s[i] != '&'
    ensures MnemonicAt(s[i..]) == Shift(MnemonicAt(s[i + 1..]), 1)
  {
    assert s[i..][1..] == s[i + 1..];
  }

  lemma MnemonicAtEscape(s: string, i: nat)
    requires i + 1 < |s| && s[i] == '&' && s[i + 1] == '&'
    ensures MnemonicAt(s[i..]) == Shift(MnemonicAt(s[i + 2..]), 2)
  {
    assert s[i..][2..] == s[i + 2..];
  }

  /** The scan steps over a plain character. */
  lemma ScanPlain(s: string, i: nat)
    requires i < |s| && s[i] != '&'
    requires MnemonicAt(s) == Shift(MnemonicAt(s[i..]), i)
    ensures MnemonicAt(s) == Shift(MnemonicAt(s[i + 1..]), i + 1)
  {
    MnemonicAtPlain(s, i);
    ShiftTwice(MnemonicAt(s[i + 1..]), 1, i);
  }

  /** The scan steps over an "&&" escape. */
  lemma ScanEscape(s: string, i: nat)
    requires i + 1 < |s| && s[i] == '&' && s[i + 1] == '&'
    requires MnemonicAt(s) == Shift(MnemonicAt(s[i..]), i)
    ensures MnemonicAt(s) == Shift(MnemonicAt(s[i + 2..]), i + 2)
  {
    MnemonicAtEscape(s, i);
    ShiftTwice(MnemonicAt(s[i + 2..]), 2, i);
  }

  lemma ShiftTwice(r: Option<nat>, d: nat, e: nat)
    ensures Shift(Shift(r, d), e) == Shift(r, d + e)
  {
  }

  /** The inner loop of the scan: it stops at the next `&` or at the end,
      and the mnemonic is still the one of the rest of the text. */
  method SkipPlain(s: string, start: nat) returns (index: nat)
    requires start <= |s|
    requires MnemonicAt(s) == Shift(MnemonicAt(s[start..]), start)
    ensures start <= index <= |s|
    ensures index < |s| ==> s[index] == '&'
    ensures forall k :: start <= k < index ==> s[k] != '&'
    ensures MnemonicAt(s) == Shift(MnemonicAt(s[index..]), index)
  {
    index := start;
    while index < |s| && s[index] != '&'
      invariant start <= index <= |s|
      invariant forall k :: start <= k < index ==> s[k] != '&'
      invariant MnemonicAt(s) == Shift(MnemonicAt(s[index..]), index)
      decreases |s| - index
    {
      ScanPlain(s, index);
      index := index + 1;
    }
  }

  /** The do-while loop shared by `findMnemonic`, `_findMnemonic` and
      `stripMnemonic`: it stops at the mnemonic character or at the end. */
  method ScanMnemonic(s: string) returns (r: Option<nat>)
    ensures r == MnemonicAt(s)
  {
    var index := 0;
    var length := |s|;
    assert s[0..] == s;
    while true
      invariant 0 <= index <= length
      invariant MnemonicAt(s) == Shift(MnemonicAt(s[index..]), index)
      decreases length - index
    {
      index := SkipPlain(s, index);
      if index + 1 >= length {
        // a lone `&` at the end, or no `&` at all
        ScanEnd(s, index);
        return None;
      }
      if s[index + 1] != '&' {
        ScanLone(s, index);
        return Some(index + 1);
      }
      ScanEscape(s, index);
      index := index + 2;
      if index >= length {
        ScanEnd(s, index);
        return None;
      }
    }
  }

  /** The scan ran out of text: there is no mnemonic. */
  lemma ScanEnd(s: string, i: nat)
    requires i <= |s| && i + 1 >= |s|
    requires MnemonicAt(s) == Shift(MnemonicAt(s[i..]), i)
    ensures MnemonicAt(s) == None
  {
    if i < |s| {
      assert s[i..][1..] == [];
    }
  }

  /** The scan found an `&` not followed by another: the next character is
      the mnemonic. */
  lemma ScanLone(s: string, i: nat)
    requires i + 1 < |s| && s[i] == '&' && s[i + 1] != '&'
    requires MnemonicAt(s) == Shift(MnemonicAt(s[i..]), i)
    ensures MnemonicAt(s) == Some(i + 1)
  {
    assert s[i..][0] == '&' && s[i..][1] != '&';
  }

  /** `findMnemonic` of the Windows control: the mnemonic character with its
      case preserved, or NUL. It dereferences the string without a null check. */
  function FindMnemonic(s: Option<string>): (r: Result<char>)
    ensures s.None? ==> r == Err(NullPointer)
    ensures s.Some? && MnemonicAt(s.value).Some? ==> r == Ok(s.value[MnemonicAt(s.value).value])
    ensures s.Some? && MnemonicAt(s.value).None? ==> r == Ok(NUL)
  {
    if s.None? then Err(NullPointer)
    else match MnemonicAt(s.value)
      case Some(p) => Ok(s.value[p])
      case None => Ok(NUL)
  }

  /** `Character.toLowerCase`, on the ASCII letters. */
  function ToLower(c: char): (r: char)
    ensures 'A' <= c <= 'Z' ==> 'a' <= r <= 'z' && r as int - c as int == 32
    ensures !('A' <= c <= 'Z') ==> r == c
  {
    if 'A' <= c <= 'Z' then (c as int + 32) as char else c
  }

  /** `_findMnemonic` of the tab folder: like `FindMnemonic` but lower-cased,
      and NUL for a null string. */
  function FindMnemonicLower(s: Option<string>): (r: char)
    ensures s.None? ==> r == NUL
    ensures s.Some? && MnemonicAt(s.value).Some? ==> r == ToLower(s.value[MnemonicAt(s.value).value])
    ensures s.Some? && MnemonicAt(s.value).None? ==> r == NUL
  {
    if s.None? then NUL
    else match MnemonicAt(s.value)
      case Some(p) => ToLower(s.value[p])
      case None => NUL
  }

  /** `stripMnemonic`: deletes the `&` in front of the mnemonic character and
      nothing else; texts without a mnemonic come back unchanged. Unlike
      `_findMnemonic` it has no null guard, so null fails on `length()`. */
  function StripMnemonic(s: Option<string>): (r: Result<string>)
    ensures s.None? <==> r == Err(NullPointer)
    ensures s.Some? && MnemonicAt(s.value).None? ==> r == Ok(s.value)
    ensures s.Some? && MnemonicAt(s.value).Some? ==>
              var p := MnemonicAt(s.value).value;
              && r.Ok? && |r.value| == |s.value| - 1
              && r.value[..p - 1] == s.value[..p - 1] && r.value[p - 1..] == s.value[p..]
  {
    if s.None? then Err(NullPointer)
    else match MnemonicAt(s.value)
      case None => Ok(s.value)
      case Some(p) => Ok(s.value[..p - 1] + s.value[p..])
  }

  // The buffer rewrite of the graphics context.

  /** The displayed text: every "&&" becomes `&`, the `&` of every "&x" is
      dropped, and a trailing lone `&` stays. */
  function FixText(s: string): (r: string)
    ensures |r| <= |s|
    decreases |s|
  {
    if |s| == 0 then []
    else if s[0] != '&' then [s[0]] + FixText(s[1..])
    else if |s| == 1 then ['&']
    else if s[1] == '&' then ['&'] + FixText(s[2..])
    else FixText(s[1..])
  }

  /** Position, in `FixText(s)`, of the first character that followed a dropped `&`. */
  function FixMnemonicAt(s: string): (r: Option<nat>)
    decreases |s|
  {
    if |s| == 0 then None
    else if s[0] != '&' then Shift(FixMnemonicAt(s[1..]), 1)
    else if |s| == 1 then None
    else if s[1] == '&' then Shift(FixMnemonicAt(s[2..]), 1)
    else Some(0)
  }

  /** The rewrite drops at least the `&` of the mnemonic, and the mnemonic
      character of the original text is the one found in the rewritten text;
      without a mnemonic there is none in the rewrite either. */
  lemma {:induction false} FixMnemonicMatchesScan(s: string)
    ensures FixMnemonicAt(s).None? <==> MnemonicAt(s).None?
    ensures FixMnemonicAt(s).Some? ==>
              FixMnemonicAt(s).value < |FixText(s)| < |s|
              && FixText(s)[FixMnemonicAt(s).value] == s[MnemonicAt(s).value]
    decreases |s|
  {
    if |s| == 0 {
    } else if s[0] != '&' {
      FixMnemonicMatchesScan(s[1..]);
      if MnemonicAt(s[1..]).Some? {
        assert s[1..][MnemonicAt(s[1..]).value] == s[MnemonicAt(s).value];
      }
    } else if |s| == 1 {
    } else if s[1] == '&' {
      FixMnemonicMatchesScan(s[2..]);
      if MnemonicAt(s[2..]).Some? {
        assert s[2..][MnemonicAt(s[2..]).value] == s[MnemonicAt(s).value];
      }
    } else {
      FixTextHead(s[1..]);
    }
  }

  lemma FixTextHead(s: string)
    requires |s| > 0 && s[0] != '&'
    ensures |FixText(s)| > 0 && FixText(s)[0] == s[0]
  {
  }

  /** A text without `&` is displayed as it is. */
  lemma {:induction false} FixTextPlain(s: string)
    requires '&' !in s
    ensures FixText(s) == s
    decreases |s|
  {
    if |s| > 0 {
      assert s[0] != '&';
      assert '&' !in s[1..] by {
        forall k | 0 <= k < |s[1..]| ensures s[1..][k] != '&' { assert s[1..][k] == s[k + 1]; }
      }
      FixTextPlain(s[1..]);
      assert s == [s[0]] + s[1..];
    }
  }

  lemma FixTextStep(s: string, i: nat)
    requires i < |s|
    ensures s[i] != '&' ==> FixText(s[i..]) == [s[i]] + FixText(s[i + 1..])
    ensures s[i] == '&' && i + 1 == |s| ==> FixText(s[i..]) == ['&']
    ensures s[i] == '&' && i + 1 < |s| && s[i + 1] == '&' ==> FixText(s[i..]) == ['&'] + FixText(s[i + 2..])
    ensures s[i] == '&' && i + 1 < |s| && s[i + 1] != '&' ==> FixText(s[i..]) == FixText(s[i + 1..])
    ensures s[i] != '&' ==> FixMnemonicAt(s[i..]) == Shift(FixMnemonicAt(s[i + 1..]), 1)
    ensures s[i] == '&' && i + 1 < |s| && s[i + 1] == '&' ==> FixMnemonicAt(s[i..]) == Shift(FixMnemonicAt(s[i + 2..]), 1)
    ensures s[i] == '&' && i + 1 < |s| && s[i + 1] != '&' ==> FixMnemonicAt(s[i..]) == Some(0)
  {
    assert s[i..][1..] == s[i + 1..];
    if i + 1 < |s| { assert s[i..][2..] == s[i + 2..]; }
  }

  /** `fixMnemonic(buffer)`: rewrites the buffer in place to `FixText`,
      zero-fills the rest, and returns one past the output position of the
      first mnemonic character, or -1 when the text has no mnemonic. */
  method FixMnemonic(buffer: string) returns (out: string, mnemonic: int)
    ensures |out| == |buffer|
    ensures out[..|FixText(buffer)|] == FixText(buffer)
    ensures forall k :: |FixText(buffer)| <= k < |out| ==> out[k] == NUL
    ensures mnemonic == -1 <==> MnemonicAt(buffer).None?
    ensures mnemonic != -1 ==> FixMnemonicAt(buffer).Some? && mnemonic == FixMnemonicAt(buffer).value + 1
  {
    var buf, j;
    buf, j, mnemonic := CompactInPlace(buffer);
    FixMnemonicMatchesScan(buffer);
    out := ZeroFill(buf, j);
  }

  /** What the first loop of `fixMnemonic` keeps: the part written so far
      followed by the rewrite of the unread part is the rewrite of the whole. */
  ghost predicate CompactInv(s: string, buf: string, i: int, j: int, mnemonic: int) {
    && |buf| == |s|
    && 0 <= j <= i <= |s|
    && buf[i..] == s[i..]
    && buf[..j] + FixText(s[i..]) == FixText(s)
    && (mnemonic == -1 ==> FixMnemonicAt(s) == Shift(FixMnemonicAt(s[i..]), j))
    && (mnemonic != -1 ==> FixMnemonicAt(s).Some? && mnemonic == FixMnemonicAt(s).value + 1)
  }

  /** A copied character: a plain one or a lone trailing `&`. */
  lemma CompactCopy(s: string, buf: string, i: int, j: int, mnemonic: int)
    requires CompactInv(s, buf, i, j, mnemonic) && i < |s|
    requires s[i] != '&' || i + 1 == |s|
    ensures CompactInv(s, buf[j := s[i]], i + 1, j + 1, mnemonic)
  {
    FixTextStep(s, i);
    var after := buf[j := s[i]];
    assert after[..j + 1] == buf[..j] + [s[i]];
    if s[i] == '&' { assert s[i + 1..] == []; }
    assert after[..j + 1] + FixText(s[i + 1..]) == buf[..j] + FixText(s[i..]);
  }

  /** "&&": one `&` is copied and the second is skipped. */
  lemma CompactEscape(s: string, buf: string, i: int, j: int, mnemonic: int)
    requires CompactInv(s, buf, i, j, mnemonic) && i + 1 < |s|
    requires s[i] == '&' && s[i + 1] == '&'
    ensures CompactInv(s, buf[j := s[i]], i + 2, j + 1, mnemonic)
  {
    FixTextStep(s, i);
    var after := buf[j := s[i]];
    assert after[..j + 1] == buf[..j] + [s[i]];
    assert after[..j + 1] + FixText(s[i + 2..]) == buf[..j] + FixText(s[i..]);
  }

  /** "&x": the `&` is written and then overwritten, and the first such
      position is remembered as one past the write position. */
  lemma CompactDrop(s: string, buf: string, i: int, j: int, mnemonic: int)
    requires CompactInv(s, buf, i, j, mnemonic) && i + 1 < |s|
    requires s[i] == '&' && s[i + 1] != '&'
    ensures CompactInv(s, buf[j := s[i]], i + 1, j, if mnemonic == -1 then j + 1 else mnemonic)
  {
    FixTextStep(s, i);
    var after := buf[j := s[i]];
    assert after[..j] == buf[..j];
  }

  /** The first loop of `fixMnemonic`: `i` reads, `j` writes, `j <= i`. */
  method CompactInPlace(s: string) returns (buf: string, j: int, mnemonic: int)
    ensures |buf| == |s| && j == |FixText(s)| && buf[..j] == FixText(s)
    ensures mnemonic == -1 <==> FixMnemonicAt(s).None?
    ensures mnemonic != -1 ==> FixMnemonicAt(s).Some? && mnemonic == FixMnemonicAt(s).value + 1
  {
    buf := s;
    var i := 0;
    j := 0;
    mnemonic := -1;
    while i < |buf|
      invariant CompactInv(s, buf, i, j, mnemonic)
      decreases |s| - i
    {
      var c := buf[i];
      assert c == s[i];
      if c != '&' || i + 1 == |buf| {
        CompactCopy(s, buf, i, j, mnemonic);
        buf, j, i := buf[j := c], j + 1, i + 1;
      } else if buf[i + 1] == '&' {
        CompactEscape(s, buf, i, j, mnemonic);
        buf, j, i := buf[j := c], j + 1, i + 2;
      } else {
        CompactDrop(s, buf, i, j, mnemonic);
        buf := buf[j := c];
        if mnemonic == -1 {
          mnemonic := j + 1;
        }
        i := i + 1;
      }
    }
    assert s[i..] == [];
  }

  /** The second loop of `fixMnemonic`: zeroes the buffer from `from` on. */
  method ZeroFill(buf: string, from: int) returns (out: string)
    requires 0 <= from <= |buf|
    ensures |out| == |buf| && out[..from] == buf[..from]
    ensures forall k :: from <= k < |out| ==> out[k] == NUL
  {
    out := buf;
    var j := from;
    while j < |out|
      invariant from <= j <= |out| == |buf|
      invariant out[..from] == buf[..from]
      invariant forall k :: from <= k < j ==> out[k] == NUL
      decreases |out| - j
    {
      out := out[j := NUL];
      j := j + 1;
    }
  }
}

=== FILE: seqs.dfy ===
/** Sequence and Java-integer vocabulary shared by the widget models:
    distinctness, index permutations, the validation loop that several
    setters run over an `int[]` of indices, and Java's 32-bit arithmetic. */
module Seqs {

  import opened Wrappers

  /** No value occurs twice. Java arrays of object references whose identity matters
      (tab items, listeners, table items) are kept distinct by their owners. */
  ghost predicate Distinct<T>(s: seq<T>) {
    forall i, j :: 0 <= i < j < |s| ==> s[i] != s[j]
  }

  /** `p` holds every index 0..n-1 exactly once. */
  ghost predicate IsPermutation(p: seq<int>, n: int) {
    && |p| == n
    && (forall i :: 0 <= i < |p| ==> 0 <= p[i] < n)
    && Distinct(p)
  }

  function Elements(p: seq<int>): set<int> {
    set i | 0 <= i < |p| :: p[i]
  }

  /** The indices 0..n-1 as a set. */
  function Range(n: nat): (r: set<int>)
    ensures forall k :: k in r <==> 0 <= k < n
    ensures |r| == n
  {
    if n == 0 then {} else Range(n - 1) + {n - 1}
  }

  lemma {:induction false} DistinctElementsCard(p: seq<int>)
    requires Distinct(p)
    ensures |Elements(p)| == |p|
  {
    if |p| > 0 {
      var q := p[..|p| - 1];
      DistinctElementsCard(q);
      assert Elements(p) == Elements(q) + {p[|p| - 1]};
      assert p[|p| - 1] !in Elements(q);
    }
  }

  /** Pigeonhole: a permutation of 0..n-1 really contains each index. */
  lemma PermutationCovers(p: seq<int>, n: int, k: int)
    requires IsPermutation(p, n)
    requires 0 <= k < n
    ensures k in p
  {
    DistinctElementsCard(p);
    var e := Elements(p);
    assert e <= Range(n);
    assert Range(n) == e + (Range(n) - e);
    assert |Range(n) - e| == 0;
    assert k in e;
  }

  /** Position of the first occurrence of `x`, or -1, as a Java search loop returns it. */
  function IndexOf<T(==)>(s: seq<T>, x: T): (r: int)
    ensures -1 <= r < |s|
    ensures r == -1 <==> x !in s
    ensures r >= 0 ==> s[r] == x && x !in s[..r]
  {
    if |s| == 0 then -1
    else if s[0] == x then 0
    else
      var r := IndexOf(s[1..], x);
      assert r >= 0 ==> s[..r + 1] == [s[0]] + s[1..][..r];
      if r == -1 then -1 else r + 1
  }

  lemma IndexOfDistinct<T>(s: seq<T>, i: int)
    requires Distinct(s) && 0 <= i < |s|
    ensures IndexOf(s, s[i]) == i
  {
    assert s[i] in s;
    var r := IndexOf(s, s[i]);
    assert s[r] == s[i];
  }

  /** Inserting a fresh value keeps a sequence distinct. */
  lemma InsertDistinct<T>(s: seq<T>, k: int, x: T)
    requires Distinct(s) && x !in s && 0 <= k <= |s|
    ensures Distinct(s[..k] + [x] + s[k..])
  {
    var r := s[..k] + [x] + s[k..];
    forall i, j | 0 <= i < j < |r| ensures r[i] != r[j] {
      var i' := if i < k then i else i - 1;
      var j' := if j < k then j else j - 1;
      if i == k {
        assert r[j] == s[j'];
      } else if j == k {
        assert r[i] == s[i'];
      } else {
        assert r[i] == s[i'] && r[j] == s[j'];
      }
    }
  }

  /** Dropping one position keeps a sequence distinct. */
  lemma RemoveDistinct<T>(s: seq<T>, k: int)
    requires Distinct(s) && 0 <= k < |s|
    ensures Distinct(s[..k] + s[k + 1..])
  {
    var r := s[..k] + s[k + 1..];
    forall i, j | 0 <= i < j < |r| ensures r[i] != r[j] {
      var i' := if i < k then i else i + 1;
      var j' := if j < k then j else j + 1;
      assert r[i] == s[i'] && r[j] == s[j'];
    }
  }

  /** The first entry an index-array validation loop trips over: an entry
      outside 0..n-1, or one already seen at an earlier position. */
  datatype BadEntry = OutOfRange(at: nat) | Repeated(at: nat)

  /** Positions `from` up to `to` hold in-range entries not seen before. */
  predicate GoodBetween(order: seq<int>, n: int, from: nat, to: nat)
    requires from <= to <= |order|
  {
    forall k :: from <= k < to ==> 0 <= order[k] < n && order[k] !in order[..k]
  }

  function FirstBadEntry(order: seq<int>, n: int): (r: Option<BadEntry>)
    ensures r == None <==> (forall i :: 0 <= i < |order| ==> 0 <= order[i] < n) && Distinct(order)
    ensures r.Some? && r.value.OutOfRange? ==>
              r.value.at < |order| && !(0 <= order[r.value.at] < n)
    ensures r.Some? && r.value.Repeated? ==>
              r.value.at < |order| && order[r.value.at] in order[..r.value.at]
    // the loop stops at the first bad entry: everything before it passed
    ensures r.Some? ==> r.value.at < |order| && GoodBetween(order, n, 0, r.value.at)
  {
    ScanEntries(order, n, 0)
  }

  /** The loop of `FirstBadEntry` from position `i` on, when positions before `i` were fine. */
  function ScanEntries(order: seq<int>, n: int, i: nat): (r: Option<BadEntry>)
    requires i <= |order|
    decreases |order| - i
    ensures r == None <==>
              (forall k :: i <= k < |order| ==> 0 <= order[k] < n) &&
              (forall j, k :: 0 <= j < k < |order| && i <= k ==> order[j] != order[k])
    ensures r.Some? ==> i <= r.value.at < |order|
    ensures r.Some? && r.value.OutOfRange? ==> !(0 <= order[r.value.at] < n)
    ensures r.Some? && r.value.Repeated? ==> order[r.value.at] in order[..r.value.at]
    ensures r.Some? ==> GoodBetween(order, n, i, r.value.at)
  {
    if i == |order| then None
    else if !(0 <= order[i] < n) then Some(OutOfRange(i))
    else if order[i] in order[..i] then Some(Repeated(i))
    else
      assert forall j :: 0 <= j < i ==> order[j] != order[i] by {
        forall j | 0 <= j < i ensures order[j] != order[i] {
          assert order[j] in order[..i];
        }
      }
      ScanEntries(order, n, i + 1)
  }

  /** The first bad position decides the report: its place and its kind.
      An entry repeating a good one is itself in range, so a position is
      never both out of range and repeated. */
  lemma {:induction false} FirstBadEntryAt(order: seq<int>, n: int, p: nat)
    requires p < |order| && GoodBetween(order, n, 0, p)
    requires !(0 <= order[p] < n) || order[p] in order[..p]
    ensures FirstBadEntry(order, n) ==
              Some(if 0 <= order[p] < n then Repeated(p) else OutOfRange(p))
  {
    var r := FirstBadEntry(order, n);
    if order[p] in order[..p] {
      var j :| 0 <= j < p && order[j] == order[p];
      assert !Distinct(order);
    }
    assert r.Some?;
    var at := r.value.at;
    if at < p {
      assert false;
    } else if p < at {
      assert false;
    }
    if r.value.Repeated? {
      var j :| 0 <= j < p && order[j] == order[p];
      assert 0 <= order[j] < n;
    }
  }

  // Java `int` arithmetic.

  const INT_MIN: int := -0x8000_0000
  const INT_MAX: int := 0x7fff_ffff

  predicate IsInt32(x: int) { INT_MIN <= x <= INT_MAX }

  /** Two's-complement wrap-around of an exact result into the Java `int` range. */
  function Wrap32(x: int): (r: int)
    ensures IsInt32(r)
    ensures (r - x) % 0x1_0000_0000 == 0
    ensures IsInt32(x) ==> r == x
  {
    (x - INT_MIN) % 0x1_0000_0000 + INT_MIN
  }

  /** Java's `/` on `int`: truncates toward zero (Dafny's `/` is Euclidean). */
  function JavaDiv(a: int, b: int): (q: int)
    requires b != 0
    ensures a >= 0 && b > 0 ==> q == a / b
    ensures a < 0 && b > 0 ==> q == -((-a) / b)
  {
    if (a >= 0) == (b > 0) then Abs(a) / Abs(b) else -(Abs(a) / Abs(b))
  }

  function Abs(a: int): (r: nat)
    ensures r == a || r == -a
  {
    if a < 0 then -a else a
  }
}

=== FILE: swt.dfy ===
/** The constants of class `SWT` that the widget and graphics code depends on,
    the error-text table, the classification of error codes into the three
    Java exception kinds, and the platform-dependent modifier masks.

    Java `int`s used as bit sets are `bv32`; key codes are bit sets too,
    because a key code is a character or `KEYCODE_BIT` plus an offset. */
module Swt {

  import opened Wrappers

  // Style bits.
  const DEFAULT: int := -1
  const MULTI: bv32 := 0x0000_0002  // 1 << 1
  const SINGLE: bv32 := 0x0000_0004  // 1 << 2
  const NO_SCROLL: bv32 := 0x0000_0010  // 1 << 4
  const CLOSE: bv32 := 0x0000_0040  // 1 << 6
  const TOP: bv32 := 0x0000_0080  // 1 << 7
  const H_SCROLL: bv32 := 0x0000_0100  // 1 << 8
  const V_SCROLL: bv32 := 0x0000_0200  // 1 << 9
  const BOTTOM: bv32 := 0x0000_0400  // 1 << 10
  const NO_REDRAW_RESIZE: bv32 := 0x0010_0000  // 1 << 20
  const FLAT: bv32 := 0x0080_0000  // 1 << 23
  const LEFT_TO_RIGHT: bv32 := 0x0200_0000  // 1 << 25
  const RIGHT_TO_LEFT: bv32 := 0x0400_0000  // 1 << 26
  const MIRRORED: bv32 := 0x0800_0000  // 1 << 27
  const DOUBLE_BUFFERED: bv32 := 0x2000_0000  // 1 << 29
  const FLIP_TEXT_DIRECTION: bv32 := 0x8000_0000  // 1 << 31
  const AUTO_TEXT_DIRECTION: bv32 := LEFT_TO_RIGHT | RIGHT_TO_LEFT

  // Traversal details.
  const TRAVERSE_NONE: bv32 := 0
  const TRAVERSE_ESCAPE: bv32 := 0x0000_0002  // 1 << 1
  const TRAVERSE_RETURN: bv32 := 0x0000_0004  // 1 << 2
  const TRAVERSE_TAB_PREVIOUS: bv32 := 0x0000_0008  // 1 << 3
  const TRAVERSE_TAB_NEXT: bv32 := 0x0000_0010  // 1 << 4
  const TRAVERSE_ARROW_PREVIOUS: bv32 := 0x0000_0020  // 1 << 5
  const TRAVERSE_ARROW_NEXT: bv32 := 0x0000_0040  // 1 << 6
  const TRAVERSE_MNEMONIC: bv32 := 0x0000_0080  // 1 << 7
  const TRAVERSE_PAGE_PREVIOUS: bv32 := 0x0000_0100  // 1 << 8
  const TRAVERSE_PAGE_NEXT: bv32 := 0x0000_0200  // 1 << 9
  // Modifier and mouse-button bits of an event's state mask.
  const ALT_GR: bv32 := 0x0000_8000  // 1 << 15
  const ALT: bv32 := 0x0001_0000  // 1 << 16
  const SHIFT: bv32 := 0x0002_0000  // 1 << 17
  const CTRL: bv32 := 0x0004_0000  // 1 << 18
  const CONTROL: bv32 := CTRL
  const BUTTON1: bv32 := 0x0008_0000  // 1 << 19
  const BUTTON2: bv32 := 0x0010_0000  // 1 << 20
  const BUTTON3: bv32 := 0x0020_0000  // 1 << 21
  const COMMAND: bv32 := 0x0040_0000  // 1 << 22
  const BUTTON4: bv32 := 0x0080_0000  // 1 << 23
  const BUTTON5: bv32 := 0x0200_0000  // 1 << 25
  // Characters that double as key codes.
  const CR: bv32 := 0x0D
  const ESC: bv32 := 0x1B
  const TAB: bv32 := 0x09

  /** Set in a key code, clear in a character. */
  const KEYCODE_BIT: bv32 := 0x0100_0000  // 1 << 24
  const KEY_MASK: bv32 := 0x0100_FFFF  // KEYCODE_BIT + 0xFFFF

  /** A key code that is not a character: `KEYCODE_BIT + offset`, which is
      `KEYCODE_BIT | offset` because the offset stays below bit 16. */
  function KeyCode(offset: bv32): (k: bv32)
    requires 0 < offset <= 0xFFFF
    ensures k & KEYCODE_BIT != 0
  {
    0x0100_0000 | offset
  }

  const ARROW_UP: bv32 := KeyCode(1)
  const ARROW_DOWN: bv32 := KeyCode(2)
  const ARROW_LEFT: bv32 := KeyCode(3)
  const ARROW_RIGHT: bv32 := KeyCode(4)
  const PAGE_UP: bv32 := KeyCode(5)
  const PAGE_DOWN: bv32 := KeyCode(6)
  const HOME: bv32 := KeyCode(7)
  const END: bv32 := KeyCode(8)
  const INSERT: bv32 := KeyCode(9)
  /** F1 .. F20 */
  function FunctionKey(n: bv32): bv32
    requires 1 <= n <= 20
  {
    KeyCode(9 + n)
  }
  const KEYPAD_MULTIPLY: bv32 := KeyCode(42)
  const KEYPAD_ADD: bv32 := KeyCode(43)
  const KEYPAD_SUBTRACT: bv32 := KeyCode(45)
  const KEYPAD_DECIMAL: bv32 := KeyCode(46)
  const KEYPAD_DIVIDE: bv32 := KeyCode(47)
  /** KEYPAD_0 .. KEYPAD_9 */
  function KeypadDigit(n: bv32): bv32
    requires n <= 9
  {
    KeyCode(48 + n)
  }
  const KEYPAD_EQUAL: bv32 := KeyCode(61)
  const KEYPAD_CR: bv32 := KeyCode(80)
  const HELP: bv32 := KeyCode(81)
  const CAPS_LOCK: bv32 := KeyCode(82)
  const NUM_LOCK: bv32 := KeyCode(83)
  const SCROLL_LOCK: bv32 := KeyCode(84)
  const PAUSE: bv32 := KeyCode(85)
  const BREAK: bv32 := KeyCode(86)
  const PRINT_SCREEN: bv32 := KeyCode(87)

  const NamedKeyCodes: seq<bv32> := [
    ARROW_UP, ARROW_DOWN, ARROW_LEFT, ARROW_RIGHT, PAGE_UP, PAGE_DOWN, HOME, END,
    INSERT, KEYPAD_MULTIPLY, KEYPAD_ADD, KEYPAD_SUBTRACT, KEYPAD_DECIMAL,
    KEYPAD_DIVIDE, KEYPAD_EQUAL, KEYPAD_CR, HELP, CAPS_LOCK, NUM_LOCK, SCROLL_LOCK,
    PAUSE, BREAK, PRINT_SCREEN
  ]

  // Line, join, cap and fill constants of the graphics context.
  const CAP_FLAT: int := 1
  const CAP_ROUND: int := 2
  const CAP_SQUARE: int := 3
  const JOIN_MITER: int := 1
  const JOIN_ROUND: int := 2
  const JOIN_BEVEL: int := 3
  const LINE_SOLID: int := 1
  const LINE_DASH: int := 2
  const LINE_DOT: int := 3
  const LINE_DASHDOT: int := 4
  const LINE_DASHDOTDOT: int := 5
  const LINE_CUSTOM: int := 6
  const FILL_EVEN_ODD: int := 1
  const FILL_WINDING: int := 2

  // Error codes.
  const ERROR_UNSPECIFIED: int := 1
  const ERROR_NO_HANDLES: int := 2
  const ERROR_NO_MORE_CALLBACKS: int := 3
  const ERROR_NULL_ARGUMENT: int := 4
  const ERROR_INVALID_ARGUMENT: int := 5
  const ERROR_INVALID_RANGE: int := 6
  const ERROR_CANNOT_BE_ZERO: int := 7
  const ERROR_CANNOT_GET_ITEM: int := 8
  const ERROR_CANNOT_GET_SELECTION: int := 9
  const ERROR_CANNOT_INVERT_MATRIX: int := 10
  const ERROR_CANNOT_GET_ITEM_HEIGHT: int := 11
  const ERROR_CANNOT_GET_TEXT: int := 12
  const ERROR_CANNOT_SET_TEXT: int := 13
  const ERROR_ITEM_NOT_ADDED: int := 14
  const ERROR_ITEM_NOT_REMOVED: int := 15
  const ERROR_NO_GRAPHICS_LIBRARY: int := 16
  const ERROR_NOT_IMPLEMENTED: int := 20
  const ERROR_MENU_NOT_DROP_DOWN: int := 21
  const ERROR_THREAD_INVALID_ACCESS: int := 22
  const ERROR_WIDGET_DISPOSED: int := 24
  const ERROR_MENUITEM_NOT_CASCADE: int := 27
  const ERROR_CANNOT_SET_SELECTION: int := 28
  const ERROR_CANNOT_SET_MENU: int := 29
  const ERROR_CANNOT_SET_ENABLED: int := 30
  const ERROR_CANNOT_GET_ENABLED: int := 31
  const ERROR_INVALID_PARENT: int := 32
  const ERROR_MENU_NOT_BAR: int := 33
  const ERROR_CANNOT_GET_COUNT: int := 36
  const ERROR_MENU_NOT_POP_UP: int := 37
  const ERROR_UNSUPPORTED_DEPTH: int := 38
  const ERROR_IO: int := 39
  const ERROR_INVALID_IMAGE: int := 40
  const ERROR_UNSUPPORTED_FORMAT: int := 42
  const ERROR_INVALID_SUBCLASS: int := 43
  const ERROR_GRAPHIC_DISPOSED: int := 44
  const ERROR_DEVICE_DISPOSED: int := 45
  const ERROR_FAILED_EXEC: int := 46
  const ERROR_FAILED_LOAD_LIBRARY: int := 47
  const ERROR_INVALID_FONT: int := 48
  const ERROR_FUNCTION_DISPOSED: int := 49
  const ERROR_FAILED_EVALUATE: int := 50
  const ERROR_INVALID_RETURN_VALUE: int := 51

  /** Every code that has a message of its own. */
  const ErrorCodes: set<int> := {
    1, 2, 3, 4, 5, 6, 7, 8, 9, 10, 11, 12, 13, 14, 15, 16, 20, 21, 22, 24, 27,
    28, 29, 30, 31, 32, 33, 36, 37, 38, 39, 40, 42, 43, 44, 45, 46, 47, 48, 49,
    50, 51
  }

  const UNKNOWN_ERROR: string := "Unknown error"

  /** The message of an error code; total, with a fallback for unlisted codes. */
  function ErrorText(code: int): (msg: string)
    ensures |msg| > 0
  {
    if code == ERROR_UNSPECIFIED then "Unspecified error"
    else if code == ERROR_NO_HANDLES then "No more handles"
    else if code == ERROR_NO_MORE_CALLBACKS then "No more callbacks"
    else if code == ERROR_NULL_ARGUMENT then "Argument cannot be null"
    else if code == ERROR_INVALID_ARGUMENT then "Argument not valid"
    else if code == ERROR_INVALID_RETURN_VALUE then "Return value not valid"
    else if code == ERROR_INVALID_RANGE then "Index out of bounds"
    else if code == ERROR_CANNOT_BE_ZERO then "Argument cannot be zero"
    else if code == ERROR_CANNOT_GET_ITEM then "Cannot get item"
    else if code == ERROR_CANNOT_GET_SELECTION then "Cannot get selection"
    else if code == ERROR_CANNOT_GET_ITEM_HEIGHT then "Cannot get item height"
    else if code == ERROR_CANNOT_GET_TEXT then "Cannot get text"
    else if code == ERROR_CANNOT_SET_TEXT then "Cannot set text"
    else if code == ERROR_ITEM_NOT_ADDED then "Item not added"
    else if code == ERROR_ITEM_NOT_REMOVED then "Item not removed"
    else if code == ERROR_NOT_IMPLEMENTED then "Not implemented"
    else if code == ERROR_MENU_NOT_DROP_DOWN then "Menu must be a drop down"
    else if code == ERROR_THREAD_INVALID_ACCESS then "Invalid thread access"
    else if code == ERROR_WIDGET_DISPOSED then "Widget is disposed"
    else if code == ERROR_MENUITEM_NOT_CASCADE then "Menu item is not a CASCADE"
    else if code == ERROR_CANNOT_SET_SELECTION then "Cannot set selection"
    else if code == ERROR_CANNOT_SET_MENU then "Cannot set menu"
    else if code == ERROR_CANNOT_SET_ENABLED then "Cannot set the enabled state"
    else if code == ERROR_CANNOT_GET_ENABLED then "Cannot get the enabled state"
    else if code == ERROR_INVALID_PARENT then "Widget has the wrong parent"
    else if code == ERROR_MENU_NOT_BAR then "Menu is not a BAR"
    else if code == ERROR_CANNOT_GET_COUNT then "Cannot get count"
    else if code == ERROR_MENU_NOT_POP_UP then "Menu is not a POP_UP"
    else if code == ERROR_UNSUPPORTED_DEPTH then "Unsupported color depth"
    else if code == ERROR_IO then "i/o error"
    else if code == ERROR_INVALID_IMAGE then "Invalid image"
    else if code == ERROR_UNSUPPORTED_FORMAT then "Unsupported or unrecognized format"
    else if code == ERROR_INVALID_SUBCLASS then "Subclassing not allowed"
    else if code == ERROR_GRAPHIC_DISPOSED then "Graphic is disposed"
    else if code == ERROR_DEVICE_DISPOSED then "Device is disposed"
    else if code == ERROR_FUNCTION_DISPOSED then "BrowserFunction is disposed"
    else if code == ERROR_FAILED_EXEC then "Failed to execute runnable"
    else if code == ERROR_FAILED_EVALUATE then "Failed to evaluate javascript expression"
    else if code == ERROR_FAILED_LOAD_LIBRARY then "Unable to load library"
    else if code == ERROR_CANNOT_INVERT_MATRIX then "Cannot invert matrix"
    else if code == ERROR_NO_GRAPHICS_LIBRARY then "Unable to load graphics library"
    else if code == ERROR_INVALID_FONT then "Font not valid"
    else UNKNOWN_ERROR
  }

  /** Only the codes SWT defines have a message of their own. */
  lemma ErrorTextUnknown(code: int)
    ensures code !in ErrorCodes ==> ErrorText(code) == UNKNOWN_ERROR
  {
  }

  lemma ErrorTextKnown(code: int)
    ensures code in ErrorCodes ==> ErrorText(code) != UNKNOWN_ERROR
  {
  }

  /** Codes reported as `IllegalArgumentException`: the caller passed a bad argument. */
  const IllegalArgumentCodes: set<int> := {
    ERROR_NULL_ARGUMENT, ERROR_CANNOT_BE_ZERO, ERROR_INVALID_ARGUMENT,
    ERROR_MENU_NOT_BAR, ERROR_MENU_NOT_DROP_DOWN, ERROR_MENU_NOT_POP_UP,
    ERROR_MENUITEM_NOT_CASCADE, ERROR_INVALID_PARENT, ERROR_INVALID_RANGE
  }

  /** Codes reported as the recoverable `SWTException`. */
  const ExceptionCodes: set<int> := {
    ERROR_INVALID_SUBCLASS, ERROR_THREAD_INVALID_ACCESS, ERROR_WIDGET_DISPOSED,
    ERROR_GRAPHIC_DISPOSED, ERROR_DEVICE_DISPOSED, ERROR_FUNCTION_DISPOSED,
    ERROR_INVALID_IMAGE, ERROR_UNSUPPORTED_DEPTH, ERROR_UNSUPPORTED_FORMAT,
    ERROR_FAILED_EXEC, ERROR_FAILED_EVALUATE, ERROR_CANNOT_INVERT_MATRIX,
    ERROR_NO_GRAPHICS_LIBRARY, ERROR_INVALID_RETURN_VALUE, ERROR_IO
  }

  /** A throwable handed to `error` as the cause; `id` stands for object identity. */
  datatype Throwable =
    | SwtErrorCause(id: int)
    | SwtExceptionCause(id: int)
    | OtherCause(id: int)

  /** What `SWT.error(code, throwable, detail)` throws. */
  datatype Thrown =
    | IllegalArgument(message: string)
    | SwtException(code: int, message: string, cause: Option<Throwable>)
    | SwtError(code: int, message: string, cause: Option<Throwable>)
    | Rethrown(original: Throwable)

  predicate IsSwtThrowable(t: Option<Throwable>) {
    t.Some? && (t.value.SwtErrorCause? || t.value.SwtExceptionCause?)
  }

  function Error(code: int, throwable: Option<Throwable>, detail: Option<string>): (t: Thrown)
    // an SWT throwable is passed on unchanged, so errors never chain
    ensures t.Rethrown? <==> code != ERROR_FAILED_EXEC && IsSwtThrowable(throwable)
    ensures t.Rethrown? ==> throwable == Some(t.original)
    // otherwise the message is the code's text followed by the detail
    ensures !t.Rethrown? ==>
              t.message == ErrorText(code) + (if detail.Some? then detail.value else "")
    ensures (t.SwtException? || t.SwtError?) ==> t.code == code && t.cause == throwable
  {
    if code != ERROR_FAILED_EXEC && throwable.Some? && throwable.value.SwtErrorCause? then
      Rethrown(throwable.value)
    else if code != ERROR_FAILED_EXEC && throwable.Some? && throwable.value.SwtExceptionCause? then
      Rethrown(throwable.value)
    else
      var message := ErrorText(code) + (if detail.Some? then detail.value else "");
      if code in IllegalArgumentCodes then IllegalArgument(message)
      else if code in ExceptionCodes then SwtException(code, message, throwable)
      else SwtError(code, message, throwable)
  }

  /** Which of the three exception classes a code is reported as. */
  lemma ErrorIllegalArgument(code: int, throwable: Option<Throwable>, detail: Option<string>)
    ensures var t := Error(code, throwable, detail);
            t.IllegalArgument? <==> !t.Rethrown? && code in IllegalArgumentCodes
  {
  }

  lemma ErrorException(code: int, throwable: Option<Throwable>, detail: Option<string>)
    ensures var t := Error(code, throwable, detail);
            t.SwtException? <==> !t.Rethrown? && code in ExceptionCodes
  {
    ErrorClassesWellFormed();
  }

  lemma ErrorFatal(code: int, throwable: Option<Throwable>, detail: Option<string>)
    ensures var t := Error(code, throwable, detail);
            t.SwtError? <==>
              !t.Rethrown? && code !in IllegalArgumentCodes && code !in ExceptionCodes
  {
  }

  /** The argument-error class and the recoverable class are disjoint and all
      their codes have a message; FAILED_EXEC, whose cause is never passed on,
      is recoverable. */
  lemma ErrorClassesWellFormed()
    ensures IllegalArgumentCodes !! ExceptionCodes
    ensures IllegalArgumentCodes <= ErrorCodes && ExceptionCodes <= ErrorCodes
    ensures ERROR_FAILED_EXEC in ExceptionCodes
  {
  }

  /** The masks assembled by the static initialiser of `SWT`. */
  const BUTTON_MASK: bv32 := BUTTON1 | BUTTON2 | BUTTON3 | BUTTON4 | BUTTON5
  const MODIFIER_MASK: bv32 := ALT | SHIFT | CTRL | COMMAND | ALT_GR

  /** MOD1..MOD4 for the platform name `getPlatform()` reports. */
  datatype Modifiers = Modifiers(mod1: bv32, mod2: bv32, mod3: bv32, mod4: bv32)

  function PlatformModifiers(platform: string): (m: Modifiers)
    ensures m.mod2 == SHIFT && m.mod3 == ALT
    // the primary modifier is the Command key on the Mac and Control elsewhere
    ensures m.mod1 == (if platform == "cocoa" then COMMAND else CONTROL)
    // the fourth modifier is the Control key on the Mac and absent elsewhere
    ensures m.mod4 == (if platform == "cocoa" then CONTROL else 0)
    // every MODn is a modifier bit or absent, never a button bit
    ensures (m.mod1 | m.mod2 | m.mod3 | m.mod4) & !MODIFIER_MASK == 0
    ensures (m.mod1 | m.mod2 | m.mod3 | m.mod4) & BUTTON_MASK == 0
    // no two of them share a bit
    ensures m.mod1 & m.mod2 == 0 && m.mod1 & m.mod3 == 0 && m.mod1 & m.mod4 == 0
    ensures m.mod2 & m.mod3 == 0 && m.mod2 & m.mod4 == 0 && m.mod3 & m.mod4 == 0
  {
    if platform == "cocoa" then Modifiers(COMMAND, SHIFT, ALT, CONTROL)
    else Modifiers(CONTROL, SHIFT, ALT, 0)
  }

  /** The accelerator convention: a modifier plus a character has no
      KEYCODE_BIT, a modifier plus a key code has it, on every platform. */
  lemma AcceleratorKeycodeBit(platform: string)
    ensures var m := PlatformModifiers(platform);
            (m.mod1 | m.mod2 | ('T' as bv32)) & KEYCODE_BIT == 0
    ensures var m := PlatformModifiers(platform);
            (m.mod3 | FunctionKey(2)) & KEYCODE_BIT != 0
  {
  }

  /** The key codes the traversal and keypad code compare against all carry
      KEYCODE_BIT, while the characters ESC, CR and TAB do not. */
  lemma KeyCodesCarryKeycodeBit(n: bv32, d: bv32)
    requires 1 <= n <= 20 && d <= 9
    ensures FunctionKey(n) & KEYCODE_BIT != 0 && KeypadDigit(d) & KEYCODE_BIT != 0
    ensures forall i :: 0 <= i < |NamedKeyCodes| ==> NamedKeyCodes[i] & KEYCODE_BIT != 0
    ensures (ESC | CR | TAB) & KEYCODE_BIT == 0
  {
  }
}

=== FILE: tabfolder.dfy ===
/** Item bookkeeping of the tab folder (`CTabFolder`).

    The folder keeps its tabs in `items`, and in `priority` the order in
    which tabs claim space when not all fit: a permutation of the item
    indices. In MRU ("most recently used") mode a tab that is shown moves to
    the front of `priority`. `selectedIndex` is the selected tab or -1.
    Items and listeners are object references; here they are identities. */
module CTabFolder {

  import opened Wrappers
  import opened Swt
  import opened Seqs

  type ItemId = nat
  type ListenerId = nat

  datatype Folder = Folder(
    items: seq<ItemId>,
    priority: seq<int>,
    selectedIndex: int,
    firstIndex: int,
    mru: bool,
    folderListeners: seq<ListenerId>,   // CTabFolder2Listener[]
    tabListeners: seq<ListenerId>       // CTabFolderListener[]
  )

  /** What every public operation keeps: tabs are distinct objects,
      `priority` ranks each tab exactly once, and the selection is a tab or -1. */
  ghost predicate Valid(f: Folder) {
    && Distinct(f.items)
    && IsPermutation(f.priority, |f.items|)
    && -1 <= f.selectedIndex < |f.items|
  }

  // Style normalisation.

  const STYLE_MASK: bv32 :=
    CLOSE | TOP | BOTTOM | FLAT | LEFT_TO_RIGHT | RIGHT_TO_LEFT | SINGLE | MULTI

  /** `checkStyle(parent, style)`. */
  function CheckStyle(style: bv32, parentMirrored: bool): (r: bv32)
    ensures !(r & TOP != 0 && r & BOTTOM != 0)
    ensures !(r & SINGLE != 0 && r & MULTI != 0)
    ensures r & NO_REDRAW_RESIZE != 0
    // only the accepted bits, the defaults and double buffering survive
    ensures r & !(STYLE_MASK | NO_REDRAW_RESIZE | DOUBLE_BUFFERED) == 0
    ensures r & (CLOSE | FLAT | LEFT_TO_RIGHT | RIGHT_TO_LEFT | TOP | MULTI)
            == style & (CLOSE | FLAT | LEFT_TO_RIGHT | RIGHT_TO_LEFT | TOP | MULTI)
    ensures (r & BOTTOM != 0) <==> style & BOTTOM != 0 && style & TOP == 0
    ensures (r & SINGLE != 0) <==> style & SINGLE != 0 && style & MULTI == 0
    // Windows right-to-left drawing is left to the OS, so no double buffering then
    ensures (r & DOUBLE_BUFFERED != 0) <==>
            style & RIGHT_TO_LEFT == 0 && !(parentMirrored && style & LEFT_TO_RIGHT == 0)
  {
    var s0 := style & STYLE_MASK;
    var s1 := if s0 & TOP != 0 then s0 & !BOTTOM else s0;
    var s2 := if s1 & MULTI != 0 then s1 & !SINGLE else s1;
    var s3 := s2 | NO_REDRAW_RESIZE;
    if s3 & RIGHT_TO_LEFT != 0 then s3
    else if parentMirrored && s3 & LEFT_TO_RIGHT == 0 then s3
    else s3 | DOUBLE_BUFFERED
  }

  // Priority bookkeeping.

  /** Renumbering of the old priority entries when a tab is inserted at `index`. */
  function Bump(p: seq<int>, index: int): (r: seq<int>)
    ensures |r| == |p|
    ensures forall i :: 0 <= i < |p| ==> r[i] == if p[i] >= index then p[i] + 1 else p[i]
  {
    seq(|p|, i requires 0 <= i < |p| => if p[i] >= index then p[i] + 1 else p[i])
  }

  /** The new `priority` after inserting at `index`: in MRU mode the new tab
      ranks last; otherwise it takes the rank of the tab it displaces, just
      before that tab, or last when appended. */
  function InsertPriority(p: seq<int>, index: int, mru: bool): (r: seq<int>)
    ensures |r| == |p| + 1
    ensures r[NewRank(p, index, mru)] == index
    ensures multiset(r) == multiset(Bump(p, index)) + multiset{index}
  {
    var b := Bump(p, index);
    if !mru && index in p then
      var k := IndexOf(p, index);
      assert b == b[..k] + b[k..];
      b[..k] + [index] + b[k..]
    else b + [index]
  }

  /** The rank the new tab gets. */
  function NewRank(p: seq<int>, index: int, mru: bool): (k: int)
    ensures 0 <= k <= |p|
  {
    if !mru && index in p then IndexOf(p, index) else |p|
  }

  /** Position `t` of the inserted priority, spelled out. */
  lemma InsertPriorityAt(p: seq<int>, index: int, mru: bool, t: int)
    requires 0 <= t <= |p|
    ensures var k := NewRank(p, index, mru);
            InsertPriority(p, index, mru)[t] ==
              if t < k then Bump(p, index)[t] else if t == k then index else Bump(p, index)[t - 1]
  {
    InsertPrioritySplice(p, index, mru);
  }

  /** Renumbering for an insertion at `index` keeps the old entries distinct,
      moves them to 0..n without `index`. */
  lemma BumpFreesIndex(p: seq<int>, n: int, index: int)
    requires IsPermutation(p, n) && 0 <= index <= n
    ensures Distinct(Bump(p, index)) && index !in Bump(p, index)
    ensures forall i :: 0 <= i < |p| ==> 0 <= Bump(p, index)[i] <= n
  {
    var b := Bump(p, index);
    forall i, j | 0 <= i < j < |b| ensures b[i] != b[j] {
      assert p[i] != p[j];
    }
  }

  /** The inserted priority is the renumbered one with the new tab spliced
      in at its rank. */
  lemma InsertPrioritySplice(p: seq<int>, index: int, mru: bool)
    ensures var b := Bump(p, index);
            var k := NewRank(p, index, mru);
            InsertPriority(p, index, mru) == b[..k] + [index] + b[k..]
  {
    var b := Bump(p, index);
    if NewRank(p, index, mru) == |p| {
      assert b[..|p|] == b && b[|p|..] == [];
    }
  }

  /** Inserting keeps `priority` a permutation and puts the new tab at its
      rank: last in MRU mode or when appended, else where the displaced tab was. */
  lemma InsertPriorityPermutation(p: seq<int>, n: int, index: int, mru: bool)
    requires IsPermutation(p, n) && 0 <= index <= n
    ensures IsPermutation(InsertPriority(p, index, mru), n + 1)
    ensures InsertPriority(p, index, mru)[NewRank(p, index, mru)] == index
    ensures mru || index == n ==> NewRank(p, index, mru) == n
    ensures !mru && index < n ==> NewRank(p, index, mru) == IndexOf(p, index)
  {
    var b := Bump(p, index);
    var k := NewRank(p, index, mru);
    if !mru && index < n {
      PermutationCovers(p, n, index);
    }
    BumpFreesIndex(p, n, index);
    InsertPrioritySplice(p, index, mru);
    InsertDistinct(b, k, index);
    forall i | 0 <= i < |p| + 1 ensures 0 <= InsertPriority(p, index, mru)[i] < n + 1 {
      InsertPriorityAt(p, index, mru, i);
    }
  }

  /** Inserting leaves the other tabs ranked in the same order, renumbered. */
  lemma InsertPriorityKeepsOrder(p: seq<int>, n: int, index: int, mru: bool)
    requires IsPermutation(p, n) && 0 <= index <= n
    ensures Without(InsertPriority(p, index, mru), index) == Bump(p, index)
  {
    var b := Bump(p, index);
    var k := NewRank(p, index, mru);
    BumpFreesIndex(p, n, index);
    InsertPrioritySplice(p, index, mru);
    assert b[..k] + b[k..] == b;
    assert index !in b[..k] && index !in b[k..] by {
      assert forall y :: y in b[..k] ==> y in b;
      assert forall y :: y in b[k..] ==> y in b;
    }
    WithoutSplice(b[..k], index, b[k..]);
  }

  /** The sequence with every occurrence of `x` removed. */
  function Without(s: seq<int>, x: int): (r: seq<int>)
    ensures |r| <= |s|
  {
    if |s| == 0 then []
    else if s[0] == x then Without(s[1..], x)
    else [s[0]] + Without(s[1..], x)
  }

  lemma {:induction false} WithoutAbsent(s: seq<int>, x: int)
    requires x !in s
    ensures Without(s, x) == s
  {
    if |s| > 0 {
      assert s[0] != x;
      assert x !in s[1..] by { assert forall y :: y in s[1..] ==> y in s; }
      WithoutAbsent(s[1..], x);
      assert s == [s[0]] + s[1..];
    }
  }

  lemma {:induction false} WithoutConcat(a: seq<int>, b: seq<int>, x: int)
    ensures Without(a + b, x) == Without(a, x) + Without(b, x)
  {
    if |a| == 0 {
      assert a + b == b;
    } else {
      assert (a + b)[1..] == a[1..] + b;
      WithoutConcat(a[1..], b, x);
      if a[0] != x {
        assert Without(a + b, x) == [a[0]] + Without(a[1..] + b, x);
      }
    }
  }

  lemma WithoutSplice(a: seq<int>, x: int, b: seq<int>)
    requires x !in a && x !in b
    ensures Without(a + [x] + b, x) == a + b
  {
    WithoutConcat(a + [x], b, x);
    WithoutAppended(a, x);
    WithoutAbsent(b, x);
  }

  lemma WithoutAppended(a: seq<int>, x: int)
    requires x !in a
    ensures Without(a + [x], x) == a
  {
    WithoutConcat(a, [x], x);
    WithoutAbsent(a, x);
    WithoutSelf(x);
    assert a + [] == a;
  }

  lemma WithoutSelf(x: int)
    ensures Without([x], x) == []
  {
    assert [x][1..] == [];
  }

  /** The loop meets the displaced tab exactly at the new tab's rank. */
  lemma RankFound(p: seq<int>, index: int, mru: bool, i: int)
    requires Distinct(p) && 0 <= i < |p|
    ensures (!mru && p[i] == index) <==> i == NewRank(p, index, mru)
  {
    IndexOfDistinct(p, i);
  }

  /** The loop of `createItem` that fills `newPriority`, proved to compute
      `InsertPriority`. */
  method InsertPriorityLoop(priority: seq<int>, index: int, mru: bool) returns (newPriority: seq<int>)
    requires Distinct(priority)
    ensures newPriority == InsertPriority(priority, index, mru)
  {
    ghost var b := Bump(priority, index);
    ghost var k := NewRank(priority, index, mru);
    newPriority := seq(|priority| + 1, _ => 0);
    var next := 0;
    var priorityIndex := |priority|;
    var i := 0;
    while i < |priority|
      invariant 0 <= i <= |priority|
      invariant |newPriority| == |priority| + 1
      invariant i <= k ==> next == i && priorityIndex == |priority|
      invariant i > k ==> next == i + 1 && priorityIndex == k
      invariant forall t :: 0 <= t < i && t < k ==> newPriority[t] == b[t]
      invariant forall t :: k <= t < i ==> newPriority[t + 1] == b[t]
    {
      var element := priority[i];
      RankFound(priority, index, mru, i);
      if !mru && element == index {
        priorityIndex := next;
        next := next + 1;
      }
      newPriority := newPriority[next := if element >= index then element + 1 else element];
      next := next + 1;
      i := i + 1;
    }
    newPriority := newPriority[priorityIndex := index];
    InsertPriorityFilled(priority, index, mru, newPriority);
  }

  /** A sequence filled as the loop fills it is the inserted priority. */
  lemma InsertPriorityFilled(p: seq<int>, index: int, mru: bool, q: seq<int>)
    requires |q| == |p| + 1
    requires var k := NewRank(p, index, mru);
             && q[k] == index
             && (forall t :: 0 <= t < k ==> q[t] == Bump(p, index)[t])
             && (forall t :: k <= t < |p| ==> q[t + 1] == Bump(p, index)[t])
    ensures q == InsertPriority(p, index, mru)
  {
    var k := NewRank(p, index, mru);
    forall t | 0 <= t < |q|
      ensures q[t] == InsertPriority(p, index, mru)[t]
    {
      InsertPriorityAt(p, index, mru, t);
      if t > k {
        assert q[(t - 1) + 1] == Bump(p, index)[t - 1];
      }
    }
  }

  /** The new `priority` after removing the tab at `index`. */
  function RemovePriority(p: seq<int>, index: int): (r: seq<int>)
    ensures |r| <= |p|
    ensures forall y :: y in r <==> exists x :: x in p && x != index && y == Dec(x, index)
  {
    if |p| == 0 then []
    else
      var rest := RemovePriority(p[1..], index);
      assert forall x :: x in p[1..] ==> x in p;
      assert forall x :: x in p ==> x == p[0] || x in p[1..];
      if p[0] == index then rest else [Dec(p[0], index)] + rest
  }

  function Dec(x: int, index: int): int {
    if x > index then x - 1 else x
  }

  lemma {:induction false} RemovePriorityShape(p: seq<int>, index: int)
    requires Distinct(p)
    ensures Distinct(RemovePriority(p, index))
    ensures |RemovePriority(p, index)| == if index in p then |p| - 1 else |p|
  {
    if |p| > 0 {
      var rest := RemovePriority(p[1..], index);
      assert Distinct(p[1..]) by {
        forall i, j | 0 <= i < j < |p[1..]| ensures p[1..][i] != p[1..][j] {
          assert p[1..][i] == p[i + 1] && p[1..][j] == p[j + 1];
        }
      }
      RemovePriorityShape(p[1..], index);
      assert p[0] !in p[1..] by {
        forall i | 0 <= i < |p[1..]| ensures p[1..][i] != p[0] { assert p[1..][i] == p[i + 1]; }
      }
      assert index in p <==> p[0] == index || index in p[1..];
      if p[0] != index {
        assert Dec(p[0], index) !in rest by {
          forall x | x in p[1..] && x != index ensures Dec(x, index) != Dec(p[0], index) {
            assert x != p[0];
          }
        }
        var r := [Dec(p[0], index)] + rest;
        forall i, j | 0 <= i < j < |r| ensures r[i] != r[j] {
          if i == 0 { assert r[j] == rest[j - 1]; assert r[j] in rest; }
          else { assert r[i] == rest[i - 1] && r[j] == rest[j - 1]; }
        }
      }
    }
  }

  /** Removing keeps `priority` a permutation of the remaining indices. */
  lemma RemovePriorityPermutation(p: seq<int>, n: int, index: int)
    requires IsPermutation(p, n) && 0 <= index < n
    ensures IsPermutation(RemovePriority(p, index), n - 1)
  {
    PermutationCovers(p, n, index);
    RemovePriorityShape(p, index);
    var r := RemovePriority(p, index);
    forall i | 0 <= i < |r| ensures 0 <= r[i] < n - 1 {
      assert r[i] in r;
    }
  }

  /** Moving the entry at `idx` to the front, as `showItem` does in MRU mode. */
  function MoveToFront(p: seq<int>, idx: int): (r: seq<int>)
    requires 0 <= idx < |p|
    ensures |r| == |p| && r[0] == p[idx]
    ensures multiset(r) == multiset(p)
  {
    assert p == p[..idx] + [p[idx]] + p[idx + 1..];
    [p[idx]] + p[..idx] + p[idx + 1..]
  }

  /** Where position `i` of the promoted order comes from. */
  lemma MoveToFrontAt(p: seq<int>, idx: int, i: int)
    requires 0 <= idx < |p| && 0 <= i < |p|
    ensures MoveToFront(p, idx)[i] == p[if i == 0 then idx else if i <= idx then i - 1 else i]
  {
  }

  /** MRU promotion keeps the permutation, puts the shown tab first and keeps
      the relative order of all other tabs. */
  lemma MoveToFrontKeepsOrder(p: seq<int>, n: int, idx: int)
    requires IsPermutation(p, n) && 0 <= idx < n
    ensures IsPermutation(MoveToFront(p, idx), n)
    ensures MoveToFront(p, idx)[0] == p[idx]
    ensures Without(MoveToFront(p, idx), p[idx]) == Without(p, p[idx])
  {
    var x := p[idx];
    var r := MoveToFront(p, idx);
    var head, tail := p[..idx], p[idx + 1..];
    assert x !in head && x !in tail by {
      forall i | 0 <= i < |head| ensures head[i] != x { }
      forall i | 0 <= i < |tail| ensures tail[i] != x {
        assert tail[i] == p[idx + 1 + i];
      }
    }
    forall i, j | 0 <= i < j < |r| ensures r[i] != r[j] {
      MoveToFrontAt(p, idx, i);
      MoveToFrontAt(p, idx, j);
    }
    forall i | 0 <= i < |r| ensures 0 <= r[i] < n {
      MoveToFrontAt(p, idx, i);
    }
    WithoutSplice([], x, p[..idx] + p[idx + 1..]);
    assert r == [] + [x] + (p[..idx] + p[idx + 1..]);
    WithoutSplice(p[..idx], x, p[idx + 1..]);
    assert p == p[..idx] + [x] + p[idx + 1..];
  }

  // Operations.

  /** `indexOf(item)`. */
  function IndexOfItem(f: Folder, item: Option<ItemId>): (r: Result<int>)
    ensures item.None? <==> r == Err(SwtFault(ERROR_NULL_ARGUMENT))
    ensures item.Some? ==> r.Ok? && -1 <= r.value < |f.items|
    ensures item.Some? ==> (r.value == -1 <==> item.value !in f.items)
    ensures item.Some? && r.value >= 0 ==> f.items[r.value] == item.value
  {
    if item.None? then Err(SwtFault(ERROR_NULL_ARGUMENT)) else Ok(IndexOf(f.items, item.value))
  }

  /** `createItem(item, index)`. */
  function CreateItem(f: Folder, item: ItemId, index: int): (r: Result<Folder>)
    ensures !(0 <= index <= |f.items|) <==> r == Err(SwtFault(ERROR_INVALID_RANGE))
    ensures r.Ok? ==>
      && |r.value.items| == |f.items| + 1
      && r.value.items[..index] == f.items[..index]
      && r.value.items[index] == item
      && r.value.items[index + 1..] == f.items[index..]
      && r.value.selectedIndex == (if f.selectedIndex >= index then f.selectedIndex + 1 else f.selectedIndex)
      && r.value.priority == InsertPriority(f.priority, index, f.mru)
  {
    if !(0 <= index <= |f.items|) then Err(SwtFault(ERROR_INVALID_RANGE))
    else
      var items := f.items[..index] + [item] + f.items[index..];
      assert items[index + 1..] == f.items[index..];
      Ok(f.(items := items,
            selectedIndex := if f.selectedIndex >= index then f.selectedIndex + 1 else f.selectedIndex,
            priority := InsertPriority(f.priority, index, f.mru)))
  }

  /** Inserting a new tab keeps the folder valid. */
  lemma CreateItemValid(f: Folder, item: ItemId, index: int)
    requires Valid(f) && item !in f.items && 0 <= index <= |f.items|
    ensures CreateItem(f, item, index).Ok?
    ensures Valid(CreateItem(f, item, index).value)
  {
    var g := CreateItem(f, item, index).value;
    assert g.items == f.items[..index] + [item] + f.items[index..];
    InsertPriorityPermutation(f.priority, |f.items|, index, f.mru);
    InsertDistinct(f.items, index, item);
  }

  /** After an insertion the selection still designates the same tab. */
  lemma CreateItemKeepsSelection(f: Folder, item: ItemId, index: int)
    requires 0 <= f.selectedIndex < |f.items| && 0 <= index <= |f.items|
    ensures var g := CreateItem(f, item, index).value;
            g.items[g.selectedIndex] == f.items[f.selectedIndex]
  {
    var sel := f.selectedIndex;
    var g := CreateItem(f, item, index).value;
    if sel < index {
      assert g.items[sel] == g.items[..index][sel];
    } else {
      assert g.items[sel + 1] == g.items[index + 1..][sel - index];
    }
  }

  /** `setSelection(index)`: out-of-range indices are ignored; otherwise the
      tab becomes selected and is shown (promoted in MRU mode). */
  function SetSelection(f: Folder, index: int): (g: Folder)
    requires IsPermutation(f.priority, |f.items|)
    ensures !(0 <= index < |f.items|) ==> g == f
    ensures 0 <= index < |f.items| ==>
              g.selectedIndex == index && g.items == f.items
              && IsPermutation(g.priority, |g.items|)
              && (g.mru ==> g.priority[0] == index)
              && (!g.mru ==> g.priority == f.priority)
  {
    if !(0 <= index < |f.items|) then f
    else
      PermutationCovers(f.priority, |f.items|, index);
      var idx := IndexOf(f.priority, index);
      if f.mru then
        MoveToFrontKeepsOrder(f.priority, |f.items|, idx);
        f.(selectedIndex := index, priority := MoveToFront(f.priority, idx))
      else f.(selectedIndex := index)
  }

  /** `showItem(item)`: null, disposed and foreign items are refused; in MRU
      mode the tab moves to the front of `priority`. A tab missing from
      `priority` would make the array copy fail. */
  function ShowItem(f: Folder, item: Option<ItemId>, disposed: bool): (r: Result<Folder>)
    ensures item.None? ==> r == Err(SwtFault(ERROR_NULL_ARGUMENT))
    ensures item.Some? && (disposed || item.value !in f.items) ==> r == Err(SwtFault(ERROR_INVALID_ARGUMENT))
    ensures r.Ok? ==> r.value.items == f.items && r.value.selectedIndex == f.selectedIndex
    ensures r.Ok? && !f.mru ==> r.value == f
  {
    if item.None? then Err(SwtFault(ERROR_NULL_ARGUMENT))
    else if disposed then Err(SwtFault(ERROR_INVALID_ARGUMENT))
    else
      var index := IndexOf(f.items, item.value);
      if index == -1 then Err(SwtFault(ERROR_INVALID_ARGUMENT))
      else
        var idx := IndexOf(f.priority, index);
        if !f.mru then Ok(f)
        else if idx == -1 then Err(IndexOutOfBounds)
        else
          Ok(f.(priority := MoveToFront(f.priority, idx)))
  }

  /** On a valid folder, showing one of its tabs succeeds, keeps the folder
      valid, and in MRU mode ranks the tab first without reordering the rest. */
  lemma ShowItemPromotes(f: Folder, item: ItemId)
    requires Valid(f) && item in f.items
    ensures var r := ShowItem(f, Some(item), false);
            var index := IndexOf(f.items, item);
            && r.Ok? && Valid(r.value)
            && (f.mru ==> r.value.priority[0] == index
                          && Without(r.value.priority, index) == Without(f.priority, index))
  {
    var index := IndexOf(f.items, item);
    PermutationCovers(f.priority, |f.items|, index);
    var idx := IndexOf(f.priority, index);
    MoveToFrontKeepsOrder(f.priority, |f.items|, idx);
  }

  /** `destroyItem(item)`: a no-op during dispose or for a foreign item;
      removing the last tab empties the folder; otherwise the selection moves
      to the tab ranked first (MRU) or to the left neighbour. */
  function DestroyItem(f: Folder, item: ItemId, inDispose: bool): (g: Folder)
    requires Valid(f)
    ensures inDispose || item !in f.items ==> g == f
    ensures !inDispose && f.items == [item] ==>
              g == f.(items := [], priority := [], firstIndex := -1, selectedIndex := -1)
    ensures !inDispose && item in f.items && |f.items| > 1 ==>
              var index := IndexOf(f.items, item);
              && g.items == f.items[..index] + f.items[index + 1..]
              && g.priority == RemovePriority(f.priority, index)
              && (f.selectedIndex > index ==> g.selectedIndex == f.selectedIndex - 1)
              && (f.selectedIndex < index ==> g.selectedIndex == f.selectedIndex)
  {
    if inDispose then f
    else
      var index := IndexOf(f.items, item);
      if index == -1 then f
      else if |f.items| == 1 then
        f.(items := [], priority := [], firstIndex := -1, selectedIndex := -1)
      else
        var items := f.items[..index] + f.items[index + 1..];
        RemovePriorityPermutation(f.priority, |f.items|, index);
        var priority := RemovePriority(f.priority, index);
        var h := f.(items := items, priority := priority);
        RemoveDistinct(f.items, index);
        if f.selectedIndex == index then
          var nextSelection := if f.mru then priority[0] else Max(0, index - 1);
          MoveToFrontFirst(priority, |items|);
          SetSelection(h.(selectedIndex := -1), nextSelection)
        else if f.selectedIndex > index then h.(selectedIndex := f.selectedIndex - 1)
        else h
  }

  /** Destroying a tab keeps the folder valid; when the selected tab goes,
      the selection moves to the tab ranked first (MRU) or to the left
      neighbour. */
  lemma DestroyItemValid(f: Folder, item: ItemId, inDispose: bool)
    requires Valid(f)
    ensures Valid(DestroyItem(f, item, inDispose))
    ensures var index := IndexOf(f.items, item);
            var g := DestroyItem(f, item, inDispose);
            !inDispose && |f.items| > 1 && index >= 0 && f.selectedIndex == index ==>
              (!f.mru ==> g.selectedIndex == if index > 0 then index - 1 else 0)
              && (f.mru ==> g.selectedIndex == g.priority[0])
  {
    var index := IndexOf(f.items, item);
    if !inDispose && index >= 0 && |f.items| > 1 {
      RemovePriorityPermutation(f.priority, |f.items|, index);
      RemoveDistinct(f.items, index);
    }
  }

  function Max(a: int, b: int): int {
    if a >= b then a else b
  }

  /** Promoting the entry that is already first changes nothing. */
  lemma MoveToFrontFirst(p: seq<int>, n: int)
    requires IsPermutation(p, n) && n > 0
    ensures IndexOf(p, p[0]) == 0 && MoveToFront(p, 0) == p
  {
    assert p == [p[0]] + p[1..];
  }

  /** `setItemOrder(indices)`: `indices[i]` names the tab that moves to
      position `i`; anything but a permutation of the positions is refused. */
  function SetItemOrder(f: Folder, indices: Option<seq<int>>): (r: Result<Folder>)
    requires -1 <= f.selectedIndex < |f.items|
    ensures indices.None? ==> r == Err(SwtFault(ERROR_NULL_ARGUMENT))
    ensures indices.Some? ==>
              (r.Ok? <==> IsPermutation(indices.value, |f.items|))
              && (r.Err? ==> r == Err(SwtFault(ERROR_INVALID_ARGUMENT)))
    ensures r.Ok? ==>
              && |r.value.items| == |f.items|
              && (forall i :: 0 <= i < |f.items| ==> r.value.items[i] == f.items[indices.value[i]])
              && r.value.priority == f.priority
              && -1 <= r.value.selectedIndex < |f.items|
              && (r.value.selectedIndex >= 0 ==> indices.value[r.value.selectedIndex] == f.selectedIndex)
              && (f.selectedIndex >= 0 <==> r.value.selectedIndex >= 0)
  {
    if indices.None? then Err(SwtFault(ERROR_NULL_ARGUMENT))
    else
      var order := indices.value;
      if |order| != |f.items| then Err(SwtFault(ERROR_INVALID_ARGUMENT))
      else if FirstBadEntry(order, |f.items|).Some? then Err(SwtFault(ERROR_INVALID_ARGUMENT))
      else
        var items := seq(|order|, i requires 0 <= i < |order| => f.items[order[i]]);
        var sel := IndexOf(order, f.selectedIndex);
        assert f.selectedIndex >= 0 ==> f.selectedIndex in order by {
          if 0 <= f.selectedIndex < |f.items| {
            PermutationCovers(order, |f.items|, f.selectedIndex);
          }
        }
        Ok(f.(items := items, selectedIndex := sel))
  }

  /** Reordering keeps the folder valid and the selection on the same tab. */
  lemma SetItemOrderValid(f: Folder, order: seq<int>)
    requires Valid(f) && IsPermutation(order, |f.items|)
    ensures SetItemOrder(f, Some(order)).Ok?
    ensures Valid(SetItemOrder(f, Some(order)).value)
    ensures var g := SetItemOrder(f, Some(order)).value;
            f.selectedIndex >= 0 ==> g.items[g.selectedIndex] == f.items[f.selectedIndex]
  {
    var g := SetItemOrder(f, Some(order)).value;
    forall i, j | 0 <= i < j < |g.items| ensures g.items[i] != g.items[j] {
      assert order[i] != order[j];
      assert g.items[i] == f.items[order[i]] && g.items[j] == f.items[order[j]];
    }
  }

  /** `onPageTraversal(event)` for TRAVERSE_PAGE_NEXT (`next`) or
      TRAVERSE_PAGE_PREVIOUS: `showing[i]` says whether tab `i` is currently
      drawn. Without MRU the selection steps cyclically; with MRU it steps
      among the drawn tabs and stays put at either end (where the source
      may open the chevron list instead). */
  function PageTraversal(f: Folder, next: bool, showing: seq<bool>): (g: Folder)
    requires Valid(f) && |showing| == |f.items|
    ensures |f.items| == 0 ==> g == f
    ensures |f.items| > 0 ==> 0 <= g.selectedIndex < |f.items| && g.items == f.items && Valid(g)
    ensures |f.items| > 0 && f.selectedIndex == -1 ==> g.selectedIndex == 0
    ensures |f.items| > 0 && f.selectedIndex >= 0 && !f.mru ==>
              g.selectedIndex == (f.selectedIndex + (if next then 1 else -1) + |f.items|) % |f.items|
  {
    var count := |f.items|;
    if count == 0 then f
    else
      var index :=
        if f.selectedIndex == -1 then 0
        else
          var offset := if next then 1 else -1;
          if !f.mru then (f.selectedIndex + offset + count) % count
          else
            var visible := Visible(showing, 0);
            var current := IndexOf(visible, f.selectedIndex);
            if 0 <= current + offset < |visible| then visible[current + offset] else f.selectedIndex;
      SetSelection(f, index)
  }

  /** Indices `i >= from` of the drawn tabs, in increasing order. */
  function Visible(showing: seq<bool>, from: nat): (r: seq<int>)
    requires from <= |showing|
    ensures forall k :: 0 <= k < |r| ==> from <= r[k] < |showing| && showing[r[k]]
    decreases |showing| - from
  {
    if from == |showing| then []
    else if showing[from] then [from] + Visible(showing, from + 1)
    else Visible(showing, from + 1)
  }

  /** Without MRU, paging forward from the last tab wraps to the first, and
      paging back from the first wraps to the last. */
  lemma PageTraversalWraps(f: Folder, showing: seq<bool>)
    requires Valid(f) && |showing| == |f.items| && !f.mru && |f.items| > 0
    ensures f.selectedIndex == |f.items| - 1 ==> PageTraversal(f, true, showing).selectedIndex == 0
    ensures f.selectedIndex == 0 ==> PageTraversal(f, false, showing).selectedIndex == |f.items| - 1
  {
    WrapArithmetic(|f.items|);
  }

  lemma WrapArithmetic(n: int)
    requires n > 0
    ensures (n - 1 + 1 + n) % n == 0 && (0 - 1 + n) % n == n - 1
  {
    assert n - 1 + 1 + n == 2 * n;
  }

  // Listener arrays.

  /** `addCTabFolder2Listener` / `addCTabFolderListener`: append. */
  function AddListener(listeners: seq<ListenerId>, listener: Option<ListenerId>): (r: Result<seq<ListenerId>>)
    ensures listener.None? <==> r == Err(SwtFault(ERROR_NULL_ARGUMENT))
    ensures r.Ok? ==> |r.value| == |listeners| + 1 && r.value[..|listeners|] == listeners
                      && r.value[|listeners|] == listener.value
  {
    if listener.None? then Err(SwtFault(ERROR_NULL_ARGUMENT)) else Ok(listeners + [listener.value])
  }

  /** `removeCTabFolder2Listener` / `removeCTabFolderListener`: drop the first
      registration of the listener, if any. */
  function RemoveListener(listeners: seq<ListenerId>, listener: Option<ListenerId>): (r: Result<seq<ListenerId>>)
    ensures listener.None? <==> r == Err(SwtFault(ERROR_NULL_ARGUMENT))
    ensures r.Ok? ==> multiset(r.value) == multiset(listeners) - multiset{listener.value}
    ensures r.Ok? && listener.value !in listeners ==> r.value == listeners
    ensures r.Ok? && listener.value in listeners ==>
              var i := IndexOf(listeners, listener.value);
              r.value == listeners[..i] + listeners[i + 1..]
  {
    if listener.None? then Err(SwtFault(ERROR_NULL_ARGUMENT))
    else if |listeners| == 0 then Ok(listeners)
    else
      var index := IndexOf(listeners, listener.value);
      if index == -1 then Ok(listeners)
      else
        SpliceOut(listeners, index);
        if |listeners| == 1 then
          assert listeners[..index] + listeners[index + 1..] == [];
          Ok([])
        else Ok(listeners[..index] + listeners[index + 1..])
  }

  lemma SpliceOut<T>(s: seq<T>, i: int)
    requires 0 <= i < |s|
    ensures multiset(s[..i] + s[i + 1..]) == multiset(s) - multiset{s[i]}
  {
    assert s == s[..i] + [s[i]] + s[i + 1..];
  }

  /** Removing a listener that was just added restores the array. */
  lemma RemoveUndoesAdd(listeners: seq<ListenerId>, listener: ListenerId)
    requires listener !in listeners
    ensures RemoveListener(AddListener(listeners, Some(listener)).value, Some(listener)) == Ok(listeners)
  {
    var added := listeners + [listener];
    assert added[..|listeners|] == listeners;
    assert IndexOf(added, listener) == |listeners|;
    assert added[..|listeners|] + added[|listeners| + 1..] == listeners;
  }
}

=== FILE: table.dfy ===
/** Bookkeeping of the Windows Dart table (`DartTable`): the item array and
    the cached `indexOf` lookup, the column array with its spare capacity,
    the column order, the selection, and the nested deferral of Resize
    events. Items and columns are object references; here they are
    identities. */
module DartTable {

  import opened Wrappers
  import opened Swt
  import opened Seqs

  type ItemId = nat
  type ColumnId = nat

  // Style.

  const SCROLL: bv32 := H_SCROLL | V_SCROLL

  /** `checkStyle(style)`: scroll bars on both axes unless NO_SCROLL is
      given; every other bit passes through. */
  function CheckStyle(style: bv32): (r: bv32)
    ensures r & !SCROLL == style & !SCROLL
    ensures (r & H_SCROLL != 0) <==> style & NO_SCROLL == 0 || style & H_SCROLL != 0
    ensures (r & V_SCROLL != 0) <==> style & NO_SCROLL == 0 || style & V_SCROLL != 0
  {
    if style & NO_SCROLL == 0 then style | SCROLL else style
  }

  lemma CheckStyleIdempotent(style: bv32)
    ensures CheckStyle(CheckStyle(style)) == CheckStyle(style)
  {
  }

  // Items and the `lastIndexOf` cache.

  /** Position of the last occurrence of `x`, or -1: the backward search loop. */
  function LastIndexOf<T(==)>(s: seq<T>, x: T): (r: int)
    ensures -1 <= r < |s|
    ensures r == -1 <==> x !in s
    ensures r >= 0 ==> s[r] == x && x !in s[r + 1..]
  {
    if |s| == 0 then -1
    else if s[|s| - 1] == x then |s| - 1
    else
      var r := LastIndexOf(s[..|s| - 1], x);
      assert s == s[..|s| - 1] + [s[|s| - 1]];
      assert r >= 0 ==> s[r + 1..] == s[..|s| - 1][r + 1..] + [s[|s| - 1]];
      r
  }

  /** The answer of `indexOf(item)` and the value `lastIndexOf` has afterwards. */
  datatype Lookup = Lookup(index: int, cache: int)

  /** `indexOf(item)` with the cache `lastIndexOf`: the cached slot and its
      two neighbours are tried first, then a full search runs forwards or
      backwards depending on which half the cache points into. A hit moves
      the cache to the hit; a miss leaves it alone. */
  function IndexOfItem(items: seq<ItemId>, item: Option<ItemId>, cache: int): (r: Result<Lookup>)
    ensures item.None? <==> r == Err(SwtFault(ERROR_NULL_ARGUMENT))
    ensures r.Ok? ==> -1 <= r.value.index < |items|
    ensures r.Ok? ==> (r.value.index == -1 <==> item.value !in items)
    ensures r.Ok? && r.value.index >= 0 ==> items[r.value.index] == item.value && r.value.cache == r.value.index
    ensures r.Ok? && r.value.index == -1 ==> r.value.cache == cache
  {
    if item.None? then Err(SwtFault(ERROR_NULL_ARGUMENT))
    else
      var x := item.value;
      var count := |items|;
      var near := 1 <= cache < count - 1;
      if near && items[cache] == x then Ok(Lookup(cache, cache))
      else if near && items[cache + 1] == x then Ok(Lookup(cache + 1, cache + 1))
      else if near && items[cache - 1] == x then Ok(Lookup(cache - 1, cache - 1))
      else
        var i := if cache < count / 2 then IndexOf(items, x) else LastIndexOf(items, x);
        if i == -1 then Ok(Lookup(-1, cache)) else Ok(Lookup(i, i))
  }

  /** Items are distinct objects, so the cache only changes the speed of
      `indexOf`, never its answer: it is the item's one position, or -1. */
  lemma IndexOfItemIgnoresCache(items: seq<ItemId>, item: ItemId, cache: int)
    requires Distinct(items)
    ensures IndexOfItem(items, Some(item), cache).Ok?
    ensures IndexOfItem(items, Some(item), cache).value.index == IndexOf(items, item)
  {
    var r := IndexOfItem(items, Some(item), cache).value.index;
    var s := IndexOf(items, item);
    if r >= 0 {
      assert items[r] == items[s];
    }
  }

  /** `createItem(item, index)`: an index in 0..length; at the end the array
      grows by one, anywhere else the slot is overwritten (the
      platform-side insertion is not part of this class). */
  function CreateItem(items: seq<ItemId>, item: ItemId, index: int): (r: Result<seq<ItemId>>)
    ensures !(0 <= index <= |items|) <==> r == Err(SwtFault(ERROR_INVALID_RANGE))
    ensures r.Ok? ==> |r.value| == if index == |items| then |items| + 1 else |items|
    ensures r.Ok? ==> r.value[index] == item
    ensures r.Ok? ==> forall i :: 0 <= i < |items| && i != index ==> r.value[i] == items[i]
  {
    if index < 0 || index > |items| then Err(SwtFault(ERROR_INVALID_RANGE))
    else if index == |items| then Ok(items + [item])
    else Ok(items[index := item])
  }

  /** A new item added at the end of distinct items is found where it was
      put, whatever the cache holds. */
  lemma CreateItemThenIndexOf(items: seq<ItemId>, item: ItemId, cache: int)
    requires Distinct(items) && item !in items
    ensures CreateItem(items, item, |items|).Ok?
    ensures IndexOfItem(CreateItem(items, item, |items|).value, Some(item), cache).value.index == |items|
  {
    var grown := CreateItem(items, item, |items|).value;
    assert grown == items + [item];
    assert Distinct(grown);
    IndexOfItemIgnoresCache(grown, item, cache);
    IndexOfDistinct(grown, |items|);
  }

  // Columns: an array with spare capacity, of which the first `count`
  // slots are in use.

  datatype Columns = Columns(slots: seq<Option<ColumnId>>, count: nat)

  /** The capacity added when the column array is full. */
  const GROWTH: nat := 4

  /** `createWidget()`: room for four columns, none in use. */
  const INITIAL_COLUMNS: Columns := Columns([None, None, None, None], 0)

  /** The slots in use hold columns and the spare slots hold null. */
  predicate Packed(c: Columns) {
    && c.count <= |c.slots|
    && (forall i :: 0 <= i < c.count ==> c.slots[i].Some?)
    && (forall i :: c.count <= i < |c.slots| ==> c.slots[i].None?)
  }

  /** The columns in creation order. */
  function Live(c: Columns): (r: seq<ColumnId>)
    requires Packed(c)
    ensures |r| == c.count
    ensures forall i :: 0 <= i < c.count ==> c.slots[i] == Some(r[i])
  {
    seq(c.count, i requires 0 <= i < c.count => c.slots[i].value)
  }

  /** `createItem(column, index)`: an index in 0..columnCount; a full array
      first grows by GROWTH; the columns from `index` on shift right by one. */
  function CreateColumn(c: Columns, column: ColumnId, index: int): (r: Result<Columns>)
    requires c.count <= |c.slots|
    ensures !(0 <= index <= c.count) <==> r == Err(SwtFault(ERROR_INVALID_RANGE))
    ensures r.Ok? ==> r.value.count == c.count + 1
    ensures r.Ok? ==> |r.value.slots| == if c.count == |c.slots| then |c.slots| + GROWTH else |c.slots|
    ensures r.Ok? ==> r.value.slots[..r.value.count] == c.slots[..index] + [Some(column)] + c.slots[index..c.count]
    ensures r.Ok? ==> forall i :: r.value.count <= i < |c.slots| ==> r.value.slots[i] == c.slots[i]
    ensures r.Ok? ==> forall i :: r.value.count <= i < |r.value.slots| && |c.slots| <= i ==> r.value.slots[i].None?
  {
    if !(0 <= index <= c.count) then Err(SwtFault(ERROR_INVALID_RANGE))
    else
      var grown := if c.count == |c.slots| then c.slots + seq(GROWTH, _ => None) else c.slots;
      var slots := grown[..index] + [Some(column)] + grown[index..c.count] + grown[c.count + 1..];
      assert slots[..c.count + 1] == grown[..index] + [Some(column)] + grown[index..c.count];
      assert forall i :: c.count + 1 <= i < |slots| ==> slots[i] == grown[i];
      Ok(Columns(slots, c.count + 1))
  }

  /** Inserting keeps the array packed and puts the column at `index` of
      the columns in creation order. */
  lemma CreateColumnPacked(c: Columns, column: ColumnId, index: int)
    requires Packed(c) && 0 <= index <= c.count
    ensures CreateColumn(c, column, index).Ok?
    ensures Packed(CreateColumn(c, column, index).value)
    ensures Live(CreateColumn(c, column, index).value) == Live(c)[..index] + [column] + Live(c)[index..]
  {
    var r := CreateColumn(c, column, index).value;
    var live := Live(c)[..index] + [column] + Live(c)[index..];
    assert r.slots[..r.count] == c.slots[..index] + [Some(column)] + c.slots[index..c.count];
    forall i | 0 <= i < r.count
      ensures r.slots[i] == Some(live[i])
    {
      assert r.slots[i] == r.slots[..r.count][i];
      if i < index {
        assert r.slots[i] == c.slots[i];
      } else if i > index {
        assert r.slots[i] == c.slots[i - 1];
      }
    }
  }

  /** The order an array of column indices takes when column `gone` goes:
      `gone` is dropped and every larger index moves down by one. */
  function Renumber(s: seq<int>, gone: int): (r: seq<int>)
    ensures |r| == |s|
    ensures forall i :: 0 <= i < |s| ==> r[i] == if s[i] <= gone then s[i] else s[i] - 1
  {
    seq(|s|, i requires 0 <= i < |s| => if s[i] <= gone then s[i] else s[i] - 1)
  }

  /** The loop of `destroyItem(column)` that builds the new column order. */
  function DropFromOrder(order: seq<int>, gone: int): (r: seq<int>)
    ensures |r| <= |order|
    ensures gone !in order ==> r == Renumber(order, gone)
  {
    if |order| == 0 then []
    else
      var rest := DropFromOrder(order[1..], gone);
      if order[0] == gone then rest
      else
        assert order == [order[0]] + order[1..];
        RenumberCons(order[0], order[1..], gone);
        [if order[0] <= gone then order[0] else order[0] - 1] + rest
  }

  /** Where `gone` occurs exactly once, at `p`, the loop keeps the other
      entries in their display order and renumbers them. */
  lemma {:induction false} DropFromOrderAt(order: seq<int>, gone: int, p: int)
    requires 0 <= p < |order| && order[p] == gone
    requires gone !in order[..p] && gone !in order[p + 1..]
    ensures DropFromOrder(order, gone) == Renumber(order[..p] + order[p + 1..], gone)
  {
    if p == 0 {
      assert order[1..] == order[p + 1..];
    } else {
      var tail := order[1..p] + order[p + 1..];
      var head := if order[0] <= gone then order[0] else order[0] - 1;
      DropFromOrderShift(order, gone, p);
      DropFromOrderAt(order[1..], gone, p - 1);
      RenumberCons(order[0], tail, gone);
      SpliceCons(order, p);
      calc {
        DropFromOrder(order, gone);
        [head] + DropFromOrder(order[1..], gone);
        [head] + Renumber(order[1..][..p - 1] + order[1..][p..], gone);
        [head] + Renumber(tail, gone);
        Renumber([order[0]] + tail, gone);
        Renumber(order[..p] + order[p + 1..], gone);
      }
    }
  }

  /** The facts about `order[1..]` that the induction of `DropFromOrderAt` needs. */
  lemma DropFromOrderShift(order: seq<int>, gone: int, p: int)
    requires 0 < p < |order| && order[p] == gone
    requires gone !in order[..p] && gone !in order[p + 1..]
    ensures order[0] != gone
    ensures order[1..][p - 1] == gone
    ensures order[1..][..p - 1] == order[1..p] && order[1..][p..] == order[p + 1..]
    ensures gone !in order[1..][..p - 1] && gone !in order[1..][p..]
    ensures DropFromOrder(order, gone) == [if order[0] <= gone then order[0] else order[0] - 1] + DropFromOrder(order[1..], gone)
  {
    assert order[0] == order[..p][0];
    assert order[..p] == [order[0]] + order[1..p];
    assert order[1..][..p - 1] == order[1..p];
  }

  lemma SpliceCons(order: seq<int>, p: int)
    requires 0 < p < |order|
    ensures order[..p] + order[p + 1..] == [order[0]] + (order[1..p] + order[p + 1..])
  {
    assert order[..p] == [order[0]] + order[1..p];
  }

  lemma RenumberCons(x: int, t: seq<int>, gone: int)
    ensures Renumber([x] + t, gone) == [if x <= gone then x else x - 1] + Renumber(t, gone)
  {
    var l := Renumber([x] + t, gone);
    var r := [if x <= gone then x else x - 1] + Renumber(t, gone);
    forall i | 0 <= i < |l| ensures l[i] == r[i] {
      if i > 0 { assert ([x] + t)[i] == t[i - 1]; }
    }
  }

  /** Dropping a column from a permutation of the column indices gives a
      permutation of the remaining indices. */
  lemma DropFromOrderPermutation(order: seq<int>, n: int, gone: int)
    requires IsPermutation(order, n) && 0 <= gone < n
    ensures gone in order
    ensures var p := IndexOf(order, gone);
            DropFromOrder(order, gone) == Renumber(order[..p] + order[p + 1..], gone)
    ensures IsPermutation(DropFromOrder(order, gone), n - 1)
  {
    PermutationCovers(order, n, gone);
    var p := IndexOf(order, gone);
    assert gone !in order[p + 1..] by {
      forall k | p + 1 <= k < |order| ensures order[k] != gone {
        assert order[p] == gone;
      }
    }
    DropFromOrderAt(order, gone, p);
    RemoveDistinct(order, p);
    RenumberPermutation(order[..p] + order[p + 1..], n, gone);
  }

  /** Renumbering distinct indices below `n`, none of them `gone`, gives
      distinct indices below `n - 1`. */
  lemma RenumberPermutation(rest: seq<int>, n: int, gone: int)
    requires |rest| == n - 1 && Distinct(rest) && 0 <= gone < n && gone !in rest
    requires forall i :: 0 <= i < |rest| ==> 0 <= rest[i] < n
    ensures IsPermutation(Renumber(rest, gone), n - 1)
  {
    var r := Renumber(rest, gone);
    forall i | 0 <= i < |r| ensures 0 <= r[i] < n - 1 {
      assert rest[i] != gone;
    }
    forall i, j | 0 <= i < j < |r| ensures r[i] != r[j] {
      assert rest[i] != rest[j];
      assert rest[i] != gone && rest[j] != gone;
    }
  }

  /** What `destroyItem(column)` leaves: the columns, the new display
      order, and the columns sent a Move event. */
  datatype Removal = Removal(columns: Columns, order: seq<int>, moved: seq<ColumnId>)

  /** `columns` with the slot at `index` removed and a null added at the
      end of the slots in use: the array compaction of `destroyItem`. */
  function Compact(c: Columns, index: int): (r: Columns)
    requires Packed(c) && 0 <= index < c.count
    ensures Packed(r) && r.count == c.count - 1 && |r.slots| == |c.slots|
    ensures Live(r) == Live(c)[..index] + Live(c)[index + 1..]
    ensures r.slots[r.count] == None
  {
    var slots := c.slots[..index] + c.slots[index + 1..c.count] + [None] + c.slots[c.count..];
    var r := Columns(slots, c.count - 1);
    assert forall i :: 0 <= i < index ==> slots[i] == c.slots[i];
    assert forall i :: index <= i < c.count - 1 ==> slots[i] == c.slots[i + 1];
    assert forall i :: c.count <= i < |slots| ==> slots[i] == c.slots[i];
    r
  }

  /** `destroyItem(column)` as the platform code intends it, given the
      display order the native header reports (`order`, a permutation of
      the column indices). The column goes from the array, the order
      loses it and is renumbered, and every column displayed after it
      receives a Move event. A column that is not in the table makes the
      compaction copy a negative length. */
  function DestroyColumn(c: Columns, order: seq<int>, column: ColumnId): (r: Result<Removal>)
    requires Packed(c) && IsPermutation(order, c.count)
    ensures column !in Live(c) <==> r == Err(IndexOutOfBounds)
    ensures r.Ok? ==> var k := IndexOf(Live(c), column);
              && Packed(r.value.columns)
              && Live(r.value.columns) == Live(c)[..k] + Live(c)[k + 1..]
              && |r.value.columns.slots| == |c.slots|
              && r.value.columns.slots[r.value.columns.count] == None
    ensures r.Ok? ==> IsPermutation(r.value.order, r.value.columns.count)
  {
    var index := IndexOf(Live(c), column);
    if index == -1 then Err(IndexOutOfBounds)
    else
      var after := Compact(c, index);
      DropFromOrderPermutation(order, c.count, index);
      var orderIndex := IndexOf(order, index);
      var newOrder := DropFromOrder(order, index);
      if after.count == 0 then
        Ok(Removal(after, [], []))
      else
        Ok(Removal(after, newOrder, Moved(Live(after), newOrder, orderIndex)))
  }

  /** The columns displayed from position `from` of `order` on. */
  function Moved(live: seq<ColumnId>, order: seq<int>, from: int): (m: seq<ColumnId>)
    requires 0 <= from <= |order| && forall i :: 0 <= i < |order| ==> 0 <= order[i] < |live|
    ensures |m| == |order| - from
    ensures forall j :: 0 <= j < |m| ==> m[j] == live[order[from + j]]
  {
    seq(|order| - from, j requires 0 <= j < |order| - from => live[order[from + j]])
  }

  /** The display order after a removal is the old one without the removed
      column, renumbered. */
  lemma DestroyColumnOrder(c: Columns, order: seq<int>, column: ColumnId)
    requires Packed(c) && IsPermutation(order, c.count) && column in Live(c)
    ensures var r := DestroyColumn(c, order, column).value;
            var k := IndexOf(Live(c), column);
            var p := IndexOf(order, k);
            && 0 <= p < |order|
            && r.order == Renumber(order[..p] + order[p + 1..], k)
            && IsPermutation(r.order, c.count - 1)
  {
    var k := IndexOf(Live(c), column);
    var p := IndexOf(order, k);
    DropFromOrderPermutation(order, c.count, k);
    if c.count == 1 {
      assert |order| == 1 && p == 0;
      assert Renumber(order[..p] + order[p + 1..], k) == [];
    }
  }

  /** Exactly the columns displayed after the removed one get a Move event,
      in display order. */
  lemma DestroyColumnMoves(c: Columns, order: seq<int>, column: ColumnId)
    requires Packed(c) && IsPermutation(order, c.count) && column in Live(c)
    ensures var r := DestroyColumn(c, order, column).value;
            var p := IndexOf(order, IndexOf(Live(c), column));
            && 0 <= p && |r.moved| == |r.order| - p
            && (forall j :: 0 <= j < |r.moved| ==> r.moved[j] == Live(r.columns)[r.order[p + j]])
  {
    var k := IndexOf(Live(c), column);
    DropFromOrderPermutation(order, c.count, k);
    PermutationCovers(order, c.count, k);
  }

  /** A column created and then destroyed leaves the other columns as they
      were, in creation order. */
  lemma CreateThenDestroyColumn(c: Columns, column: ColumnId, index: int, order: seq<int>)
    requires Packed(c) && column !in Live(c) && 0 <= index <= c.count
    requires IsPermutation(order, c.count + 1)
    ensures CreateColumn(c, column, index).Ok?
    ensures var d := CreateColumn(c, column, index).value;
            Packed(d) && DestroyColumn(d, order, column).Ok?
            && Live(DestroyColumn(d, order, column).value.columns) == Live(c)
  {
    CreateColumnPacked(c, column, index);
    var d := CreateColumn(c, column, index).value;
    var live := Live(d);
    assert live == Live(c)[..index] + [column] + Live(c)[index..];
    assert live[index] == column;
    assert column !in Live(c)[..index] by {
      assert forall k :: 0 <= k < index ==> Live(c)[..index][k] == Live(c)[k];
    }
    assert live[..index] == Live(c)[..index];
    assert IndexOf(live, column) == index;
    assert live[index + 1..] == Live(c)[index..];
    assert Live(c)[..index] + Live(c)[index..] == Live(c);
  }

  /** `destroyItem(column)` as written. The display order it starts from is
      a fresh `int[columnCount]` (all zero, as `getColumnOrder` returns
      too), so the search for the removed index succeeds only for index 0
      and otherwise stops one past the end; reading that entry throws
      whenever columns remain. For index 0 every renumbered entry is 0, so
      the first remaining column receives every Move event. */
  function DestroyColumnAsWritten(c: Columns, column: ColumnId): (r: Result<Removal>)
    requires Packed(c)
    ensures column !in Live(c) ==> r == Err(IndexOutOfBounds)
    ensures column in Live(c) ==> (r.Ok? <==> c.count == 1 || Live(c)[0] == column)
  {
    var index := IndexOf(Live(c), column);
    if index == -1 then Err(IndexOutOfBounds)
    else
      var oldOrder := seq(c.count, _ => 0);
      var found := IndexOf(oldOrder, index);
      var orderIndex := if found == -1 then c.count else found;
      var after := Compact(c, index);
      if after.count == 0 then Ok(Removal(after, [], []))
      else if orderIndex >= |oldOrder| then Err(IndexOutOfBounds)
      else
        var newOrder := seq(after.count, _ => 0);
        var live := Live(after);
        Ok(Removal(after, newOrder, seq(after.count - orderIndex, _ => live[0])))
  }

  /** Removing the second of two columns: the code as written throws,
      while the intended removal leaves the first column in place. */
  lemma DestroyColumnAsWrittenThrows()
    ensures DestroyColumnAsWritten(Columns([Some(7), Some(8), None, None], 2), 8) == Err(IndexOutOfBounds)
    ensures DestroyColumn(Columns([Some(7), Some(8), None, None], 2), [0, 1], 8).Ok?
    ensures Live(DestroyColumn(Columns([Some(7), Some(8), None, None], 2), [0, 1], 8).value.columns) == [7]
  {
    var c := Columns([Some(7), Some(8), None, None], 2);
    assert Live(c) == [7, 8];
    assert IndexOf([7, 8], 8) == 1;
    assert IsPermutation([0, 1], 2);
  }

  // Column order.

  /** `setColumnOrder(order)`, returning the stored `columnOrder`. With no
      columns only an empty order is accepted, and nothing is stored;
      otherwise the order must have one entry per column, the first entry
      out of range is an INVALID_RANGE and the first repeated entry an
      INVALID_ARGUMENT. */
  function SetColumnOrder(count: nat, stored: seq<int>, order: Option<seq<int>>): (r: Result<seq<int>>)
    ensures order.None? ==> r == Err(SwtFault(ERROR_NULL_ARGUMENT))
    ensures order.Some? && count == 0 ==>
              r == if |order.value| == 0 then Ok(stored) else Err(SwtFault(ERROR_INVALID_ARGUMENT))
    ensures order.Some? && count > 0 ==> (r.Ok? <==> IsPermutation(order.value, count))
    ensures order.Some? && count > 0 && r.Ok? ==> r.value == order.value
    ensures r == Err(SwtFault(ERROR_INVALID_RANGE)) ==>
              exists i :: 0 <= i < |order.value| && !(0 <= order.value[i] < count)
    ensures order.Some? && count > 0 && |order.value| == count && Distinct(order.value)
              && (exists i :: 0 <= i < |order.value| && !(0 <= order.value[i] < count)) ==>
              r == Err(SwtFault(ERROR_INVALID_RANGE))
    ensures (order.Some? && count > 0 && !Distinct(order.value) &&
             forall i :: 0 <= i < |order.value| ==> 0 <= order.value[i] < count) ==>
              r == Err(SwtFault(ERROR_INVALID_ARGUMENT))
    ensures order.Some? && count > 0 && |order.value| != count ==> r == Err(SwtFault(ERROR_INVALID_ARGUMENT))
    // an order with both kinds of bad entry throws for the first one
    ensures order.Some? && count > 0 && |order.value| == count ==>
              forall p :: 0 <= p < count && GoodBetween(order.value, count, 0, p) ==>
                (!(0 <= order.value[p] < count) ==> r == Err(SwtFault(ERROR_INVALID_RANGE))) &&
                (order.value[p] in order.value[..p] ==> r == Err(SwtFault(ERROR_INVALID_ARGUMENT)))
  {
    if order.None? then Err(SwtFault(ERROR_NULL_ARGUMENT))
    else if count == 0 then
      if |order.value| != 0 then Err(SwtFault(ERROR_INVALID_ARGUMENT)) else Ok(stored)
    else if |order.value| != count then Err(SwtFault(ERROR_INVALID_ARGUMENT))
    else
      var bad := FirstBadEntry(order.value, count);
      if bad.None? then Ok(order.value)
      else if bad.value.OutOfRange? then Err(SwtFault(ERROR_INVALID_RANGE))
      else Err(SwtFault(ERROR_INVALID_ARGUMENT))
  }

  /** With three columns, `[0, 0, 7]` repeats before it leaves the range and
      `[7, 0, 0]` leaves the range before it repeats. */
  lemma SetColumnOrderFirstBadWins()
    ensures SetColumnOrder(3, [], Some([0, 0, 7])) == Err(SwtFault(ERROR_INVALID_ARGUMENT))
    ensures SetColumnOrder(3, [], Some([7, 0, 0])) == Err(SwtFault(ERROR_INVALID_RANGE))
  {
    assert GoodBetween([0, 0, 7], 3, 0, 1);
    assert [0, 0, 7][..1] == [0];
    assert GoodBetween([7, 0, 0], 3, 0, 0);
  }

  // Selection.

  /** The receiver was created with SINGLE. */
  predicate Single(style: bv32) {
    style & SINGLE != 0
  }

  /** An index list `select(int[])` and `setSelection(int[])` ignore. */
  predicate Ignored(style: bv32, length: int) {
    length == 0 || (Single(style) && length > 1)
  }

  /** A SINGLE table never holds more than one selected index. */
  predicate SingleSelection(style: bv32, selection: seq<int>) {
    Single(style) ==> |selection| <= 1
  }

  /** `getSelectionIndex()`: the first selected index, or -1. */
  function GetSelectionIndex(selection: seq<int>): (r: int)
    ensures |selection| == 0 ==> r == -1
    ensures |selection| > 0 ==> r == selection[0]
  {
    if |selection| > 0 then selection[0] else -1
  }

  /** `deselectAll()`. */
  function DeselectAll(selection: seq<int>): (r: seq<int>)
    ensures |r| == 0
  {
    []
  }

  /** `select(int[] indices)`: the indices replace the selection as given,
      unless the array is empty or SINGLE forbids it. */
  function Select(style: bv32, selection: seq<int>, indices: Option<seq<int>>): (r: Result<seq<int>>)
    ensures indices.None? <==> r == Err(SwtFault(ERROR_NULL_ARGUMENT))
    ensures indices.Some? && Ignored(style, |indices.value|) ==> r == Ok(selection)
    ensures indices.Some? && !Ignored(style, |indices.value|) ==> r == Ok(indices.value)
  {
    if indices.None? then Err(SwtFault(ERROR_NULL_ARGUMENT))
    else if |indices.value| == 0 || (Single(style) && |indices.value| > 1) then Ok(selection)
    else Ok(indices.value)
  }

  /** `select(int index)`: a negative index is ignored. */
  function SelectIndex(selection: seq<int>, index: int): (r: seq<int>)
    ensures index < 0 ==> r == selection
    ensures index >= 0 ==> r == [index]
  {
    if index < 0 then selection else [index]
  }

  /** `select(start, end)` as written: the new selection is built from
      `start` before `start` is clamped at 0, so a range that begins below
      0 selects its negative start. */
  function SelectRangeAsWritten(style: bv32, selection: seq<int>, start: int, end: int): (r: seq<int>)
    ensures end < 0 || start > end || (Single(style) && start != end) ==> r == selection
    ensures !(end < 0 || start > end || (Single(style) && start != end)) ==> r == [start]
  {
    var newValue := [start];
    if end < 0 || start > end || (Single(style) && start != end) then selection
    else
      var clamped := if 0 > start then 0 else start;
      newValue
  }

  /** `select(start, end)` with the clamp applied: an empty, negative or
      (under SINGLE) multi-item range is ignored, and otherwise the range's
      first index that can exist is selected. */
  function SelectRange(style: bv32, selection: seq<int>, start: int, end: int): (r: seq<int>)
    ensures end < 0 || start > end || (Single(style) && start != end) ==> r == selection
    ensures !(end < 0 || start > end || (Single(style) && start != end)) ==>
              |r| == 1 && 0 <= r[0] <= end && (start >= 0 ==> r[0] == start)
  {
    if end < 0 || start > end || (Single(style) && start != end) then selection
    else [if 0 > start then 0 else start]
  }

  /** `select(-3, 2)`: the code as written selects index -3, which
      `getSelectionIndex` then reports; the clamped version selects 0. */
  lemma SelectRangeAsWrittenNegative()
    ensures GetSelectionIndex(SelectRangeAsWritten(MULTI, [], -3, 2)) == -3
    ensures GetSelectionIndex(SelectRange(MULTI, [], -3, 2)) == 0
  {
  }

  /** `setSelection(int[] indices)`: the selection is cleared, then the
      indices are selected unless ignored. */
  function SetSelection(style: bv32, selection: seq<int>, indices: Option<seq<int>>): (r: Result<seq<int>>)
    ensures indices.None? <==> r == Err(SwtFault(ERROR_NULL_ARGUMENT))
    ensures r.Ok? ==> r.value == if Ignored(style, |indices.value|) then [] else indices.value
  {
    if indices.None? then Err(SwtFault(ERROR_NULL_ARGUMENT))
    else
      var cleared := DeselectAll(selection);
      if Ignored(style, |indices.value|) then Ok(cleared)
      else Select(style, cleared, indices)
  }

  /** `setSelection(int index)`. */
  function SetSelectionIndex(selection: seq<int>, index: int): (r: seq<int>)
    ensures index < 0 ==> r == []
    ensures index >= 0 ==> r == [index]
  {
    SelectIndex(DeselectAll(selection), index)
  }

  /** `setSelection(start, end)`: cleared, then the clamped range is
      selected unless it is empty, negative or (under SINGLE) several items. */
  function SetSelectionRange(style: bv32, selection: seq<int>, start: int, end: int): (r: seq<int>)
    ensures end < 0 || start > end || (Single(style) && start != end) ==> r == []
    ensures !(end < 0 || start > end || (Single(style) && start != end)) ==>
              r == [if start < 0 then 0 else start]
  {
    var cleared := DeselectAll(selection);
    if end < 0 || start > end || (Single(style) && start != end) then cleared
    else SelectRangeAsWritten(style, cleared, if 0 > start then 0 else start, end)
  }

  /** The position of the first entry of `given[lo..k]` that is a
      non-null item of the table, or -1. */
  ghost function FirstPresent(items: seq<ItemId>, given: seq<Option<ItemId>>, lo: nat, k: nat): (f: int)
    requires lo <= k <= |given|
    ensures f == -1 || lo <= f < k
    ensures f >= 0 ==> given[f].Some? && given[f].value in items
    ensures forall j :: lo <= j < k && (f == -1 || j < f) ==> !(given[j].Some? && given[j].value in items)
    decreases k - lo
  {
    if k == lo then -1
    else
      var f := FirstPresent(items, given, lo, k - 1);
      if f != -1 then f
      else if given[k - 1].Some? && given[k - 1].value in items then k - 1
      else -1
  }

  /** The position of the last null entry of `given[..k]`, or -1. */
  ghost function LastNull(given: seq<Option<ItemId>>, k: nat): (n: int)
    requires k <= |given|
    ensures -1 <= n < k
    ensures n >= 0 ==> given[n].None?
    ensures forall j :: n < j < k ==> given[j].Some?
  {
    if k == 0 then -1
    else if given[k - 1].None? then k - 1
    else LastNull(given, k - 1)
  }

  /** The selection and `lastIndexOf` cache a selection setter leaves
      behind, and the fault it threw, if any. */
  datatype Selected = Selected(selection: seq<int>, cache: int, fault: Option<Fault>)

  /** The state after the loop of `setSelection(TableItem[])` has looked up
      `given[k - 1]` down to `given[0]`, each item found replacing the
      selection with its index and moving the cache there. A null entry
      makes `indexOf` throw, with the work on the later entries done: the
      outcome is that of the entries after the last null one. */
  function SelectItemsDown(items: seq<ItemId>, given: seq<Option<ItemId>>, k: nat, selection: seq<int>, cache: int): (r: Selected)
    requires k <= |given|
    ensures r.fault.Some? <==> exists j :: 0 <= j < k && given[j].None?
    ensures r.fault.Some? ==> r.fault == Some(SwtFault(ERROR_NULL_ARGUMENT))
    ensures var f := FirstPresent(items, given, LastNull(given, k) + 1, k);
            && (f == -1 ==> r.selection == selection && r.cache == cache)
            && (f >= 0 ==> |r.selection| == 1 && 0 <= r.selection[0] < |items|
                           && items[r.selection[0]] == given[f].value && r.cache == r.selection[0])
  {
    if k == 0 then Selected(selection, cache, None)
    else
      match IndexOfItem(items, given[k - 1], cache)
      case Err(e) => Selected(selection, cache, Some(e))
      case Ok(found) =>
        var next := if found.index != -1 then SelectIndex(selection, found.index) else selection;
        SelectItemsDown(items, given, k - 1, next, found.cache)
  }

  /** `setSelection(TableItem[] items)`: a null array is refused before
      anything changes; otherwise the selection is cleared, and ends up
      holding the position of the first listed item in the table after the
      last null entry, or nothing. */
  function SetSelectionItems(style: bv32, items: seq<ItemId>, cache: int, selection: seq<int>, given: Option<seq<Option<ItemId>>>): (r: Selected)
    ensures given.None? ==> r == Selected(selection, cache, Some(SwtFault(ERROR_NULL_ARGUMENT)))
    ensures given.Some? && Ignored(style, |given.value|) ==> r == Selected([], cache, None)
    ensures given.Some? && !Ignored(style, |given.value|) ==>
              (r.fault.Some? <==> exists j :: 0 <= j < |given.value| && given.value[j].None?)
    ensures r.fault.Some? ==> r.fault == Some(SwtFault(ERROR_NULL_ARGUMENT))
    ensures given.Some? ==> |r.selection| <= 1
    ensures given.Some? && !Ignored(style, |given.value|) ==>
              var f := FirstPresent(items, given.value, LastNull(given.value, |given.value|) + 1, |given.value|);
              && (f == -1 ==> r.selection == [] && r.cache == cache)
              && (f >= 0 ==> |r.selection| == 1 && 0 <= r.selection[0] < |items|
                             && items[r.selection[0]] == given.value[f].value
                             && r.cache == r.selection[0])
  {
    if given.None? then Selected(selection, cache, Some(SwtFault(ERROR_NULL_ARGUMENT)))
    else
      var cleared := DeselectAll(selection);
      if Ignored(style, |given.value|) then Selected(cleared, cache, None)
      else SelectItemsDown(items, given.value, |given.value|, cleared, cache)
  }

  /** With distinct items and no null entry the selection is exactly the
      table position of the first listed item present, whatever the cache
      held. */
  lemma SetSelectionItemsDistinct(style: bv32, items: seq<ItemId>, cache: int, selection: seq<int>, given: seq<Option<ItemId>>)
    requires Distinct(items) && !Ignored(style, |given|)
    requires forall j :: 0 <= j < |given| ==> given[j].Some?
    ensures SetSelectionItems(style, items, cache, selection, Some(given)).fault.None?
    ensures var f := FirstPresent(items, given, 0, |given|);
            SetSelectionItems(style, items, cache, selection, Some(given)).selection
              == if f == -1 then [] else [IndexOf(items, given[f].value)]
  {
    var r := SetSelectionItems(style, items, cache, selection, Some(given));
    assert LastNull(given, |given|) == -1;
    var f := FirstPresent(items, given, 0, |given|);
    if f >= 0 {
      var i := r.selection[0];
      var s := IndexOf(items, given[f].value);
      assert items[i] == items[s];
      assert r.selection == [i];
    }
  }

  /** A null entry in front of an item of the table: `setSelection` throws,
      but only after it has selected that item and moved the cache to it. */
  lemma SetSelectionItemsNullAfterSelect(style: bv32, items: seq<ItemId>, cache: int, selection: seq<int>, x: ItemId)
    requires x in items && !Single(style)
    ensures var r := SetSelectionItems(style, items, cache, selection, Some([None, Some(x)]));
            && r.fault == Some(SwtFault(ERROR_NULL_ARGUMENT))
            && |r.selection| == 1 && items[r.selection[0]] == x && r.cache == r.selection[0]
  {
    var given := [None, Some(x)];
    assert LastNull(given, 2) == 0;
    assert FirstPresent(items, given, 1, 2) == 1;
  }

  /** `setSelection(TableItem item)`: null is refused before anything
      changes; otherwise a single-item list. */
  function SetSelectionItem(style: bv32, items: seq<ItemId>, cache: int, selection: seq<int>, item: Option<ItemId>): (r: Selected)
    ensures item.None? <==> r.fault.Some?
    ensures item.None? ==> r == Selected(selection, cache, Some(SwtFault(ERROR_NULL_ARGUMENT)))
    ensures item.Some? && item.value in items ==>
              |r.selection| == 1 && 0 <= r.selection[0] < |items| && items[r.selection[0]] == item.value
    ensures item.Some? && item.value !in items ==> r.selection == [] && r.cache == cache
  {
    if item.None? then Selected(selection, cache, Some(SwtFault(ERROR_NULL_ARGUMENT)))
    else
      var r := SetSelectionItems(style, items, cache, selection, Some([item]));
      assert LastNull([item], 1) == -1;
      assert FirstPresent(items, [item], 0, 1) == (if item.value in items then 0 else -1);
      r
  }

  /** `getSelectionIndex` reads back what the setters chose. */
  lemma SetSelectionThenGetSelectionIndex(style: bv32, selection: seq<int>, indices: seq<int>, index: int, start: int, end: int)
    ensures GetSelectionIndex(SetSelection(style, selection, Some(indices)).value)
              == if Ignored(style, |indices|) then -1 else indices[0]
    ensures GetSelectionIndex(SetSelectionIndex(selection, index)) == if index < 0 then -1 else index
    ensures GetSelectionIndex(SetSelectionRange(style, selection, start, end))
              == if end < 0 || start > end || (Single(style) && start != end) then -1
                 else if start < 0 then 0 else start
  {
  }

  /** Every selection setter keeps a SINGLE table at one selected index at most. */
  lemma SelectionKeepsSingle(style: bv32, selection: seq<int>, indices: seq<int>, index: int, start: int, end: int)
    requires SingleSelection(style, selection)
    ensures SingleSelection(style, Select(style, selection, Some(indices)).value)
    ensures SingleSelection(style, SelectIndex(selection, index))
    ensures SingleSelection(style, SelectRange(style, selection, start, end))
    ensures SingleSelection(style, SetSelection(style, selection, Some(indices)).value)
    ensures SingleSelection(style, SetSelectionRange(style, selection, start, end))
  {
  }

  // Deferred resizing.

  /** `resizeCount` (the nesting depth), `wasResized` (a resize arrived
      while deferred) and the control's `drawCount`. */
  datatype Deferral = Deferral(resizeCount: int, wasResized: bool, drawCount: int)

  datatype DeferStep = DeferStep(state: Deferral, resizeSent: bool)

  /** `setDeferResize(defer)` as written, where `hooked` says whether a
      MeasureItem, EraseItem or PaintItem listener is registered. Entering
      the outermost level clears `wasResized`; leaving it sends the one
      Resize event owed, and with a custom-draw listener decrements
      `drawCount`, which was never incremented. */
  function SetDeferResizeAsWritten(d: Deferral, defer: bool, hooked: bool): (r: DeferStep)
    ensures defer ==> r.state.resizeCount == d.resizeCount + 1 && r.state.drawCount == d.drawCount
    ensures !defer ==> r.state.resizeCount == d.resizeCount - 1
    ensures !defer ==> r.state.drawCount == if hooked && d.resizeCount == 1 then d.drawCount - 1 else d.drawCount
    ensures r.resizeSent <==> !defer && d.resizeCount == 1 && d.wasResized
  {
    if defer then
      if d.resizeCount == 0 then DeferStep(d.(resizeCount := 1, wasResized := false), false)
      else DeferStep(d.(resizeCount := d.resizeCount + 1), false)
    else
      var count := d.resizeCount - 1;
      if count == 0 then
        var drawCount := if hooked then d.drawCount - 1 else d.drawCount;
        if d.wasResized then DeferStep(Deferral(count, false, drawCount), true)
        else DeferStep(Deferral(count, d.wasResized, drawCount), false)
      else DeferStep(d.(resizeCount := count), false)
  }

  /** `setDeferResize(defer)` with redraw turned off on entry when a
      custom-draw listener is registered, as the release expects. */
  function SetDeferResize(d: Deferral, defer: bool, hooked: bool): (r: DeferStep)
    ensures defer ==> r.state.resizeCount == d.resizeCount + 1 && !r.resizeSent
    ensures defer ==> r.state.drawCount == if hooked && d.resizeCount == 0 then d.drawCount + 1 else d.drawCount
    ensures defer ==> r.state.wasResized == (d.resizeCount != 0 && d.wasResized)
    ensures !defer ==> r.state.resizeCount == d.resizeCount - 1
    ensures !defer ==> r.state.drawCount == if hooked && d.resizeCount == 1 then d.drawCount - 1 else d.drawCount
    ensures r.resizeSent <==> !defer && d.resizeCount == 1 && d.wasResized
    ensures !defer ==> r.state.wasResized == (d.wasResized && !r.resizeSent)
  {
    if defer then
      if d.resizeCount == 0 then
        var drawCount := if hooked then d.drawCount + 1 else d.drawCount;
        DeferStep(Deferral(1, false, drawCount), false)
      else DeferStep(d.(resizeCount := d.resizeCount + 1), false)
    else
      var count := d.resizeCount - 1;
      if count == 0 then
        var drawCount := if hooked then d.drawCount - 1 else d.drawCount;
        if d.wasResized then DeferStep(Deferral(count, false, drawCount), true)
        else DeferStep(Deferral(count, d.wasResized, drawCount), false)
      else DeferStep(d.(resizeCount := count), false)
  }

  /** A deferral followed by its release, with no resize in between,
      restores the nesting depth and `drawCount` and sends no Resize. */
  lemma DeferResizeBalanced(d: Deferral, hooked: bool)
    requires d.resizeCount >= 0
    ensures var inner := SetDeferResize(d, true, hooked);
            var outer := SetDeferResize(inner.state, false, hooked);
            && outer.state.resizeCount == d.resizeCount
            && outer.state.drawCount == d.drawCount
            && !inner.resizeSent && !outer.resizeSent
  {
  }

  /** With a custom-draw listener, one deferral and its release leave the
      code as written with `drawCount` one lower than before. */
  lemma DeferResizeAsWrittenUnbalanced()
    ensures var inner := SetDeferResizeAsWritten(Deferral(0, false, 0), true, true);
            SetDeferResizeAsWritten(inner.state, false, true).state.drawCount == -1
    ensures var inner := SetDeferResize(Deferral(0, false, 0), true, true);
            SetDeferResize(inner.state, false, true).state.drawCount == 0
  {
  }
}

=== FILE: traversal.dfy ===
/** Keyboard traversal as the Control variants implement it.

    `traverse(traversal, character, keyCode, keyLocation, stateMask, doit)`
    first turns a key into a traversal detail when none was given, then
    either hands a mnemonic to the mnemonic lookup, or offers the event to
    the receiver and (for the "all" details) to its ancestors up to the
    shell. The per-control `traverse(Event)` results, the `hooks(Traverse)`
    answers and the mnemonic lookup are listener-dependent, so they are
    parameters here. `traverseGroup` and `traverseItem` walk a list
    cyclically from the receiver's position; whether a widget takes focus
    is again a parameter. */
module Traversal {

  import opened Wrappers
  import opened Swt
  import Seqs

  /** A traversal detail together with the event's `doit` flag. */
  datatype Mapping = Mapping(detail: bv32, doit: bool)

  predicate IsArrowKey(keyCode: bv32) {
    keyCode == ARROW_UP || keyCode == ARROW_DOWN || keyCode == ARROW_LEFT || keyCode == ARROW_RIGHT
  }

  /** Keys the switch of every variant names explicitly. */
  predicate IsTraversalKey(keyCode: bv32) {
    keyCode == ESC || keyCode == CR || IsArrowKey(keyCode) || keyCode == TAB
    || keyCode == PAGE_UP || keyCode == PAGE_DOWN
  }

  /** The key switch of the GTK control and of the Linux Dart control,
      applied when the caller passed TRAVERSE_NONE. */
  function GtkKeyMapping(traversal: bv32, character: char, keyCode: bv32,
                         stateMask: bv32, doit: bool): (m: Mapping)
    ensures traversal != TRAVERSE_NONE ==> m == Mapping(traversal, doit)
    ensures traversal == TRAVERSE_NONE ==>
      && (keyCode == ESC ==> m == Mapping(TRAVERSE_ESCAPE, true))
      && (keyCode == CR ==> m == Mapping(TRAVERSE_RETURN, true))
      && ((keyCode == ARROW_DOWN || keyCode == ARROW_RIGHT) ==> m == Mapping(TRAVERSE_ARROW_NEXT, false))
      && ((keyCode == ARROW_UP || keyCode == ARROW_LEFT) ==> m == Mapping(TRAVERSE_ARROW_PREVIOUS, false))
      && (keyCode == TAB ==>
            m == Mapping(if stateMask & SHIFT != 0 then TRAVERSE_TAB_PREVIOUS else TRAVERSE_TAB_NEXT, true))
      && (keyCode == PAGE_DOWN ==>
            m == if stateMask & CTRL != 0 then Mapping(TRAVERSE_PAGE_NEXT, true) else Mapping(TRAVERSE_NONE, doit))
      && (keyCode == PAGE_UP ==>
            m == if stateMask & CTRL != 0 then Mapping(TRAVERSE_PAGE_PREVIOUS, true) else Mapping(TRAVERSE_NONE, doit))
      // any other key is a mnemonic exactly when a character comes with ALT and without CTRL
      && (!IsTraversalKey(keyCode) ==>
            m == if character != 0 as char && stateMask & (ALT | CTRL) == ALT
                 then Mapping(TRAVERSE_MNEMONIC, true) else Mapping(TRAVERSE_NONE, doit))
  {
    if traversal != TRAVERSE_NONE then Mapping(traversal, doit)
    else if keyCode == ESC then Mapping(TRAVERSE_ESCAPE, true)
    else if keyCode == CR then Mapping(TRAVERSE_RETURN, true)
    else if keyCode == ARROW_DOWN || keyCode == ARROW_RIGHT then Mapping(TRAVERSE_ARROW_NEXT, false)
    else if keyCode == ARROW_UP || keyCode == ARROW_LEFT then Mapping(TRAVERSE_ARROW_PREVIOUS, false)
    else if keyCode == TAB then
      Mapping(if stateMask & SHIFT != 0 then TRAVERSE_TAB_PREVIOUS else TRAVERSE_TAB_NEXT, true)
    else if keyCode == PAGE_DOWN then
      (if stateMask & CTRL != 0 then Mapping(TRAVERSE_PAGE_NEXT, true) else Mapping(traversal, doit))
    else if keyCode == PAGE_UP then
      (if stateMask & CTRL != 0 then Mapping(TRAVERSE_PAGE_PREVIOUS, true) else Mapping(traversal, doit))
    else if character != 0 as char && stateMask & (ALT | CTRL) == ALT then
      Mapping(TRAVERSE_MNEMONIC, true)
    else Mapping(traversal, doit)
  }

  /** The key switch of the Cocoa Dart control: an unlisted key makes
      `traverse` return false at once (`None`), so no mnemonic is derived. */
  function CocoaKeyMapping(traversal: bv32, keyCode: bv32, stateMask: bv32, doit: bool): (m: Option<Mapping>)
    ensures traversal == TRAVERSE_NONE && !IsTraversalKey(keyCode) ==> m == None
    ensures m.Some? ==> m.value.detail != TRAVERSE_MNEMONIC || traversal == TRAVERSE_MNEMONIC
  {
    if traversal != TRAVERSE_NONE then Some(Mapping(traversal, doit))
    else if keyCode == ESC then Some(Mapping(TRAVERSE_ESCAPE, true))
    else if keyCode == CR then Some(Mapping(TRAVERSE_RETURN, true))
    else if keyCode == ARROW_DOWN || keyCode == ARROW_RIGHT then Some(Mapping(TRAVERSE_ARROW_NEXT, false))
    else if keyCode == ARROW_UP || keyCode == ARROW_LEFT then Some(Mapping(TRAVERSE_ARROW_PREVIOUS, false))
    else if keyCode == TAB then
      Some(Mapping(if stateMask & SHIFT != 0 then TRAVERSE_TAB_PREVIOUS else TRAVERSE_TAB_NEXT, true))
    else if keyCode == PAGE_DOWN then
      Some(if stateMask & CTRL != 0 then Mapping(TRAVERSE_PAGE_NEXT, true) else Mapping(traversal, doit))
    else if keyCode == PAGE_UP then
      Some(if stateMask & CTRL != 0 then Mapping(TRAVERSE_PAGE_PREVIOUS, true) else Mapping(traversal, doit))
    else None
  }

  /** On every key both switches name, Cocoa derives exactly what GTK derives. */
  lemma CocoaAgreesWithGtk(traversal: bv32, character: char, keyCode: bv32, stateMask: bv32, doit: bool)
    requires traversal != TRAVERSE_NONE || IsTraversalKey(keyCode)
    ensures CocoaKeyMapping(traversal, keyCode, stateMask, doit)
            == Some(GtkKeyMapping(traversal, character, keyCode, stateMask, doit))
  {
  }

  /** How the second switch of `traverse` treats a detail. */
  datatype DetailKind =
    | Walk(all: bool)   // offered along the ancestor chain; `all` walks past the receiver
    | MnemonicLookup    // handed to `translateMnemonic`
    | Unsupported       // `traverse` returns false

  function Classify(detail: bv32): (k: DetailKind)
    ensures k.Walk? && k.all <==>
              detail in {TRAVERSE_ESCAPE, TRAVERSE_RETURN, TRAVERSE_PAGE_NEXT, TRAVERSE_PAGE_PREVIOUS}
    ensures k.Walk? && !k.all <==>
              detail in {TRAVERSE_ARROW_NEXT, TRAVERSE_ARROW_PREVIOUS, TRAVERSE_TAB_NEXT, TRAVERSE_TAB_PREVIOUS}
    ensures k.MnemonicLookup? <==> detail == TRAVERSE_MNEMONIC
  {
    if detail == TRAVERSE_ESCAPE || detail == TRAVERSE_RETURN
       || detail == TRAVERSE_PAGE_NEXT || detail == TRAVERSE_PAGE_PREVIOUS then Walk(true)
    else if detail == TRAVERSE_ARROW_NEXT || detail == TRAVERSE_ARROW_PREVIOUS
       || detail == TRAVERSE_TAB_NEXT || detail == TRAVERSE_TAB_PREVIOUS then Walk(false)
    else if detail == TRAVERSE_MNEMONIC then MnemonicLookup
    else Unsupported
  }

  /** One control on the path from the receiver to the top: whether its
      `traverse(Event)` handled the event, the event's `doit` afterwards,
      whether it hooks Traverse, and whether it is the receiver's shell. */
  datatype Hop = Hop(handled: bool, doit: bool, hooksTraverse: bool, isShell: bool)

  /** A hop after which the do-while loop goes on to the parent. */
  predicate PassesOn(h: Hop) {
    !h.handled && !(!h.doit && h.hooksTraverse) && !h.isShell
  }

  /** The do-while loop over the ancestor chain `hops[i..]`. */
  function ChainWalk(hops: seq<Hop>, all: bool, i: nat): (handled: bool)
    requires i < |hops|
    decreases |hops| - i
  {
    var h := hops[i];
    if h.handled then true
    else if !h.doit && h.hooksTraverse then false
    else if h.isShell then false
    else if all && i + 1 < |hops| then ChainWalk(hops, all, i + 1)
    else false
  }

  /** Reference reading of the walk: some control handles the event and every
      control before it passes the event on; without `all` only the receiver
      is asked. */
  lemma {:induction false} ChainWalkHandledBy(hops: seq<Hop>, all: bool, i: nat)
    requires i < |hops|
    ensures !all ==> (ChainWalk(hops, all, i) <==> hops[i].handled)
    ensures all ==> (ChainWalk(hops, all, i) <==>
                     exists k :: i <= k < |hops| && hops[k].handled
                                 && forall j :: i <= j < k ==> PassesOn(hops[j]))
    decreases |hops| - i
  {
    if all && !hops[i].handled && PassesOn(hops[i]) && i + 1 < |hops| {
      ChainWalkHandledBy(hops, all, i + 1);
      if ChainWalk(hops, all, i + 1) {
        var k :| i + 1 <= k < |hops| && hops[k].handled
                 && forall j :: i + 1 <= j < k ==> PassesOn(hops[j]);
        assert forall j :: i <= j < k ==> PassesOn(hops[j]);
      }
      if exists k :: i <= k < |hops| && hops[k].handled && forall j :: i <= j < k ==> PassesOn(hops[j]) {
        var k :| i <= k < |hops| && hops[k].handled && forall j :: i <= j < k ==> PassesOn(hops[j]);
        assert k != i;
      }
    } else if all {
      if exists k :: i <= k < |hops| && hops[k].handled && forall j :: i <= j < k ==> PassesOn(hops[j]) {
        var k :| i <= k < |hops| && hops[k].handled && forall j :: i <= j < k ==> PassesOn(hops[j]);
        if k != i { assert PassesOn(hops[i]); }
      }
    }
  }

  /** `traverse(traversal, character, keyCode, keyLocation, stateMask, doit)`
      of the GTK control (the Linux Dart control is the same code):
      `hops` is the receiver followed by its ancestors, `mnemonicHandled`
      the result of the two `translateMnemonic` calls. */
  function GtkTraverse(traversal: bv32, character: char, keyCode: bv32, stateMask: bv32,
                       doit: bool, hops: seq<Hop>, mnemonicHandled: bool): (handled: bool)
    requires |hops| > 0
    ensures var d := GtkKeyMapping(traversal, character, keyCode, stateMask, doit).detail;
            handled ==> d in {TRAVERSE_ESCAPE, TRAVERSE_RETURN, TRAVERSE_PAGE_NEXT, TRAVERSE_PAGE_PREVIOUS,
                              TRAVERSE_ARROW_NEXT, TRAVERSE_ARROW_PREVIOUS, TRAVERSE_TAB_NEXT,
                              TRAVERSE_TAB_PREVIOUS, TRAVERSE_MNEMONIC}
    ensures var d := GtkKeyMapping(traversal, character, keyCode, stateMask, doit).detail;
            d == TRAVERSE_MNEMONIC ==> handled == mnemonicHandled
  {
    var m := GtkKeyMapping(traversal, character, keyCode, stateMask, doit);
    match Classify(m.detail)
    case Walk(all) => ChainWalk(hops, all, 0)
    case MnemonicLookup => mnemonicHandled
    case Unsupported => false
  }

  /** `traverse(...)` of the Cocoa Dart control as written: a detail that
      reaches the ancestor walk starts it by casting the receiver's own
      implementation, this Dart control, to the native `SwtControl`, which
      throws; every other key returns false. */
  function CocoaTraverseAsWritten(traversal: bv32, keyCode: bv32, stateMask: bv32, doit: bool): (r: Result<bool>)
    ensures r.Err? <==> CocoaKeyMapping(traversal, keyCode, stateMask, doit).Some? &&
                        Classify(CocoaKeyMapping(traversal, keyCode, stateMask, doit).value.detail).Walk?
    ensures r.Err? ==> r.fault == ClassCast
    ensures r.Ok? ==> !r.value
  {
    match CocoaKeyMapping(traversal, keyCode, stateMask, doit)
    case None => Ok(false)
    case Some(m) =>
      match Classify(m.detail)
      case Walk(_) => Err(ClassCast)
      case MnemonicLookup => Ok(false)
      case Unsupported => Ok(false)
  }

  /** Pressing Return throws on macOS as written, where the corrected walk
      returns whether some control on the chain handles it. */
  lemma CocoaTraverseAsWrittenThrows(hops: seq<Hop>)
    requires |hops| > 0
    ensures CocoaTraverseAsWritten(TRAVERSE_NONE, CR, 0, true) == Err(ClassCast)
    ensures CocoaTraverse(TRAVERSE_NONE, CR, 0, true, hops) == ChainWalk(hops, true, 0)
  {
  }

  /** The as-written and the corrected traversal differ only where the walk
      starts: everywhere else both return false. */
  lemma CocoaTraverseAsWrittenAgrees(traversal: bv32, keyCode: bv32, stateMask: bv32, doit: bool, hops: seq<Hop>)
    requires |hops| > 0
    ensures CocoaTraverseAsWritten(traversal, keyCode, stateMask, doit).Ok? ==>
              CocoaTraverseAsWritten(traversal, keyCode, stateMask, doit)
              == Ok(CocoaTraverse(traversal, keyCode, stateMask, doit, hops))
  {
  }

  /** `traverse(...)` of the Cocoa Dart control, corrected to walk the chain
      through each control's own `traverse(Event)` as the GTK and Windows
      controls do: no mnemonics at all. */
  function CocoaTraverse(traversal: bv32, keyCode: bv32, stateMask: bv32,
                         doit: bool, hops: seq<Hop>): (handled: bool)
    requires |hops| > 0
    ensures traversal == TRAVERSE_NONE && !IsTraversalKey(keyCode) ==> !handled
    ensures traversal == TRAVERSE_MNEMONIC ==> !handled
    ensures handled ==> CocoaKeyMapping(traversal, keyCode, stateMask, doit).Some?
  {
    match CocoaKeyMapping(traversal, keyCode, stateMask, doit)
    case None => false
    case Some(m) =>
      match Classify(m.detail)
      case Walk(all) => ChainWalk(hops, all, 0)
      case MnemonicLookup => false
      case Unsupported => false
  }

  // Cyclic walks of traverseGroup / traverseItem.

  /** Where the walk stands after `k` steps, for `k` within one turn. */
  function CyclePos(start: int, next: bool, k: int, length: int): (p: int)
    requires 0 <= start < length && 0 <= k <= length
    ensures 0 <= p < length || (k == length && p == start)
  {
    if next then (if start + k < length then start + k else start + k - length)
    else (if start - k >= 0 then start - k else start - k + length)
  }

  /** `%` of a value that is less than one turn past `n`. */
  lemma ModWithinTwoTurns(x: int, n: int)
    requires 0 < n && 0 <= x <= 2 * n
    ensures x % n == if x < n then x else if x < 2 * n then x - n else 0
  {
    if x < n {
    } else if x < 2 * n {
      assert x == 1 * n + (x - n);
    } else {
      assert x == 2 * n + 0;
    }
  }

  /** One step of the loop, `(index + offset + length) % length` in Java;
      all operands are non-negative, so Java's `%` is Dafny's. */
  function Step(index: int, next: bool, length: int): (r: int)
    requires 0 <= index < length
    ensures 0 <= r < length
    ensures next ==> r == if index + 1 == length then 0 else index + 1
    ensures !next ==> r == if index == 0 then length - 1 else index - 1
  {
    var x := index + (if next then 1 else -1) + length;
    assert 0 <= x <= 2 * length;
    ModWithinTwoTurns(x, length);
    x % length
  }

  lemma StepAdvances(start: int, next: bool, k: int, length: int)
    requires 0 <= start < length && 0 <= k < length
    ensures Step(CyclePos(start, next, k, length), next, length) == CyclePos(start, next, k + 1, length)
  {
  }

  /** Within one turn the walk never comes back to its start. */
  lemma CycleVisitsEachOnce(start: int, next: bool, k: int, length: int)
    requires 0 <= start < length
    requires 0 < k < length
    ensures CyclePos(start, next, k, length) != start
  {
  }

  /** The number of steps from `start` to `target`. */
  function Distance(start: int, target: int, next: bool, length: int): (k: int)
    requires 0 <= start < length && 0 <= target < length
    ensures 0 <= k < length
    ensures CyclePos(start, next, k, length) == target
    ensures k == 0 <==> target == start
  {
    if next then
      (if target >= start then target - start else target - start + length)
    else
      (if start >= target then start - target else start - target + length)
  }

  lemma DistanceUnique(start: int, next: bool, k: int, length: int)
    requires 0 <= start < length && 0 <= k < length
    ensures Distance(start, CyclePos(start, next, k, length), next, length) == k
  {
  }

  /** `traverseGroup`'s and `traverseItem`'s loop: from `start`, step until
      back at `start`, stopping at the first accepting position (an
      undisposed widget that took focus). Every other position is visited
      exactly once, in the order of `Distance`. */
  method CycleFirstAccepting(accepts: seq<bool>, start: int, next: bool) returns (found: Option<int>)
    requires 0 <= start < |accepts|
    ensures found.Some? ==> 0 <= found.value < |accepts| && found.value != start && accepts[found.value]
    ensures found.Some? ==> forall k :: 0 < k < Distance(start, found.value, next, |accepts|) ==>
                              !accepts[CyclePos(start, next, k, |accepts|)]
    ensures found.None? ==> forall i :: 0 <= i < |accepts| && i != start ==> !accepts[i]
  {
    var length := |accepts|;
    var k := 1;
    StepAdvances(start, next, 0, length);
    var index := Step(start, next, length);
    while index != start
      invariant 1 <= k <= length
      invariant index == CyclePos(start, next, k, length)
      invariant forall j :: 0 < j < k ==> !accepts[CyclePos(start, next, j, length)]
      decreases length - k
    {
      if accepts[index] {
        DistanceUnique(start, next, k, length);
        return Some(index);
      }
      StepAdvances(start, next, k, length);
      index := Step(index, next, length);
      k := k + 1;
    }
    if k < length { CycleVisitsEachOnce(start, next, k, length); }
    forall i | 0 <= i < length && i != start
      ensures !accepts[i]
    {
      var d := Distance(start, i, next, length);
      assert 0 < d < k;
    }
    return None;
  }

  /** `traverseGroup(next)`: `list` is the tab list of the root, `group` the
      receiver's tab group; `takesFocus[i]` says that `list[i]` is not
      disposed and accepted `setTabGroupFocus`. When no other group takes
      focus, the group itself is asked again unless it is disposed. */
  method TraverseGroup<W(==)>(list: seq<W>, group: W, next: bool, takesFocus: seq<bool>,
                              groupDisposed: bool, groupTakesFocus: bool) returns (moved: bool)
    requires |takesFocus| == |list|
    ensures group !in list ==> !moved
    ensures group in list ==>
              (moved <==> (exists i :: 0 <= i < |list| && i != Seqs.IndexOf(list, group) && takesFocus[i])
                          || (!groupDisposed && groupTakesFocus))
  {
    var index := Seqs.IndexOf(list, group);
    if index == -1 {
      return false;
    }
    var found := CycleFirstAccepting(takesFocus, index, next);
    if found.Some? {
      return true;
    }
    if groupDisposed {
      return false;
    }
    return groupTakesFocus;
  }

  /** `traverseItem(next)`: the receiver's siblings are walked and the first
      undisposed tab item that accepts `setTabItemFocus` takes focus. */
  method TraverseItem<W(==)>(children: seq<W>, self: W, next: bool, takesFocus: seq<bool>)
    returns (moved: bool)
    requires |takesFocus| == |children|
    ensures self !in children ==> !moved
    ensures self in children ==>
              (moved <==> exists i :: 0 <= i < |children| && i != Seqs.IndexOf(children, self) && takesFocus[i])
  {
    var index := Seqs.IndexOf(children, self);
    if index == -1 {
      return false;
    }
    var found := CycleFirstAccepting(takesFocus, index, next);
    return found.Some?;
  }
}

=== FILE: wrappers.dfy ===
/** Failure-carrying results shared by every component of the model.

    A Java method of the toolkit either returns normally or throws. The throws
    that matter to callers are `SWT.error(code)` (an SWT error code) and the two
    runtime exceptions the bookkeeping code can run into: a null dereference, an
    array index out of bounds, and a cast of a widget's implementation object
    to a class it does not belong to. */
module Wrappers {

  datatype Option<+T> = None | Some(value: T)

  /** Why an operation did not return normally. */
  datatype Fault =
    | SwtFault(code: int)       // SWT.error(code)
    | NullPointer               // NullPointerException
    | IndexOutOfBounds          // ArrayIndexOutOfBoundsException
    | ClassCast                 // ClassCastException

  datatype Result<+T> = Ok(value: T) | Err(fault: Fault) {
    predicate IsFailure() { Err? }

    function PropagateFailure<U>(): Result<U>
      requires Err?
    {
      Err(fault)
    }

    function Extract(): T
      requires Ok?
    {
      value
    }
  }
}
